=== FILE: README.md ===
# Skywire transport discovery, routing tables and updater, in Dafny

This project models the sequential core of the skywire transport-discovery
service, of the routing tables and packet encoders it vendors from
skywire-node, and of the skywire updater. It proves properties of that model.

- **Transport discovery.**
  - The in-memory store (`memStore`) and its nonce map.
  - The standalone nonce store.
  - The Postgres rendezvous in which both edges of a transport must
    acknowledge it before it can be looked up.
  - The signed-request scheme: headers, nonce check, and a signature over
    the body followed by the nonce's digits.
  - The API's signature gate, its error-to-status mapping, and its handlers.
- **Routing.**
  - The in-memory and BoltDB routing tables.
  - The fixed byte layouts of rules, packets and binary transport entries.
- **Updater.**
  - Configuration normalisation.
  - The environment handed to scripts, where the last entry for a key wins.
  - The GitHub and script checkers.
  - The manager, the last-update store and the custom updater.
  - The simple active checker.
  - The legacy per-service timestamp map.

Every operation is a pure function over an immutable state. Only the
service listing is a method with a loop. Everything the Go code gets from
outside is a parameter:

- cryptography (`Cipher.Suite`, with its axioms in `Cipher.Sound`);
- the curve check;
- clocks;
- the process environment;
- `os.Stat` and `filepath.Join`;
- `time.Parse` and `time.ParseDuration`;
- HTTP fetches;
- script runs;
- map iteration order.

Hex encoding and base-10 rendering and parsing of `uint64` are modelled
concretely, so that the client/server round trips can be proved.

The files come from several revisions of the code. The Postgres store and
the register/deregister handlers use a `store.Transport` with a serial
`store.ID` and a slice of edges, of which the store uses the first two. The in-memory store uses `transport.SignedEntry`
with a UUID. Each file is modelled against its own types.

## Model

| member | source | states |
|---|---|---|
| TdStore.NonceString | pkg/transport-discovery/store/store.go:30 | `Nonce.String` is a base-10 digit string that `strconv.ParseUint` reads back as the same nonce |
| MemStore.NewMemoryStore | pkg/transport-discovery/store/memory_store.go:23-28 | a fresh store holds no transports, no error, and every nonce is 0 |
| MemStore.New | pkg/transport-discovery/store/store.go:62-75 | "memory" gives a memory store; "redis" with other than one argument fails "invalid args"; any other tag fails "unknown store type" |
| MemStore.NewMemoryIsEmpty | pkg/transport-discovery/store/store.go:62-75 | a "memory" store knows no transport, so lookup and deregistration give "Transport not found", and every nonce starts at 0 |
| MemStore.RegisterTransport | pkg/transport-discovery/store/memory_store.go:34-58 | a duplicate live ID fails "ID already registered" and changes nothing; otherwise the entry is appended with IsUp and both statuses true, and the stamp is copied back to the caller; a set error is returned unchanged |
| MemStore.RegisterTransportAsWritten | pkg/transport-discovery/store/memory_store.go:34-58 | as written: a panic happens only on a store holding an empty slot; whenever it returns, it returns what the corrected registration does |
| MemStore.ScanStops | pkg/transport-discovery/store/memory_store.go:42-46 | the scan as written stops at an empty slot only if there is one, at a duplicate only if a live slot holds the ID, and at the end only if none does |
| MemStore.RegisterThenLookup | pkg/transport-discovery/store/memory_store.go:34-58 | after a registration, lookup by ID returns the entry with both statuses up and the registration stamp |
| MemStore.DeregisterTransport | pkg/transport-discovery/store/memory_store.go:60-79 | a live ID always succeeds: the first live slot with it is emptied and its entry returned, every other slot kept; not-found when no live slot holds it; a set error is returned unchanged; nonces untouched |
| MemStore.RegisterThenDeregister | pkg/transport-discovery/store/memory_store.go:34-79 | deregistering a just-registered ID returns the registered entry, leaves the store as before plus an empty slot, and the ID is then not found |
| MemStore.DeregisterThenLookup | pkg/transport-discovery/store/memory_store.go:60-79 | after a deregistration both a lookup and a second deregistration give "Transport not found" |
| MemStore.GetTransportById | pkg/transport-discovery/store/memory_store.go:81-99 | the entry of the first live slot with the ID; "Transport not found" exactly when no live slot holds it; a set error is returned unchanged |
| MemStore.GetTransportsByEdge | pkg/transport-discovery/store/memory_store.go:101-125 | exactly the live entries with either edge equal to the key's hex; not-found when there are none |
| MemStore.LiveOnEdgeSnoc | pkg/transport-discovery/store/memory_store.go:101-125 | the lookup keeps store order: an appended live entry on the edge comes after all earlier ones |
| MemStore.RegisterThenByEdge | pkg/transport-discovery/store/memory_store.go:34-125 | after a fresh registration, the lookup for either of its keys is the earlier list followed by the new entry, and the lookup for any other key is unchanged |
| MemStore.UpdateStatusAs | pkg/transport-discovery/store/memory_store.go:136-155 | an unknown ID gives not-found and a key that is not an edge gives "unauthorized", both leaving the store unchanged; a key that is an edge always succeeds, reporting on the first edge it matches; only that edge's status changes, IsUp becomes the AND of both, and only the found slot is replaced |
| MemStore.ReportByEdge | pkg/transport-discovery/store/memory_store.go:146-155 | a report by the first edge leaves the second edge's slot and sets IsUp to the AND |
| MemStore.ReportBySameKey | pkg/transport-discovery/store/memory_store.go:141-155 | when both edges are the same key, its report always sets the first status and never the second |
| MemStore.UpdateStatus | pkg/transport-discovery/store/memory_store.go:127-135 | as written: no key under the string context key "auth-pub-key" fails "invalid auth" without a change; a key there acts as `UpdateStatusAs` |
| MemStore.StatusThroughGate | pkg/transport-discovery/store/memory_store.go:132 | through the gate, which attaches the key under `ContextAuthKey`, the as-written read always fails "invalid auth"; the corrected read acts for the attached key |
| MemStore.UpdateStatusFromAuth | pkg/transport-discovery/api/api.go:124 | the status update reading the reporter from `store.ContextAuthKey`, where the gate puts it |
| MemStore.OperationsKeepUniqueIds | pkg/transport-discovery/store/memory_store.go:34-155 | registration, deregistration and status reports keep every ID in at most one live slot |
| MemStore.RegisterAsWrittenWithoutHoles | pkg/transport-discovery/store/memory_store.go:42-46 | while no slot is empty, the as-written registration scan agrees with the corrected one |
| MemStore.ReRegisterAfterDeregister | pkg/transport-discovery/store/memory_store.go:42-46 | register, deregister, register another: the as-written scan dereferences the emptied slot and panics; the corrected one stores the second entry |
| MemStore.GetNonce | pkg/transport-discovery/store/memory_store.go:158-166 | the stored nonce, 0 for a key never seen; a set error is returned |
| MemStore.IncrementNonce | pkg/transport-discovery/store/memory_store.go:168-178 | stores and returns the previous nonce plus one; no other key's nonce moves; transports untouched |
| MemStore.IncrementFromFresh | pkg/transport-discovery/store/memory_store.go:168-178 | n increments of a key never seen leave its nonce at n |
| NonceLedger.GetNonce | pkg/transport-discovery/store/memory/store.go:33-37 | the stored counter, 0 for a key never seen |
| NonceLedger.IncrementNonce | pkg/transport-discovery/store/memory/store.go:22-31 | returns and stores the previous value plus one, wrapping at 2^64; every other key keeps its counter |
| NonceLedger.IncrementTimesFromFresh | pkg/transport-discovery/store/memory/store.go:22-31 | n increments of a fresh key leave it at exactly n and every other key as it was |
| SqlStore.FindByEdges | pkg/transport-discovery/store/sql/sql.go:50-51 | the first row whose edge array contains both edges, or none |
| SqlStore.FindByEdgesSymmetric | pkg/transport-discovery/store/sql/sql.go:50 | the containment query gives the same row whichever edge comes first |
| SqlStore.RegisterTx | pkg/transport-discovery/store/sql/sql.go:45-74 | a matching row's ID is reused with no row added; otherwise one row with the two edges and the next serial ID is appended; the ACK (ID, first edge) is added; any failing statement rolls back rows and ACKs |
| SqlStore.RegisterIdempotent | pkg/transport-discovery/store/sql/sql.go:62-66 | registering the same edges again changes nothing and returns the same ID, since (transport, node) is the ACK key |
| SqlStore.RegisterRollsBack | pkg/transport-discovery/store/sql/sql.go:29-41 | a failure at begin, find, insert, ACK or commit returns that error and leaves neither row nor ACK |
| SqlStore.RegisterKeepsValid | pkg/transport-discovery/store/sql/sql.go:149-162 | registration keeps row IDs unique, below the serial counter, and every ACK pointing at a row |
| SqlStore.AckCount | pkg/transport-discovery/store/sql/sql.go:109-114 | the count query reaches 2 exactly when the two edges differ and both have ACKed |
| SqlStore.GetTransportById | pkg/transport-discovery/store/sql/sql.go:95-127 | succeeds exactly when the row exists and both edges have ACKed; a missing row, like a half-acknowledged one, gives "Not enough ACKs" |
| SqlStore.SelfTransportNeverFound | pkg/transport-discovery/store/sql/sql.go:109-124 | a row whose two edges are equal is never found |
| SqlStore.DeregisterTransport | pkg/transport-discovery/store/sql/sql.go:133-147 | removes every ACK of the ID and then its row; succeeds when nothing matched; a failure changes nothing |
| SqlStore.DeregisterKeepsValid | pkg/transport-discovery/store/sql/sql.go:133-147 | deregistration keeps the schema's constraints |
| SqlStore.DeregisterThenLookup | pkg/transport-discovery/store/sql/sql.go:133-147 | after a deregistration the ID has no ACK and lookup gives "Not enough ACKs" |
| SqlStore.WaitForTransport | pkg/transport-discovery/store/sql/sql.go:79-93 | success only after a tick whose lookup succeeds; a finished context aborts with its error; failing lookups of any kind are retried |
| SqlStore.WaitSkipsFailures | pkg/transport-discovery/store/sql/sql.go:85-89 | a run of ticks whose lookups fail, for whatever reason, does not change how the wait ends |
| SqlStore.WaitAbortsOnCancel | pkg/transport-discovery/store/sql/sql.go:81-83 | a context that ends before any successful lookup aborts the wait with the context's error |
| SqlStore.RegisterTransport | pkg/transport-discovery/store/sql/sql.go:29-77 | a begun transaction with fewer than two edges panics; otherwise the transaction on the first two edges, then the wait on the returned ID; a transaction error aborts with that error and no change |
| SqlStore.ExtraEdgesIgnored | pkg/transport-discovery/store/sql/sql.go:48-66 | edges after the second change nothing: the registration is that of the first two |
| SqlStore.ShortEdgesPanic | pkg/transport-discovery/store/sql/sql.go:29-51 | fewer than two edges panics unless the transaction fails to begin, which leaves the database as it was |
| SqlStore.Agreement | pkg/transport-discovery/store/sql/sql.go:45-126 | registering {A,B} and then {B,A} yields the same ID, after which lookup returns the transport |
| SqlStore.WaitConvergesAfterPeer | pkg/transport-discovery/store/sql/sql.go:79-93 | the first node's wait succeeds at its first tick after the peer has registered |
| Auth.Message | pkg/transport-discovery/auth/auth.go:12-16 | the hashed bytes start with the payload and the rest, read as a base-10 `uint64`, is the nonce |
| Auth.Hash | pkg/transport-discovery/auth/auth.go:12-16 | the digest is SHA-256 of bytes that start with the payload and continue with the nonce's base-10 text |
| Auth.Sign | pkg/transport-discovery/auth/auth.go:19-21 | under the signature axioms the signature verifies, under the signer's public key, for the digest of payload and nonce |
| Auth.Verify | pkg/transport-discovery/auth/auth.go:24-26 | under the signature axioms a signature that verifies does so for the digest of this payload and nonce and for no other digest |
| Auth.MessageAmbiguous | pkg/transport-discovery/auth/auth.go:12-16 | moving the nonce's leading digits into the payload gives the same bytes |
| Auth.MessageCollisionExample | pkg/transport-discovery/auth/auth.go:12-16 | ("a", 12) and ("a1", 2) hash the same bytes |
| Auth.MessageInjectiveEach | pkg/transport-discovery/auth/auth.go:12-16 | changing only the payload, or only the nonce, changes the message |
| Auth.SignatureBindsMessage | pkg/transport-discovery/auth/auth.go:19-26 | under the signature axioms a signature verifies for the message it was made over, and for no other message whose SHA-256 differs |
| Auth.VerifyRejectsNextNonce | pkg/transport-discovery/auth/auth.go:19-26 | a signature verifies with its own nonce and fails with nonce + 1 unless the two messages collide under SHA-256 |
| Auth.VerifyRejectsOtherPayload | pkg/transport-discovery/auth/auth.go:19-26 | the same nonce with a different payload fails verification unless the two messages collide under SHA-256 |
| Cipher.PubKeyFromHex | pkg/transport-discovery/api/auth.go:31-35 | a parsed key is on the curve and is the hex decoding of the text; bad hex, a length other than 33 bytes and an off-curve point each fail with their own error |
| Cipher.SigFromHex | pkg/transport-discovery/api/auth.go:40-43 | a signature parses exactly when the text is hex of 65 bytes, which it then is; bad hex fails with the hex error, a wrong length with the length error |
| Cipher.SoundSatisfiable | pkg/transport-discovery/auth/auth.go:19-26 | the signature axioms hold of a concrete suite with 32-byte digests and 65-byte signatures |
| Cipher.PubKeyHexRoundTrip | pkg/transport-discovery/api/endpoints.go:49-52 | a valid key's hex parses back to the key |
| Cipher.SigHexRoundTrip | pkg/transport-discovery/client/client.go:133 | the hex of a signature, as the client sends it, parses back to the same signature |
| Hex.DecodeEncode | pkg/transport-discovery/api/auth.go:40-44 | hex decoding recovers every encoded byte string |
| Hex.Decode | pkg/transport-discovery/api/auth.go:40-43 | decoding succeeds exactly on text of even length made of hex digits, and gives half as many bytes |
| Hex.Encode | pkg/transport-discovery/client/client.go:133 | the text has two hex digits per byte and no '/' |
| Decimal.ParseUint64 | pkg/transport-discovery/api/auth.go:50-57 | `ParseUint(s, 10, 64)` succeeds exactly on non-empty digit strings whose value fits 64 bits, gives that value; empty text is a syntax error and a digit string too large for 64 bits a range error |
| Decimal.ParseDigitsRoundTrip | pkg/transport-discovery/api/auth.go:50-58 | `ParseUint` of a nonce's `%d` text gives the nonce back |
| ApiAuth.AuthFromHeaders | pkg/transport-discovery/api/auth.go:24-61 | headers are checked in the order Public, Sig, Nonce and the first failure is reported, naming its header (a bad signature also quotes it); a nonce must be a base-10 uint64; on success the result holds exactly the parsed key, signature and nonce |
| ApiAuth.MalformedNonces | pkg/transport-discovery/api/auth.go:50-57 | "not_a_number", "-1" and "0x0" give "Error parsing SW-Nonce: invalid syntax" |
| ApiAuth.NonceSyntaxError | pkg/transport-discovery/api/auth.go:50-57 | with valid key and signature headers, any nonce text that `ParseUint` rejects as a syntax error fails with exactly "Error parsing SW-Nonce: invalid syntax" |
| ApiAuth.VerifyAuth | pkg/transport-discovery/api/auth.go:67-88 | a store error comes back first and unchanged; any nonce other than the stored one fails "SW-Nonce does not match"; otherwise the result is the signature check over the whole body, which stays readable |
| ApiAuth.DrainBody | pkg/transport-discovery/api/auth.go:104-119 | both returned bodies yield the same bytes; `NoBody` is preserved; a read or close error is returned |
| ApiAuth.PeekBody | pkg/transport-discovery/api/auth.go:91-97 | the saved copy and the request's body both yield the original bytes; `NoBody` stays `NoBody` |
| ApiAuth.ClientHeadersParse | pkg/transport-discovery/client/client.go:116-129 | the headers the client sends parse back to its key, nonce and signature, and the signature verifies over the body |
| ApiAuth.ClientHeaders | pkg/transport-discovery/client/client.go:116-133 | exactly the three headers: the key's hex, which decodes to the key; the nonce's base-10 text, which parses to the nonce; the signature's hex, which decodes to the signature over body and nonce |
| ApiAuth.ClientPassesVerifyAuth | pkg/transport-discovery/api/auth.go:67-88 | a client request passes `VerifyAuth` exactly when the store holds the nonce it signed with |
| Api.StatusOf | pkg/transport-discovery/api/api.go:73-93 | 400 for the empty/invalid PubKey and TransportID errors and for JSON syntax errors; 408 for an expired deadline; 500 for anything else |
| Api.RenderReply | pkg/transport-discovery/api/api.go:55-96 | a value is encoded under the handler's status, 200 by default; an error is rendered as its text under the status the handler wrote, or under `StatusOf` when it wrote none |
| Api.RenderedStatus | pkg/transport-discovery/api/api.go:55-96 | when the handler wrote no status, a rendered error is 400 exactly for the key, ID and JSON syntax errors, 408 exactly for an expired deadline, 500 otherwise; a written status is kept; an error's body is its text |
| Api.Gate | pkg/transport-discovery/api/api.go:98-128 | with `DisableSigVerify` the request passes untouched; a header or verification failure answers 401 without running the handler; a verified POST from a non-zero key increments its nonce, and a store failure there answers 500 |
| Api.GateNonceEffect | pkg/transport-discovery/api/api.go:117-124 | the nonce moves only on a verified POST from a non-zero key, by exactly one, and no other key's nonce moves; the forwarded request carries the key |
| Api.GateStoreFailure | pkg/transport-discovery/api/auth.go:68-71 | a failing store makes every signed request answer 401 |
| Api.ReplayRejected | pkg/transport-discovery/api/api.go:117-124 | replaying a verified POST with identical headers fails the nonce check |
| Api.SplitJoin | pkg/transport-discovery/api/endpoints.go:33 | `strings.Join` of the parts of `strings.Split` gives the string back |
| Api.JoinSplit | pkg/transport-discovery/api/endpoints.go:33 | splitting a join of separator-free parts gives the parts back |
| Api.Split | pkg/transport-discovery/api/endpoints.go:33 | `strings.Split` gives at least one part and no part holds the separator |
| Api.NoncePathParts | pkg/transport-discovery/api/endpoints.go:33 | "/security/nonces/k" splits into "", "security", "nonces", k |
| Api.HandleNoncesAsWritten | pkg/transport-discovery/api/endpoints.go:32-53 | as written: fewer than 3 parts or an empty part 2 fails "Public Key can't be empty"; part 2 is parsed as the key and a parse error is returned as its text; a parsed key succeeds exactly when its nonce can be read, with the key's hex and the nonce, and a store error comes back unchanged |
| Api.NonceRouteAsWrittenFails | pkg/transport-discovery/api/endpoints.go:33-42 | for every key, the as-written route parses "nonces" and answers 500 |
| Api.HandleNonces | pkg/transport-discovery/api/endpoints.go:32-53 | the key is taken from the part after "/security/nonces/", with the API's PubKey errors |
| Api.NonceRoute | pkg/transport-discovery/api/endpoints.go:44-52 | the corrected route answers with the key's hex and its stored nonce, changes nothing, and returns a store error unchanged |
| Api.NonceRouteBadKey | pkg/transport-discovery/api/api_test.go:192-229 | an empty key answers 400 "empty", a non-hex one such as "foo-bar" 400 "invalid" |
| Api.HandleRegister | pkg/transport-discovery/api/endpoints.go:14-26 | decode and store errors come back unchanged; fewer than two edges panics and the connection is dropped with no change; success writes 201 and echoes the transport with its ID |
| Api.RegisterShortEdgesDropped | pkg/transport-discovery/api/endpoints.go:14-26 | a body with fewer than two edges gets no response and leaves the database as it was |
| Api.HandleDeregister | pkg/transport-discovery/api/endpoints.go:28-30 | a no-op answering 200 with `null` |
| Api.DeregisterEndpointKeepsLookups | pkg/transport-discovery/api/endpoints.go:28-30 | after the endpoint every lookup answers as before |
| Api.RegisterResponses | pkg/transport-discovery/api/api.go:73-93 | a JSON syntax error in the body answers 400; an expired deadline while waiting 408; a registration whose peer is in answers 201 with the shared ID |
| TransportEntry.ToBinary | vendor/github.com/watercompany/skywire-node/pkg/transport/entry.go:26-33 | 16 + 2·33 + \|Type\| bytes starting with the 16 ID bytes; every edge must be valid key hex, since the source panics otherwise |
| TransportEntry.ToBinaryLayout | vendor/github.com/watercompany/skywire-node/pkg/transport/entry.go:26-33 | the ID, then the decoded key of the first edge, then of the second, then the type's bytes |
| TransportEntry.ToBinaryOfKeys | vendor/github.com/watercompany/skywire-node/pkg/transport/entry.go:26-33 | for edges written as key hex the encoding is ID ++ key0 ++ key1 ++ type |
| Packets.MakePacket | vendor/github.com/watercompany/skywire-node/pkg/transport/packet.go:20-29 | 6 + \|payload\| bytes: the route ID little-endian in bytes 0-3, the payload length little-endian in 4-5, then the payload; a payload over 65535 bytes panics, so it is required |
| Packets.PacketRoundTrip | vendor/github.com/watercompany/skywire-node/pkg/transport/packet.go:20-29 | reading the header and slicing the rest gives the route ID and payload back |
| Packets.ReadPacketInverse | vendor/github.com/watercompany/skywire-node/pkg/transport/packet.go:20-29 | every byte string that reads as a packet is the packet of what it reads as |
| Rules.LoopbackRule | vendor/github.com/watercompany/skywire-node/pkg/transport/rule.go:23-27 | 3 bytes: opcode 0, then the port little-endian |
| Rules.ForwardRule | vendor/github.com/watercompany/skywire-node/pkg/transport/rule.go:30-36 | 38 bytes: opcode 1, the 33 key bytes, the route ID little-endian |
| Rules.RuleRoundTrip | vendor/github.com/watercompany/skywire-node/pkg/transport/rule.go:23-36 | both rule kinds read back as what they were built from |
| Rules.ReadRuleInverse | vendor/github.com/watercompany/skywire-node/pkg/transport/rule.go:23-36 | every byte string that reads as a rule is the rule of what it reads as |
| RoutingTable.AddRuleAsWritten | vendor/github.com/watercompany/skywire-node/pkg/transport/routing_table.go:43-55 | as written: always succeeds, storing under the wrapped counter + 1 |
| RoutingTable.AddAllNumbers | vendor/github.com/watercompany/skywire-node/pkg/transport/routing_table.go:48-54 | successive additions to a table yield IDs 1, 2, 3, ... below the wrap, each rule under its number |
| RoutingTable.AddAllKeeps | vendor/github.com/watercompany/skywire-node/pkg/transport/routing_table.go:48-54 | below the wrap, further additions never overwrite a rule stored at or below the counter |
| RoutingTable.AddRuleWrapsToReserved | vendor/github.com/watercompany/skywire-node/pkg/transport/routing_table.go:44-48 | at counter 2^32 - 1 the as-written addition hands out the reserved `InitRouteID` 0 and stores the rule there; the corrected one fails |
| RoutingTable.AddRule | vendor/github.com/watercompany/skywire-node/pkg/transport/routing_table.go:43-55 | with the guard on the counter: fails "no available routeIDs" without a change once the IDs are spent; otherwise stores under counter + 1, never 0 |
| RoutingTable.AddRuleAgreesBelowWrap | vendor/github.com/watercompany/skywire-node/pkg/transport/routing_table.go:43-55 | below the wrap the as-written and corrected additions agree |
| RoutingTable.SetRule | vendor/github.com/watercompany/skywire-node/pkg/transport/routing_table.go:57-67 | the reserved ID fails "reserved routeID" without a change; any other ID is upserted and nothing else changes |
| RoutingTable.Rule | vendor/github.com/watercompany/skywire-node/pkg/transport/routing_table.go:69-75 | the stored rule, or none for an unknown ID, never an error |
| RoutingTable.DeleteRule | vendor/github.com/watercompany/skywire-node/pkg/transport/routing_table.go:77-83 | removes that ID only; an absent ID is a no-op |
| RoutingTable.CountChanges | vendor/github.com/watercompany/skywire-node/pkg/transport/routing_table.go:85-90 | the count moves by one exactly when an ID appears or disappears |
| RoutingTable.Count | vendor/github.com/watercompany/skywire-node/pkg/transport/routing_table.go:85-90 | the number of rules held, 0 exactly for an empty table |
| BoltRoutingTable.BinaryId | vendor/github.com/watercompany/skywire-node/pkg/transport/boltdb_routing_table.go:112-116 | 4 bytes whose big-endian reading is the route ID |
| BoltRoutingTable.BinaryIdDistinct | vendor/github.com/watercompany/skywire-node/pkg/transport/boltdb_routing_table.go:112-116 | distinct IDs never share a key |
| BoltRoutingTable.AddRule | vendor/github.com/watercompany/skywire-node/pkg/transport/boltdb_routing_table.go:41-55 | the rule goes under the bucket's next sequence number, which is returned; past `MaxUint32` it fails "no available routeIDs" and the rollback leaves the bucket as it was |
| BoltRoutingTable.SetRule | vendor/github.com/watercompany/skywire-node/pkg/transport/boltdb_routing_table.go:58-68 | the reserved ID fails before the bucket is touched; any other ID is written under its key |
| BoltRoutingTable.Rule | vendor/github.com/watercompany/skywire-node/pkg/transport/boltdb_routing_table.go:71-80 | an absent ID gives none, with no error |
| BoltRoutingTable.DeleteRule | vendor/github.com/watercompany/skywire-node/pkg/transport/boltdb_routing_table.go:83-89 | removes exactly that key |
| BoltRoutingTable.BoltRefinesMemory | vendor/github.com/watercompany/skywire-node/pkg/transport/boltdb_routing_table.go:41-89 | every operation of the Bolt table gives the same answer as the corrected in-memory table and keeps the two holding the same rules |
| BoltRoutingTable.AddRuleFresh | vendor/github.com/watercompany/skywire-node/pkg/transport/boltdb_routing_table.go:44-51 | successive additions hand out strictly increasing IDs |
| BoltRoutingTable.AddRuleExhausted | vendor/github.com/watercompany/skywire-node/pkg/transport/boltdb_routing_table.go:46-48 | once an addition fails, every later one fails too |
| UpdateConfig.NewConfig | pkg/update/config.go:117-136 | addr ":7280", REST and RPC on, branch "master", interpreter "/bin/bash", no envs, no services, files under the home directory |
| UpdateConfig.ProcessPart | pkg/update/config.go:67-102 | an empty type becomes "script"; a script part takes the default interpreter, fails "<part>.script needs to be defined" without a script, gets the scripts path joined in front when one is set, and succeeds exactly when the host can access that path, failing "<part>.script cannot be accessed: " with the host's error otherwise; other types pass unchanged |
| UpdateConfig.Process | pkg/update/config.go:65-106 | a service without a repository is accepted as is; otherwise it succeeds exactly when both parts normalise, the checker's error coming first and the updater's next, and an empty branch takes the default |
| UpdateConfig.DefaultsFillIn | pkg/update/config.go:117-136 | through the shipped defaults a service gets branch "master" and interpreter "/bin/bash" for both scripts |
| UpdateConfig.ProcessAllOutcome | pkg/update/config.go:148-152 | from any point of the loop, the rest of it succeeds exactly when every remaining service normalises, and then holds every service normalised; a failure names a remaining service that fails |
| UpdateConfig.ParseConfigOutcome | pkg/update/config.go:148-152 | whatever the map's iteration order, parsing succeeds exactly when every service normalises and then holds each normalised service; a failure is "invalid service <name>: ..." for a failing service |
| UpdateConfig.ParseConfig | pkg/update/config.go:139-162 | a successful parse changes only the services, keeps their names and holds each one's normalised form |
| UpdateEnvs.SplitMakeEnv | pkg/update/envs.go:35-37 | `MakeEnv(k, v)` splits at its first '=' back into k and v |
| UpdateEnvs.SplitEnvInverse | pkg/update/envs.go:35-37 | every entry holding '=' is the `MakeEnv` of its key and value |
| UpdateEnvs.MakeEnv | pkg/update/envs.go:35-37 | the key, then '=', then the value |
| UpdateEnvs.SrvEnvs | pkg/update/envs.go:62-74 | the process environment and the defaults' variables come first, in order; then at most three entries, one for each non-empty repository, main branch and main process, the main process last |
| UpdateEnvs.LookupAppend | pkg/update/envs_test.go:75-100 | with last-wins lookup, entries appended later override earlier ones and leave every other key's value |
| UpdateEnvs.LookupSrvEnvs | pkg/update/envs.go:62-74 | `srvEnvs` answers `SKYUPD_MAIN_PROCESS`, `SKYUPD_MAIN_BRANCH` and `SKYUPD_REPO` from the service's non-empty fields and everything else from the process and defaults |
| UpdateEnvs.CheckerEnvs | pkg/update/envs.go:44-46 | the service environment followed by the checker's own variables |
| UpdateEnvs.UpdaterEnvs | pkg/update/envs.go:54-60 | the service environment, the updater's variables, then `SKYUPD_TO_VERSION` only when a version is given |
| UpdateEnvs.CheckerMainBranch | pkg/update/envs_test.go:28-74 | `SKYUPD_MAIN_BRANCH` resolves to the checker's variable, else the service's non-empty branch, else the default |
| UpdateEnvs.UpdaterToVersion | pkg/update/envs_test.go:119-178 | `SKYUPD_TO_VERSION` resolves to a non-empty target version, else the updater's variable, else the default |
| UpdateEnvs.CheckerKeepsOthers | pkg/update/envs_test.go:75-100 | a key no later layer sets keeps the process and defaults' value |
| UpdateStore.Update.IsEmpty | pkg/store/store.go:21-23 | true exactly for the zero update, with empty tag and timestamp 0 |
| UpdateStore.IsEmptyIffZero | pkg/store/store.go:21-23 | an update is empty exactly when its tag is "" and its timestamp 0 |
| UpdateStore.ServiceLastUpdate | pkg/store/store.go:65-75 | the stored update, or the empty one for an unknown service |
| UpdateStore.SetThenGet | pkg/store/store.go:78-92 | reading back a set gives what was set; every other service keeps its entry |
| UpdateStore.SetServiceLastUpdate | pkg/store/store.go:78-82 | the name is added to the keys and maps to the new update; every other name keeps its update |
| UpdateStore.SetTwice | pkg/store/store.go:78-82 | a later set of a service replaces the earlier one |
| UpdateChecker.NewChecker | pkg/update/checker.go:50-61 | "github-release" and "script" select their checkers; any other type is fatal |
| UpdateChecker.GithubCheck | pkg/update/checker.go:114-132 | fetch and parse errors come back unchanged; the release carries the tag, the publication time, the github-release type and the body |
| UpdateChecker.GithubVerdict | pkg/update/checker.go:123-124 | an update is reported when nothing or an empty update is recorded, and otherwise exactly when the recorded time is before the publication |
| UpdateChecker.NoUpdateAfterRecording | pkg/update/checker.go:123-124 | once an update is recorded at or after the publication, the same release is no longer reported; on an empty store it always is |
| UpdateChecker.ScriptCommand | pkg/update/checker.go:81-83 | the interpreter runs the script followed by its arguments under `CheckerEnvs` |
| UpdateChecker.ScriptCheck | pkg/update/checker.go:80-93 | a script error comes back unchanged; otherwise the release carries the script's verdict, the current time and the script type |
| UpdateChecker.ScriptSeesMainBranch | pkg/update/checker.go:83 | the checker script sees the main branch that the environment layering resolves |
| UpdateManager.NewManager | pkg/update/manager.go:37-54 | every configured service, with the scripts directory joined in front of its checker and updater scripts and nothing else changed |
| UpdateManager.Services | pkg/update/manager.go:57-66 | every configured name exactly once, in ascending byte order |
| UpdateManager.AscendingUnique | pkg/update/manager.go:63 | two ascending lists of the same names are equal, so the listing does not depend on the map's order |
| UpdateManager.Check | pkg/update/manager.go:69-83 | an unknown service fails `ErrServiceNotFound`; a known one answers with its checker |
| UpdateManager.ManagerServesConfigured | pkg/update/manager.go:37-83 | a manager built from a configuration checks exactly the configured services, each with its scripts under the scripts directory; an unknown name fails `Check` and `Update` without a change |
| UpdateManager.Update | pkg/update/manager.go:86-110 | an unknown service gives (false, `ErrServiceNotFound`) and an updater error (false, err), neither writing the store; "not updated" writes nothing; only an update writes, recording the target version |
| UpdateManager.UpdateRecords | pkg/update/manager.go:102-108 | after an update the store reports Tag = target version at the current time for that service and nothing else moves |
| UpdateManager.UpdateSilencesRelease | pkg/update/manager.go:102-108 | once a GitHub release is installed at or after its publication, checking again reports no update |
| CustomUpdater.ParseServiceConfig | pkg/updater/custom.go:83-99 | an unparsable timeout becomes the 10-minute default; the script is joined under the scripts directory; the tag is the check tag; name, interpreter and arguments are copied |
| CustomUpdater.RegisterService | pkg/updater/custom.go:59-65 | the parsed service is stored under its official name |
| CustomUpdater.UnregisterService | pkg/updater/custom.go:68-73 | removes only that name; removing an absent name is a no-op |
| CustomUpdater.Service | pkg/updater/custom.go:75-81 | found exactly when registered |
| CustomUpdater.RegisterThenLookup | pkg/updater/custom.go:59-81 | a registered service is found with what was parsed and other names are unaffected; an unregistered one is gone |
| CustomUpdater.NewCustomUpdaterRegistersAll | pkg/updater/custom.go:45-56 | registering the configured services one by one, in any order, builds the registry `newCustomUpdater` returns |
| CustomUpdater.NewCustomUpdater | pkg/updater/custom.go:45-56 | the registry has exactly the configured names, each with its configuration normalised against the scripts directory |
| CustomUpdater.BuildCommand | pkg/updater/custom.go:130-137 | the update script, local name and version, then the extra arguments |
| CustomUpdater.RegisteredCommand | pkg/updater/custom.go:90-137 | a registered service is updated with the script under the scripts directory, its local name and the requested version |
| SimpleChecker.NewSimple | pkg/checker/active/simple.go:31-45 | the url is stored as join("github.com", url) and every other field is copied |
| SimpleChecker.BuildCommand | pkg/checker/active/simple.go:91-100 | script, local name, version, service and url, then the arguments |
| SimpleChecker.CheckCommand | pkg/checker/active/simple.go:69-81 | the command is the check script followed by local name, "master", service and URL, then the extra arguments, each at its position |
| SimpleChecker.CheckCommandOfNew | pkg/checker/active/simple.go:31-81 | a new checker runs its script with local name, "master", service and the repository under "github.com", then the extra arguments |
| SimpleChecker.WaitForExit | pkg/checker/active/simple.go:129-145 | status 0 is (true, nil), status 1 (false, nil), any other status the error "exit with non-zero status N", and an earlier error event that error |
| SimpleChecker.ExitErrorsDistinct | pkg/checker/active/simple.go:133-135 | distinct failing statuses give distinct errors |
| SimpleChecker.CheckIfNew | pkg/checker/active/simple.go:51-67 | a script error comes back; status 1 is `ErrNoNewVersion`; any other non-zero status is "exit with non-zero status N"; status 0 sends the notification, whose error comes back; nil only for status 0 and a successful notification |
| SimpleChecker.NotifyOnlyOnUpdate | pkg/checker/active/simple.go:51-67 | the notifier is consulted only on status 0: for any other first event the outcome is the same whatever the notifier, `ErrNoNewVersion` or the reported error |
| ServiceTimes.Get | updater/pkg/store/services/services.go:37-47 | an absent name is inserted as a service with that name last updated 1999-10-01T01:01:01.000000001Z; a present one is returned unchanged |
| ServiceTimes.Set | updater/pkg/store/services/services.go:49-51 | stores under the service's own name |
| ServiceTimes.GetAfterSet | updater/pkg/store/services/services.go:37-51 | get after set returns the service set and changes nothing; a second get repeats the first |
| ServiceTimes.UnmarshalAsWritten | updater/pkg/store/services/services.go:83-94 | as written: input shorter than two bytes panics; otherwise the first and last bytes are dropped before parsing |
| ServiceTimes.MarshalAsWritten | updater/pkg/store/services/services.go:97-99 | a direct call writes the formatted time without the quotes the corrected encoding puts around it |
| ServiceTimes.Marshal | updater/pkg/store/services/services.go:97-99 | the corrected encoding is a JSON string: a quote, the formatted time, a quote |
| ServiceTimes.SoundSatisfiable | updater/pkg/store/services/services.go:83-99 | the clock axioms hold of a concrete formatter and parser |
| ServiceTimes.TimeJsonAsWrittenFails | updater/pkg/store/services/services.go:83-99 | for a time with a four-digit year, the bare text `MarshalJSON` writes never unmarshals: dropping its first and last characters cuts the year's first digit |
| ServiceTimes.Unmarshal | updater/pkg/store/services/services.go:83-94 | the corrected decoder never panics and reads quoted input as written |
| ServiceTimes.TimeJsonRoundTrip | updater/pkg/store/services/services.go:83-99 | for a time with a four-digit year, with the quotes added, decoding the encoding gives the time back to the second |
| ServiceTimes.OldTimeLosesNanosecond | updater/pkg/store/services/services.go:39 | the default time survives the corrected round trip without its final nanosecond |

## Left out

- Noise handshake, encrypted framing, mocks, the vendored `transport.go` interfaces: cryptographic and goroutine plumbing with no sequential logic of the core.
- The transport-discovery client's HTTP I/O: only the headers it builds are modelled, in `ApiAuth.ClientHeaders`.
- The Redis store and the generated mock store: a driver over the same map operations; `store.New` returns an opaque Redis store.
- `sql.go` `Migrate`, DDL and driver: the schema appears only as the `SqlStore.Valid` constraints.
- `sql.go` `GetTransportsByEdge`: it is an unimplemented stub in that revision.
- `SqlStore.WaitForTransport`: the retry delay is not modelled; the wait runs over a finite schedule of events, and a schedule that runs out is `Waiting` where the Go loop would go on polling.
- SQL row order: rows are kept in insertion order; `QueryRow` on the containment query is taken to return the first.
- Concurrency: the mutexes around the in-memory stores, routing tables and updater registries only serialise the steps that are modelled. The goroutines of `custom.go` (`Update`, `timeoutCmd`, `waitForExit`, `logStdout`) and of `simple.go` (`createAndLaunch`, `logStdout`, `timeoutCmd`) are left out. Their first event is a parameter of `SimpleChecker.WaitForExit`.
- `custom.go` `Update`: it is left out with the goroutines. It sends on an unbuffered channel before returning it, so an unknown service blocks.
- Script execution (`pkg/update/script.go`, `updater.go`): a parameter returning the script's verdict or error.
- HTTP header canonicalisation: headers are a map from the canonical names to one value each.
- Request bodies: a body is `NoBody` or a byte stream with optional read and close errors.
- BoltDB I/O errors other than the ones the functions return themselves: opening the database and creating the bucket are not modelled.
- `BoltRoutingTable.Count`: stated as the bucket's key count without a lemma; Bolt's statistics are not modelled.
- The JSON last-update store's file rewriting and `log.Fatal` on write errors: the store is its map.
- `ParseConfig` file reading and YAML decoding, `userHomeDir` on Windows, and logging: the parsed configuration and the home directory are inputs.
- `fetchFromGit` and the GitHub API: its result is a parameter of `UpdateChecker.GithubCheck`.
- `ServiceTimes.Sound`: formatter and parser behaviour is stated only for times from 0000-01-01 to 9999-12-31, where RFC 3339 output has a four-digit year. This range is wider than the `int64` nanoseconds a Go `time.Time` yields through `UnixNano`, and that bound is not modelled.
- `ServiceTimes.TimeJsonAsWrittenFails`, `ServiceTimes.TimeJsonRoundTrip`, `ServiceTimes.OldTimeLosesNanosecond`: stated only for times with a four-digit year; for other years Go writes a sign or more digits, and `time.Parse` rejects them.
- `ServiceTimes.MarshalAsWritten`: only direct calls of `(*TimeJSON).MarshalJSON` are modelled. `json.Marshal` of a `*Service` goes through `(*Service).MarshalJSON`, whose `TimeJSON` field is a non-addressable value, so `encoding/json` does not call the pointer method. It uses the `MarshalText` promoted from the embedded `time.Time`, which writes quoted RFC 3339 text with nanoseconds. That path is not modelled.
- `Auth.SignatureBindsMessage`, `Auth.VerifyRejectsNextNonce`, `Auth.VerifyRejectsOtherPayload`: SHA-256 collision resistance is not an axiom, since no function from all byte strings into 32-byte digests is injective. Each lemma assumes only that its own two messages hash apart (`Cipher.Distinguishes`).
- `ServiceTimes.Get`: the map holds service values, not pointers, so aliasing between a returned service and the map is not modelled.
- `NewManager` in `manager.go` calls `NewChecker` and `NewUpdater` with a signature other than the one in `checker.go`: the manager keeps each service's configuration, and checking and updating are parameters.
- Notifications (`checker.NotifyUpdate`): a parameter of `SimpleChecker.CheckIfNew`.
- `UpdateConfig.ParseConfig`, `UpdateConfig.ParseConfigOutcome`, `UpdateConfig.ProcessAllOutcome`: a service key with no body decodes to a nil `*ServiceConfig`, and `srv.process` then panics on it. The model's services map holds configurations, not pointers, so that panic is not modelled, and the outcomes are stated for maps without nil services.
- `BoltRoutingTable.Rule`, `BoltRoutingTable.BoltRefinesMemory`: the returned rule is the slice `b.Get` gives, and Bolt keeps such a slice valid only while its transaction is open. `Rule` returns it after `View` has ended, so a later remap of the database can leave it pointing at unmapped memory. The model treats the rule as an owned value.
- `Cipher.Sound`: the axioms are stricter than the library. A recovery-based ECDSA signature verifies for exactly one digest only up to digests congruent modulo the curve order. `SignHash` and `PubKeyFromSecKey` panic on an invalid secret key, while the axioms cover every secret key.
- `MemStore.New`: the Redis branch stops at the argument count.
- `SqlStore.Agreement`, `SqlStore.WaitConvergesAfterPeer`: transactions are taken to run one after another. Under Postgres's default READ COMMITTED isolation, two first registrations that overlap can both miss the row and both INSERT one, so the rendezvous is proved for sequential registrations only.
- `SqlStore.RegisterTx`: the `VARCHAR(32)` width of the edge column is not modelled. A longer edge fails the INSERT, while the `::VARCHAR(32)[]` cast in the containment query truncates its arguments.
- `SqlStore.RegisterTransport`: after the panic the begun transaction is never rolled back or committed, so it keeps a database connection; connections are not modelled.
- `UpdateChecker.GithubCheck`, `UpdateStore.ServiceLastUpdate`, `UpdateManager.Update`: `time.Time` and `UnixNano` timestamps are unbounded integers; the `int64` range of `UnixNano` is not modelled.
- `MemStore.GetTransportById`, `MemStore.GetTransportsByEdge`, `MemStore.UpdateStatusAs`: `memory_store.go` returns pointers into its slice, so a caller that mutates a returned entry changes the store; the model returns values, and that aliasing is not modelled.

## Findings

| source | as written | input that shows it | evidently intended | confidence | as-written member | corrected member |
|---|---|---|---|---|---|---|
| pkg/transport-discovery/store/memory_store.go:42-46 | the duplicate scan reads `e.Entry.ID` of every slot, including slots deregistration set to nil | register A, deregister A, register B | skip empty slots, as every other method does | not executed | MemStore.ReRegisterAfterDeregister | MemStore.RegisterTransport |
| pkg/transport-discovery/store/memory_store.go:132 | the reporter is read under the string key "auth-pub-key" | any status update through the gate, which stores the key under `store.ContextAuthKey` | read `store.ContextAuthKey` | not executed | MemStore.StatusThroughGate | MemStore.UpdateStatusFromAuth |
| pkg/transport-discovery/api/endpoints.go:33-42 | part 2 of the split path is parsed as the key | GET /security/nonces/<hex of a valid key>: part 2 is "nonces" | part 3, the segment after "/security/nonces/" | not executed | Api.NonceRouteAsWrittenFails | Api.NonceRoute |
| vendor/github.com/watercompany/skywire-node/pkg/transport/routing_table.go:44-48 | the `MaxUint32` guard tests the named result, still 0 | an `AddRule` with the counter at 4294967295 | fail when the counter is exhausted, as the BoltDB table does | not executed | RoutingTable.AddRuleWrapsToReserved | RoutingTable.AddRule |
| updater/pkg/store/services/services.go:83-99 | `(*TimeJSON).MarshalJSON` writes bare RFC 3339 text, which is not a JSON value, and `UnmarshalJSON` drops the first and last bytes, so a direct call's output does not read back. `json.Marshal` of a `Service` never reaches this method, so the defect shows only on direct calls | the default time: "1999-10-01T01:01:01Z" is not valid JSON, and cut it becomes "999-10-01T01:01:01" | quote the text when marshalling | not executed | ServiceTimes.TimeJsonAsWrittenFails | ServiceTimes.TimeJsonRoundTrip |

=== FILE: api.dfy ===
/** The transport-discovery HTTP API: the error-to-status mapping of
    `apiHandler`, the signature gate `withSigVer`, and the handlers of
    `endpoints.go`. */
module Api {
  import opened Wrappers
  import opened Bytes
  import opened Cipher
  import opened TdStore
  import opened ApiAuth
  import MemStore
  import SqlStore
  import NonceLedger
  import Hex

  /** `apiHandler.ServeHTTP`'s choice of status for a failed handler:
      400 for the four PubKey/TransportID errors and JSON syntax errors,
      408 for an expired deadline, 500 for everything else. */
  function StatusOf(e: Error): (code: int)
    ensures code == 400 <==> (e.EmptyPubKey? || e.EmptyTransportId? || e.InvalidTransportId?
                              || e.InvalidPubKey? || e.JsonSyntax?)
    ensures code == 408 <==> e.DeadlineExceeded?
    ensures code == 400 || code == 408 || code == 500
  {
    if e.EmptyPubKey? || e.EmptyTransportId? || e.InvalidTransportId? || e.InvalidPubKey? then 400
    else if e.DeadlineExceeded? then 408
    else if e.JsonSyntax? then 400
    else 500
  }

  /** `NonceResponse`. */
  datatype NonceResponse = NonceResponse(edge: string, nextNonce: uint64)

  /** What a handler returns for JSON encoding. */
  datatype Payload = Null | TransportJson(t: SqlStore.Transport) | NonceJson(n: NonceResponse)

  /** A handler's result: the status it wrote itself, if any, and its
      value or error; no reply while it is still blocked; or a dropped
      connection after a panic, which `net/http` recovers from by logging
      it and closing the connection without a response. */
  datatype Reply = Reply(wrote: Option<int>, result: Result<Payload, Error>) | NoReply | Dropped

  datatype ResponseBody = Json(p: Payload) | ErrorJson(text: string)

  datatype Response = Response(code: int, body: ResponseBody)

  /** `apiHandler.ServeHTTP`: a value is encoded under the status the
      handler wrote (200 by default); an error is rendered as
      `{"error": text}` under `StatusOf`. The first `WriteHeader` of a
      response is the one that counts, so a status the handler already
      wrote stays in place under the error body. */
  function RenderReply(r: Reply): (resp: Option<Response>)
    requires r.Reply?
    ensures r.result.Ok? ==> resp == Some(Response(r.wrote.GetOr(200), Json(r.result.value)))
    ensures r.result.Err? ==>
      resp == Some(Response(r.wrote.GetOr(StatusOf(r.result.error)), ErrorJson(r.result.error.Text())))
  {
    match r.result
    case Ok(v) => Some(Response(r.wrote.GetOr(200), Json(v)))
    case Err(e) => Some(Response(r.wrote.GetOr(StatusOf(e)), ErrorJson(e.Text())))
  }

  /** An incoming request. */
  datatype Request = Request(verb: string, url: string, header: Header, body: Body, ctx: Context)

  /** What the gate does with a request: answer it with an error itself, or
      pass it on to the wrapped handler. */
  datatype GateOutcome = Rendered(code: int, err: Error) | Forwarded(req: Request)

  /** The request handed on by the gate: the re-readable body and the
      verified key in the context. */
  function Pass(r: Request, body: Body, key: PubKey): (r1: Request)
    ensures r1.ctx.Value(AuthKeySentinel) == Some(key)
    ensures r1.verb == r.verb && r1.url == r.url && r1.header == r.header
  {
    r.(body := body, ctx := r.ctx.WithValue(AuthKeySentinel, key))
  }

  /** `API.withSigVer`. With `DisableSigVerify` the request goes through
      untouched. Otherwise a header or verification failure answers 401; a
      verified POST from a non-zero key increments that key's nonce (a
      store failure answers 500); the key is then attached to the context
      under `store.ContextAuthKey`. */
  function Gate(c: Suite, disableSigVerify: bool, s: MemStore.MemStore, r: Request)
    : (out: (MemStore.MemStore, GateOutcome))
    ensures disableSigVerify ==> out == (s, Forwarded(r))
    ensures !disableSigVerify && AuthFromHeaders(c, r.header).Err? ==>
      out == (s, Rendered(401, AuthFromHeaders(c, r.header).error))
    ensures (!disableSigVerify && AuthFromHeaders(c, r.header).Ok?
             && VerifyAuth(c, s, r.body, AuthFromHeaders(c, r.header).value).1.Err?) ==>
      out == (s, Rendered(401, VerifyAuth(c, s, r.body, AuthFromHeaders(c, r.header).value).1.error))
    ensures out.1.Rendered? && out.1.code == 401 ==> out.0 == s
    ensures out.0.transports == s.transports && out.0.err == s.err
  {
    if disableSigVerify then (s, Forwarded(r))
    else match AuthFromHeaders(c, r.header)
      case Err(e) => (s, Rendered(401, e))
      case Ok(a) =>
        var verified := VerifyAuth(c, s, r.body, a);
        if verified.1.Err? then (s, Rendered(401, verified.1.error))
        else if r.verb == "POST" && a.key != ZeroPubKey then
          var inc := MemStore.IncrementNonce(s, a.key);
          if inc.1.Err? then (inc.0, Rendered(500, inc.1.error))
          else (inc.0, Forwarded(Pass(r, verified.0, a.key)))
        else (s, Forwarded(Pass(r, verified.0, a.key)))
  }

  /** The nonce moves only on a verified POST from a non-zero key, by
      exactly one, and no other key's nonce moves. A forwarded request
      carries the verified key under `store.ContextAuthKey`. */
  lemma GateNonceEffect(c: Suite, s: MemStore.MemStore, r: Request)
    requires s.err.None?
    ensures var (s1, out) := Gate(c, false, s, r);
      out.Forwarded? ==>
        var a := AuthFromHeaders(c, r.header).value;
        && out.req.ctx.Value(AuthKeySentinel) == Some(a.key)
        && MemStore.GetNonce(s, a.key) == Ok(a.nonce)
        && (r.verb == "POST" && a.key != ZeroPubKey ==>
              s1 == MemStore.IncrementNonce(s, a.key).0
              && MemStore.GetNonce(s1, a.key) == Ok((a.nonce + 1) % (MaxUint64 + 1)))
        && (r.verb != "POST" || a.key == ZeroPubKey ==> s1 == s)
  {
    var (s1, out) := Gate(c, false, s, r);
    if out.Forwarded? {
      assert AuthFromHeaders(c, r.header).Ok?;
      var a := AuthFromHeaders(c, r.header).value;
      assert VerifyAuth(c, s, r.body, a).1.Ok?;
    }
  }

  /** A store that fails makes every signed request answer 401, since
      `VerifyAuth` reads the nonce first. */
  lemma GateStoreFailure(c: Suite, s: MemStore.MemStore, r: Request)
    requires s.err.Some? && AuthFromHeaders(c, r.header).Ok?
    ensures Gate(c, false, s, r) == (s, Rendered(401, s.err.value))
  {
  }

  /** Replaying a verified POST with the same headers fails: the stored
      nonce has moved past the one the headers carry. */
  lemma ReplayRejected(c: Suite, s: MemStore.MemStore, r: Request, r2: Request)
    requires s.err.None? && r.verb == "POST" && r2.header == r.header
    requires Gate(c, false, s, r).1.Forwarded?
    requires AuthFromHeaders(c, r.header).value.key != ZeroPubKey
    ensures Gate(c, false, Gate(c, false, s, r).0, r2).1
      == Rendered(401, Message("SW-Nonce does not match"))
  {
    var a := AuthFromHeaders(c, r.header).value;
    var s1 := Gate(c, false, s, r).0;
    GateNonceEffect(c, s, r);
    assert MemStore.GetNonce(s1, a.key).value != a.nonce;
  }

  // ---------------------------------------------------------------------
  // Path splitting.

  /** `strings.Split(s, sep)` for a one-character separator: every
      occurrence separates, so n separators give n + 1 parts. */
  function Split(s: string, sep: char): (parts: seq<string>)
    ensures |parts| >= 1
    ensures forall i :: 0 <= i < |parts| ==> sep !in parts[i]
    decreases |s|
  {
    if |s| == 0 then [""]
    else if s[0] == sep then [""] + Split(s[1..], sep)
    else
      var rest := Split(s[1..], sep);
      [[s[0]] + rest[0]] + rest[1..]
  }

  /** `strings.Join(parts, sep)`. */
  function Join(parts: seq<string>, sep: char): string
    requires |parts| >= 1
    decreases |parts|
  {
    if |parts| == 1 then parts[0] else parts[0] + [sep] + Join(parts[1..], sep)
  }

  /** Joining the parts back gives the original string. */
  lemma {:induction false} SplitJoin(s: string, sep: char)
    ensures Join(Split(s, sep), sep) == s
    decreases |s|
  {
    if |s| > 0 {
      SplitJoin(s[1..], sep);
      var rest := Split(s[1..], sep);
      if s[0] == sep {
        assert [s[0]] + s[1..] == s;
      } else if |rest| == 1 {
        assert [s[0]] + s[1..] == s;
      } else {
        assert Join(rest, sep) == rest[0] + [sep] + Join(rest[1..], sep);
        assert ([rest[0]] + rest[1..])[1..] == rest[1..];
        assert [s[0]] + s[1..] == s;
      }
    }
  }

  /** A string without the separator is one part. */
  lemma {:induction false} SplitNoSep(s: string, sep: char)
    requires sep !in s
    ensures Split(s, sep) == [s]
    decreases |s|
  {
    if |s| > 0 {
      SplitNoSep(s[1..], sep);
      assert [s[0]] + s[1..] == s;
    }
  }

  /** Splitting at a separator splits the two sides independently: the
      separator closes the last part of the left side. */
  lemma {:induction false} SplitAt(a: string, b: string, sep: char)
    ensures Split(a + [sep] + b, sep) == Split(a, sep) + Split(b, sep)
    decreases |a|
  {
    if |a| == 0 {
      assert a + [sep] + b == [sep] + b;
      assert ([sep] + b)[1..] == b;
    } else {
      SplitAt(a[1..], b, sep);
      assert (a + [sep] + b)[1..] == a[1..] + [sep] + b;
      if a[0] == sep {
        SplitAtSep(a, b, sep);
      } else {
        SplitAtOther(a, b, sep);
      }
    }
  }

  /** The step of `SplitAt` when the left side starts with a separator. */
  lemma SplitAtSep(a: string, b: string, sep: char)
    requires |a| > 0 && a[0] == sep
    requires Split((a + [sep] + b)[1..], sep) == Split(a[1..], sep) + Split(b, sep)
    ensures Split(a + [sep] + b, sep) == Split(a, sep) + Split(b, sep)
  {
    assert (a + [sep] + b)[0] == sep;
  }

  /** The step of `SplitAt` when the left side starts with another
      character, which joins the first part. */
  lemma SplitAtOther(a: string, b: string, sep: char)
    requires |a| > 0 && a[0] != sep
    requires Split((a + [sep] + b)[1..], sep) == Split(a[1..], sep) + Split(b, sep)
    ensures Split(a + [sep] + b, sep) == Split(a, sep) + Split(b, sep)
  {
    var ra, rb := Split(a[1..], sep), Split(b, sep);
    assert (a + [sep] + b)[0] == a[0];
    assert (ra + rb)[0] == ra[0];
    assert (ra + rb)[1..] == ra[1..] + rb;
  }

  /** Splitting a join of separator-free parts gives the parts back. */
  lemma {:induction false} JoinSplit(parts: seq<string>, sep: char)
    requires |parts| >= 1
    requires forall i :: 0 <= i < |parts| ==> sep !in parts[i]
    ensures Split(Join(parts, sep), sep) == parts
    decreases |parts|
  {
    SplitNoSep(parts[0], sep);
    if |parts| > 1 {
      JoinSplit(parts[1..], sep);
      SplitAt(parts[0], Join(parts[1..], sep), sep);
      assert [parts[0]] + parts[1..] == parts;
    }
  }

  /** The parts of "/security/nonces/" followed by a key's hex. */
  lemma NoncePathParts(k: string)
    requires '/' !in k
    ensures Split("/security/nonces/" + k, '/') == ["", "security", "nonces", k]
  {
    NoncePathShape(k);
    AbsolutePathParts("security", "nonces", k, '/');
  }

  /** An absolute path of three separator-free segments splits into an
      empty part and the three segments. */
  lemma AbsolutePathParts(a: string, b: string, c: string, sep: char)
    requires sep !in a && sep !in b && sep !in c
    ensures Split("" + [sep] + (a + [sep] + (b + [sep] + c)), sep) == ["", a, b, c]
  {
    SplitNoSep(c, sep);
    SplitNoSep(b, sep);
    SplitAt(b, c, sep);
    SplitNoSep(a, sep);
    SplitAt(a, b + [sep] + c, sep);
    SplitAt("", a + [sep] + (b + [sep] + c), sep);
  }

  /** The nonce path, segment by segment. */
  lemma NoncePathShape(k: string)
    ensures "/security/nonces/" + k == "" + ['/'] + ("security" + ['/'] + ("nonces" + ['/'] + k))
  {
    var p := "/security/nonces/";
    assert p == ['/'] + "security" + ['/'] + "nonces" + ['/'];
    assert p[..1] == ['/'] && p[1..9] == "security" && p[9..10] == ['/'];
    assert p[10..16] == "nonces" && p[16..] == ['/'];
  }

  // ---------------------------------------------------------------------
  // Handlers.

  /** `handleIncrementingNonces` as written: the key is taken from part 2
      of the path, and the errors are not the API's PubKey errors. */
  function HandleNoncesAsWritten(c: Suite, s: MemStore.MemStore, url: string): (r: Result<Payload, Error>)
    ensures var split := Split(url, '/');
      (|split| < 3 || split[2] == "") ==> r == Err(Message("Public Key can't be empty"))
    ensures var split := Split(url, '/');
      (|split| >= 3 && split[2] != "" && PubKeyFromHex(c, split[2]).Err?) ==>
        r == Err(Message(c.errorText(PubKeyFromHex(c, split[2]).error)))
    ensures var split := Split(url, '/');
      (|split| >= 3 && split[2] != "" && PubKeyFromHex(c, split[2]).Ok?) ==>
        var n := MemStore.GetNonce(s, PubKeyFromHex(c, split[2]).value);
        (r.Ok? <==> n.Ok?) && (n.Err? ==> r == Err(n.error))
    ensures r.Ok? ==> var split := Split(url, '/');
      && |split| >= 3 && PubKeyFromHex(c, split[2]).Ok?
      && MemStore.GetNonce(s, PubKeyFromHex(c, split[2]).value).Ok?
      && r.value == NonceJson(NonceResponse(KeyHex(PubKeyFromHex(c, split[2]).value),
                                            MemStore.GetNonce(s, PubKeyFromHex(c, split[2]).value).value))
  {
    var split := Split(url, '/');
    if |split| < 3 || split[2] == "" then Err(Message("Public Key can't be empty"))
    else match PubKeyFromHex(c, split[2])
      case Err(e) => Err(Message(c.errorText(e)))
      case Ok(pk) =>
        match MemStore.GetNonce(s, pk)
        case Err(e) => Err(e)
        case Ok(n) => Ok(NonceJson(NonceResponse(KeyHex(pk), n)))
  }

  /** `handleIncrementingNonces` reading the key from part 3, the segment
      after "/security/nonces/", and reporting the API's PubKey errors. */
  function HandleNonces(c: Suite, s: MemStore.MemStore, url: string): (r: Result<Payload, Error>)
    ensures var split := Split(url, '/');
      (|split| < 4 || split[3] == "") ==> r == Err(EmptyPubKey)
    ensures var split := Split(url, '/');
      (|split| >= 4 && split[3] != "" && PubKeyFromHex(c, split[3]).Err?) ==> r == Err(InvalidPubKey)
    ensures r.Ok? ==> var split := Split(url, '/');
      && |split| >= 4 && PubKeyFromHex(c, split[3]).Ok?
      && MemStore.GetNonce(s, PubKeyFromHex(c, split[3]).value).Ok?
      && r.value == NonceJson(NonceResponse(KeyHex(PubKeyFromHex(c, split[3]).value),
                                            MemStore.GetNonce(s, PubKeyFromHex(c, split[3]).value).value))
  {
    var split := Split(url, '/');
    if |split| < 4 || split[3] == "" then Err(EmptyPubKey)
    else match PubKeyFromHex(c, split[3])
      case Err(_) => Err(InvalidPubKey)
      case Ok(pk) =>
        match MemStore.GetNonce(s, pk)
        case Err(e) => Err(e)
        case Ok(n) => Ok(NonceJson(NonceResponse(KeyHex(pk), n)))
  }

  /** The nonce route as written never answers: for every key the path
      part it parses is "nonces", which is not hex, so the request fails
      with 500. */
  lemma NonceRouteAsWrittenFails(c: Suite, s: MemStore.MemStore, pk: PubKey)
    ensures var r := HandleNoncesAsWritten(c, s, "/security/nonces/" + KeyHex(pk));
      r == Err(Message(c.errorText(BadHex))) && RenderReply(Reply(None, r)).value.code == 500
  {
    NoncePathParts(KeyHex(pk));
    assert !Hex.IsHexChar("nonces"[0]);
  }

  /** The corrected nonce route answers with the key's hex and its current
      nonce, and changes nothing; a store failure answers with the store's
      error. */
  lemma NonceRoute(c: Suite, s: MemStore.MemStore, pk: PubKey)
    requires c.onCurve(pk)
    ensures s.err.None? ==> (HandleNonces(c, s, "/security/nonces/" + KeyHex(pk))
      == Ok(NonceJson(NonceResponse(KeyHex(pk), NonceLedger.GetNonce(s.nonces, pk)))))
    ensures s.err.Some? ==> HandleNonces(c, s, "/security/nonces/" + KeyHex(pk)) == Err(s.err.value)
  {
    NoncePathParts(KeyHex(pk));
    PubKeyHexRoundTrip(c, pk);
  }

  /** The corrected route answers 400 "empty" for a missing key and 400
      "invalid" for a key that is not hex, such as "foo-bar". */
  lemma NonceRouteBadKey(c: Suite, s: MemStore.MemStore, k: string)
    requires '/' !in k
    ensures k == "" ==>
      RenderReply(Reply(None, HandleNonces(c, s, "/security/nonces/" + k))).value
        == Response(400, ErrorJson("PublicKey can't by empty"))
    ensures k != "" && Hex.Decode(k).Err? ==>
      RenderReply(Reply(None, HandleNonces(c, s, "/security/nonces/" + k))).value
        == Response(400, ErrorJson("PublicKey is invalid"))
  {
    NoncePathParts(k);
  }

  /** `handleRegister` in the revision built on the Postgres store: decode
      the transport, register it, and answer 201 with the transport and its
      ID once the rendezvous completes. `decoded` is what the JSON decoder
      made of the body. */
  function HandleRegister(db: SqlStore.Db, decoded: Result<SqlStore.Transport, Error>,
                          f: Option<SqlStore.Fault>, events: seq<SqlStore.WaitEvent>)
    : (r: (SqlStore.Db, Reply))
    ensures decoded.Err? ==> r == (db, Reply(None, Err(decoded.error)))
    ensures decoded.Ok? ==>
      var out := SqlStore.RegisterTransport(db, decoded.value, f, events);
      && (out.Panicked? ==> r == (db, Dropped))
      && (out.Registered? ==> r.0 == out.db)
      && (out.Registered? && out.wait.Converged? ==>
            r.1 == Reply(Some(201), Ok(TransportJson(decoded.value.(id := out.res.value)))))
      && (out.Registered? && out.wait.Aborted? ==> r.1 == Reply(None, Err(out.wait.err)))
      && (out.Registered? && out.wait.Waiting? ==> r.1 == NoReply)
  {
    match decoded
    case Err(e) => (db, Reply(None, Err(e)))
    case Ok(t) =>
      match SqlStore.RegisterTransport(db, t, f, events)
      case Panicked => (db, Dropped)
      case Registered(db1, res, wait) =>
        match wait
        case Converged => (db1, Reply(Some(201), Ok(TransportJson(t.(id := res.value)))))
        case Aborted(e) => (db1, Reply(None, Err(e)))
        case Waiting => (db1, NoReply)
  }

  /** `handleDeregister`: answers 200 with `null` and touches nothing. */
  function HandleDeregister(db: SqlStore.Db): (r: (SqlStore.Db, Reply))
    ensures r.0 == db && r.1.Reply? && RenderReply(r.1) == Some(Response(200, Json(Null)))
  {
    (db, Reply(None, Ok(Null)))
  }

  /** A JSON syntax error in the body answers 400; a deadline that expires while
      waiting for the other edge answers 408; a registration whose peer
      has already registered answers 201 with the shared ID. */
  lemma RegisterResponses(db: SqlStore.Db, a: string, b: string, msg: string, rest: seq<SqlStore.WaitEvent>)
    requires SqlStore.Valid(db) && a != b
    ensures RenderReply(HandleRegister(db, Err(JsonSyntax(msg)), None, []).1).value.code == 400
    ensures var db1 := SqlStore.RegisterTx(db, b, a, None).0;
      RenderReply(HandleRegister(db, Ok(SqlStore.Transport(0, [a, b])), None,
                                 [SqlStore.CtxDone(DeadlineExceeded)] + rest).1).value.code == 408
    ensures var (db1, r1) := SqlStore.RegisterTx(db, b, a, None);
      var db2 := SqlStore.RegisterTx(db1, a, b, None).0;
      HandleRegister(db1, Ok(SqlStore.Transport(0, [a, b])), None, [SqlStore.Tick(db2, None)] + rest).1
        == Reply(Some(201), Ok(TransportJson(SqlStore.Transport(r1.value, [a, b]))))
  {
    var (db1, r1) := SqlStore.RegisterTx(db, b, a, None);
    SqlStore.Agreement(db, b, a);
    SqlStore.RegisterKeepsValid(db, b, a, None);
  }

  /** A body with fewer than two edges gets no response: the handler
      panics inside the store and the connection is closed, with the
      database as it was. */
  lemma RegisterShortEdgesDropped(db: SqlStore.Db, edges: seq<string>, rest: seq<SqlStore.WaitEvent>)
    requires |edges| < 2
    ensures HandleRegister(db, Ok(SqlStore.Transport(0, edges)), None, rest) == (db, Dropped)
  {
  }

  /** The status of a rendered error follows `StatusOf` when the handler
      wrote none: 400 for the key and ID errors and JSON syntax errors, 408
      for an expired deadline, 500 for the rest; a status the handler wrote
      is kept. A value goes out under the written status, 200 when none. */
  lemma RenderedStatus(wrote: Option<int>, res: Result<Payload, Error>)
    ensures var resp := RenderReply(Reply(wrote, res)).value;
      && (res.Err? && wrote.None? ==> (resp.code == 400 <==> (res.error.EmptyPubKey? || res.error.EmptyTransportId?
                          || res.error.InvalidTransportId? || res.error.InvalidPubKey? || res.error.JsonSyntax?)))
      && (res.Err? && wrote.None? ==> (resp.code == 408 <==> res.error == DeadlineExceeded))
      && (res.Err? && wrote.None? ==> (resp.code == 500 <==> !(resp.code == 400 || resp.code == 408)))
      && (res.Err? ==> resp.body == ErrorJson(res.error.Text()))
      && (wrote.Some? ==> resp.code == wrote.value)
      && (res.Ok? && wrote.None? ==> resp == Response(200, Json(res.value)))
  {
  }

  /** `handleDeregister` does not reach the store: every lookup answers as
      before. */
  lemma DeregisterEndpointKeepsLookups(db: SqlStore.Db, id: SqlStore.Id, f: Option<SqlStore.Fault>)
    ensures SqlStore.GetTransportById(HandleDeregister(db).0, id, f) == SqlStore.GetTransportById(db, id, f)
  {
  }
}

=== FILE: api_auth.dfy ===
/** The request-authentication half of the transport-discovery API: the
    `SW-Public`, `SW-Sig` and `SW-Nonce` headers, the nonce comparison, the
    body peek and the signature check, plus the client that produces those
    headers. */
module ApiAuth {
  import opened Wrappers
  import opened Bytes
  import opened Decimal
  import opened Cipher
  import opened TdStore
  import Hex
  import Auth
  import MemStore

  /** Request headers, one value per name; an absent name reads as "" as
      `http.Header.Get` does. */
  type Header = map<string, string>

  function Get(h: Header, name: string): (v: string)
    ensures name in h ==> v == h[name]
    ensures name !in h ==> v == ""
  {
    if name in h then h[name] else ""
  }

  /** `api.Auth`. */
  datatype AuthInfo = AuthInfo(key: PubKey, nonce: uint64, sig: Sig)

  /** `authFromHeaders`: the three headers in the fixed order Public, Sig,
      Nonce; the first missing or malformed one is reported. */
  function AuthFromHeaders(c: Suite, h: Header): (r: Result<AuthInfo, Error>)
    ensures Get(h, "SW-Public") == "" ==> r == Err(Message("SW-Public missing"))
    ensures Get(h, "SW-Public") != "" && PubKeyFromHex(c, Get(h, "SW-Public")).Err? ==>
      r == Err(Message("Error parsing SW-Public: "
                       + c.errorText(PubKeyFromHex(c, Get(h, "SW-Public")).error)))
    ensures PubKeyFromHex(c, Get(h, "SW-Public")).Ok? && Get(h, "SW-Sig") == "" ==>
      r == Err(Message("SW-Sig missing"))
    ensures (PubKeyFromHex(c, Get(h, "SW-Public")).Ok? && Get(h, "SW-Sig") != ""
      && SigFromHex(Get(h, "SW-Sig")).Err?) ==>
      r == Err(Message("Error parsing SW-Sig:'" + Get(h, "SW-Sig") + "': "
                       + c.errorText(SigFromHex(Get(h, "SW-Sig")).error)))
    ensures (PubKeyFromHex(c, Get(h, "SW-Public")).Ok? && SigFromHex(Get(h, "SW-Sig")).Ok?
      && Get(h, "SW-Nonce") == "") ==> r == Err(Message("SW-Nonce missing"))
    ensures (PubKeyFromHex(c, Get(h, "SW-Public")).Ok? && SigFromHex(Get(h, "SW-Sig")).Ok?
      && Get(h, "SW-Nonce") != "" && ParseUint64(Get(h, "SW-Nonce")).Err?) ==>
      r == Err(Message("Error parsing SW-Nonce: " + ParseUint64(Get(h, "SW-Nonce")).error.Message()))
    ensures r.Ok? <==>
      PubKeyFromHex(c, Get(h, "SW-Public")).Ok? && SigFromHex(Get(h, "SW-Sig")).Ok?
      && ParseUint64(Get(h, "SW-Nonce")).Ok?
    ensures r.Ok? ==> r.value == AuthInfo(
      PubKeyFromHex(c, Get(h, "SW-Public")).value,
      ParseUint64(Get(h, "SW-Nonce")).value,
      SigFromHex(Get(h, "SW-Sig")).value)
  {
    var pub := Get(h, "SW-Public");
    if pub == "" then Err(Message("SW-Public missing"))
    else match PubKeyFromHex(c, pub)
      case Err(e) => Err(Message("Error parsing SW-Public: " + c.errorText(e)))
      case Ok(key) =>
        var sigText := Get(h, "SW-Sig");
        if sigText == "" then Err(Message("SW-Sig missing"))
        else match SigFromHex(sigText)
          case Err(e) => Err(Message("Error parsing SW-Sig:'" + sigText + "': " + c.errorText(e)))
          case Ok(sig) =>
            var nonceText := Get(h, "SW-Nonce");
            if nonceText == "" then Err(Message("SW-Nonce missing"))
            else match ParseUint64(nonceText)
              case Err(e) => Err(Message("Error parsing SW-Nonce: " + e.Message()))
              case Ok(n) => Ok(AuthInfo(key, n, sig))
  }

  /** `Auth.Verify`. */
  predicate VerifyPayload(c: Suite, a: AuthInfo, payload: seq<byte>) {
    Auth.Verify(c, payload, a.nonce, a.key, a.sig)
  }

  /** A request body: `http.NoBody`, or a stream of bytes whose read or
      close may fail. */
  datatype Body =
    | NoBody
    | Stream(data: seq<byte>, readErr: Option<Error>, closeErr: Option<Error>)

  /** `drainBody`: two bodies yielding the same bytes, `NoBody` preserved;
      on a read or close failure the original body and the error. */
  function DrainBody(b: Body): (r: (Option<Body>, Body, Option<Error>))
    ensures b == NoBody ==> r == (Some(NoBody), NoBody, None)
    ensures r.2.None? ==> r.0 == Some(r.1)
    ensures r.2.None? && b.Stream? ==> r.1 == Stream(b.data, None, None)
    ensures r.2.Some? ==> r.0 == None && r.1 == b
    ensures r.2.Some? <==> b.Stream? && (b.readErr.Some? || b.closeErr.Some?)
  {
    match b
    case NoBody => (Some(NoBody), NoBody, None)
    case Stream(data, readErr, closeErr) =>
      if readErr.Some? then (None, b, readErr)
      else if closeErr.Some? then (None, b, closeErr)
      else (Some(Stream(data, None, None)), Stream(data, None, None), None)
  }

  /** `ioutil.ReadAll` of a body that cannot fail. */
  function BodyBytes(b: Body): seq<byte> {
    if b.Stream? then b.data else []
  }

  /** `peekBody`: the saved copy and the body left on the request. */
  function PeekBody(b: Body): (r: (Option<Body>, Body, Option<Error>))
    ensures r.2.None? ==> r.0.Some? && BodyBytes(r.0.value) == BodyBytes(b) && BodyBytes(r.1) == BodyBytes(b)
    ensures r.2.None? && b == NoBody ==> r.1 == NoBody
  {
    DrainBody(b)
  }

  /** `API.VerifyAuth`: the stored nonce must equal the supplied one, then
      the signature must hold over the whole body. Returns the body left on
      the request. */
  function VerifyAuth(c: Suite, s: MemStore.MemStore, body: Body, a: AuthInfo): (r: (Body, Result<Unit, Error>))
    ensures MemStore.GetNonce(s, a.key).Err? ==> r == (body, Err(MemStore.GetNonce(s, a.key).error))
    ensures MemStore.GetNonce(s, a.key).Ok? && MemStore.GetNonce(s, a.key).value != a.nonce ==>
      r == (body, Err(Message("SW-Nonce does not match")))
    ensures r.1.Ok? <==>
      MemStore.GetNonce(s, a.key) == Ok(a.nonce) && DrainBody(body).2.None?
      && VerifyPayload(c, a, BodyBytes(body))
    ensures BodyBytes(r.0) == BodyBytes(body)
  {
    match MemStore.GetNonce(s, a.key)
    case Err(e) => (body, Err(e))
    case Ok(cur) =>
      if a.nonce != cur then (body, Err(Message("SW-Nonce does not match")))
      else
        var (save, left, err) := PeekBody(body);
        if err.Some? then (left, Err(err.value))
        else if VerifyPayload(c, a, BodyBytes(save.value)) then (left, Ok(Unit))
        else (left, Err(Message(c.errorText(SigMismatch))))
  }

  // ---------------------------------------------------------------------
  // The client side.

  /** The headers `APIClient.Do` adds for a body under the nonce it fetched:
      the key's hex, the nonce in base 10 and the signature's hex. */
  function ClientHeaders(c: Suite, sk: SecKey, body: seq<byte>, nonce: uint64): (h: Header)
    ensures h.Keys == {"SW-Public", "SW-Nonce", "SW-Sig"}
    ensures Hex.Decode(h["SW-Public"]) == Ok(c.pubKeyOf(sk))
    ensures ParseUint64(h["SW-Nonce"]) == Ok(nonce)
    ensures Hex.Decode(h["SW-Sig"]) == Ok(Auth.Sign(c, body, nonce, sk))
  {
    Hex.DecodeEncode(c.pubKeyOf(sk));
    Hex.DecodeEncode(Auth.Sign(c, body, nonce, sk));
    map["SW-Public" := KeyHex(c.pubKeyOf(sk)),
        "SW-Nonce" := NonceString(nonce),
        "SW-Sig" := Hex.Encode(Auth.Sign(c, body, nonce, sk))]
  }

  /** What the client sends, the server parses back: the client's key, its
      nonce and its signature, which verifies over the body. */
  lemma ClientHeadersParse(c: Suite, sk: SecKey, body: seq<byte>, nonce: uint64)
    requires Sound(c)
    ensures var r := AuthFromHeaders(c, ClientHeaders(c, sk, body, nonce));
      && r == Ok(AuthInfo(c.pubKeyOf(sk), nonce, Auth.Sign(c, body, nonce, sk)))
      && VerifyPayload(c, r.value, body)
  {
    var h := ClientHeaders(c, sk, body, nonce);
    assert Get(h, "SW-Public") == KeyHex(c.pubKeyOf(sk));
    assert Get(h, "SW-Sig") == Hex.Encode(Auth.Sign(c, body, nonce, sk));
    assert Get(h, "SW-Nonce") == NonceString(nonce);
    PubKeyHexRoundTrip(c, c.pubKeyOf(sk));
    SigHexRoundTrip(Auth.Sign(c, body, nonce, sk));
    Auth.SignatureBindsMessage(c, sk, body, nonce, body, nonce);
    assert Auth.Verify(c, body, nonce, c.pubKeyOf(sk), Auth.Sign(c, body, nonce, sk));
  }

  /** The client's request passes `VerifyAuth` when the store holds the
      nonce it signed with, and fails it for any other stored nonce. */
  lemma ClientPassesVerifyAuth(c: Suite, sk: SecKey, body: seq<byte>, nonce: uint64, s: MemStore.MemStore)
    requires Sound(c) && s.err.None?
    ensures var a := AuthInfo(c.pubKeyOf(sk), nonce, Auth.Sign(c, body, nonce, sk));
      VerifyAuth(c, s, Stream(body, None, None), a).1.Ok?
      <==> MemStore.GetNonce(s, c.pubKeyOf(sk)) == Ok(nonce)
  {
    ClientHeadersParse(c, sk, body, nonce);
  }

  /** A non-empty nonce header that is not a base-10 number is reported as
      a syntax error once the key and signature headers parse. */
  lemma NonceSyntaxError(c: Suite, h: Header, v: string)
    requires PubKeyFromHex(c, Get(h, "SW-Public")).Ok? && SigFromHex(Get(h, "SW-Sig")).Ok?
    requires v != "" && ParseUint64(v) == Err(ErrSyntax)
    ensures AuthFromHeaders(c, h["SW-Nonce" := v])
      == Err(Message("Error parsing SW-Nonce: invalid syntax"))
  {
    var h' := h["SW-Nonce" := v];
    assert Get(h', "SW-Public") == Get(h, "SW-Public");
    assert Get(h', "SW-Sig") == Get(h, "SW-Sig");
    assert Get(h', "SW-Nonce") == v;
    assert "Error parsing SW-Nonce: " + ErrSyntax.Message() == "Error parsing SW-Nonce: invalid syntax";
  }

  /** The three malformed nonces of the header tests are all syntax errors. */
  lemma MalformedNonces(c: Suite, h: Header)
    requires PubKeyFromHex(c, Get(h, "SW-Public")).Ok? && SigFromHex(Get(h, "SW-Sig")).Ok?
    ensures AuthFromHeaders(c, h["SW-Nonce" := "not_a_number"])
      == Err(Message("Error parsing SW-Nonce: invalid syntax"))
    ensures AuthFromHeaders(c, h["SW-Nonce" := "-1"])
      == Err(Message("Error parsing SW-Nonce: invalid syntax"))
    ensures AuthFromHeaders(c, h["SW-Nonce" := "0x0"])
      == Err(Message("Error parsing SW-Nonce: invalid syntax"))
  {
    assert !IsDigit("not_a_number"[0]);
    NonceSyntaxError(c, h, "not_a_number");
    assert !IsDigit("-1"[0]);
    NonceSyntaxError(c, h, "-1");
    assert ParseDigitsFrom("0x0", 0) == ParseDigitsFrom("x0", 0) by {
      assert "0x0"[1..] == "x0";
    }
    NonceSyntaxError(c, h, "0x0");
  }
}

=== FILE: auth.dfy ===
/** The signed-request scheme of the transport discovery: a request is signed
    over its body followed by the decimal text of the caller's nonce. */
module Auth {
  import opened Wrappers
  import opened Bytes
  import opened Decimal
  import opened Cipher

  /** The bytes that get hashed: `fmt.Sprintf("%s%d", payload, nonce)`.
      There is no separator between the payload and the nonce: the payload
      comes first, and what follows it parses back as the nonce. */
  function Message(payload: seq<byte>, nonce: uint64): (m: seq<byte>)
    ensures |m| > |payload| && m[..|payload|] == payload
    ensures ParseUint64(BytesString(m[|payload|..])) == Ok(nonce)
  {
    var m := payload + StringBytes(Digits(nonce));
    assert m[|payload|..] == StringBytes(Digits(nonce));
    StringBytesInjective(BytesString(m[|payload|..]), Digits(nonce));
    ParseDigitsRoundTrip(nonce);
    m
  }

  /** `auth.Hash`. */
  function Hash(c: Suite, payload: seq<byte>, nonce: uint64): (h: Digest)
    ensures exists m: seq<byte> :: (
      && |m| > |payload| && m[..|payload|] == payload
      && BytesString(m[|payload|..]) == Digits(nonce)
      && h == c.sha256(m))
  {
    var m := Message(payload, nonce);
    c.sha256(m)
  }

  /** `auth.Sign`. */
  function Sign(c: Suite, payload: seq<byte>, nonce: uint64, sk: SecKey): (sig: Sig)
    ensures Sound(c) ==> c.verify(c.pubKeyOf(sk), sig, Hash(c, payload, nonce))
  {
    c.signHash(Hash(c, payload, nonce), sk)
  }

  /** `auth.Verify`; true where the Go function returns a nil error. */
  predicate Verify(c: Suite, payload: seq<byte>, nonce: uint64, pub: PubKey, sig: Sig): (ok: bool)
    ensures Sound(c) && ok ==> forall h :: c.verify(pub, sig, h) ==> h == Hash(c, payload, nonce)
  {
    c.verify(pub, sig, Hash(c, payload, nonce))
  }

  /** Because nothing separates the payload from the nonce digits, moving
      the leading digits of the nonce into the payload signs the same bytes:
      `("a", 12)` and `("a1", 2)` hash alike. */
  lemma MessageAmbiguous(payload: seq<byte>, k: nat, d: nat)
    requires 1 <= k && d < 10 && 10 * k + d <= MaxUint64
    ensures Message(payload, 10 * k + d) == Message(payload + StringBytes(Digits(k)), d)
  {
    DigitsShift(k, d);
    StringBytesAppend(Digits(k), [DigitChar(d)]);
    assert Digits(d) == [DigitChar(d)];
  }

  /** An instance of the collision above, in the bytes of the strings
      "a" and "a1". */
  lemma MessageCollisionExample()
    ensures Message([97], 12) == Message([97, 49], 2)
  {
    MessageAmbiguous([97], 1, 2);
    assert StringBytes(Digits(1)) == [49];
  }

  /** Different payloads under one nonce give different messages, and so do
      different nonces under one payload. */
  lemma MessageInjectiveEach(p: seq<byte>, q: seq<byte>, m: uint64, n: uint64)
    ensures (p != q && m == n) || (p == q && m != n) ==> Message(p, m) != Message(q, n)
  {
    if m == n && Message(p, m) == Message(q, n) {
      var t := StringBytes(Digits(n));
      assert p + t == q + t;
      assert |p| == |q|;
      assert p == (p + t)[..|p|];
      assert q == (q + t)[..|q|];
    }
    if p == q && Message(p, m) == Message(q, n) {
      var s := StringBytes(Digits(m));
      var t := StringBytes(Digits(n));
      assert p + s == p + t;
      assert s == (p + s)[|p|..];
      assert t == (p + t)[|p|..];
      StringBytesInjective(Digits(m), Digits(n));
      DigitsInjective(m, n);
    }
  }

  /** A signature over a message verifies for it, and for no other message
      that SHA-256 tells apart from it. */
  lemma SignatureBindsMessage(c: Suite, sk: SecKey, p: seq<byte>, m: uint64, q: seq<byte>, n: uint64)
    requires Sound(c)
    ensures Verify(c, p, m, c.pubKeyOf(sk), Sign(c, p, m, sk))
    ensures Message(p, m) != Message(q, n) && Distinguishes(c, Message(p, m), Message(q, n)) ==>
      !Verify(c, q, n, c.pubKeyOf(sk), Sign(c, p, m, sk))
  {
    var pub := c.pubKeyOf(sk);
    var sig := Sign(c, p, m, sk);
    assert c.verify(pub, sig, Hash(c, p, m));
    if Verify(c, q, n, pub, sig) {
      assert Hash(c, p, m) == Hash(c, q, n);
    }
  }

  /** Signing then verifying with the same payload and nonce succeeds; the
      same signature fails for the next nonce unless the two messages
      collide under SHA-256. */
  lemma VerifyRejectsNextNonce(c: Suite, sk: SecKey, payload: seq<byte>, nonce: uint64)
    requires Sound(c) && nonce < MaxUint64
    ensures Verify(c, payload, nonce, c.pubKeyOf(sk), Sign(c, payload, nonce, sk))
    ensures Distinguishes(c, Message(payload, nonce), Message(payload, nonce + 1)) ==>
      !Verify(c, payload, nonce + 1, c.pubKeyOf(sk), Sign(c, payload, nonce, sk))
  {
    MessageInjectiveEach(payload, payload, nonce, nonce + 1);
    SignatureBindsMessage(c, sk, payload, nonce, payload, nonce + 1);
  }

  /** The same nonce with a different payload fails verification unless
      the two messages collide under SHA-256. */
  lemma VerifyRejectsOtherPayload(c: Suite, sk: SecKey, p: seq<byte>, q: seq<byte>, nonce: uint64)
    requires Sound(c) && p != q
    ensures Distinguishes(c, Message(p, nonce), Message(q, nonce)) ==>
      !Verify(c, q, nonce, c.pubKeyOf(sk), Sign(c, p, nonce, sk))
  {
    MessageInjectiveEach(p, q, nonce, nonce);
    SignatureBindsMessage(c, sk, p, nonce, q, nonce);
  }
}

=== FILE: boltdb_routing_table.dfy ===
/** `BoltDBRoutingTable` of the vendored skywire-node package: the "routing"
    bucket as a map from 4-byte big-endian keys to rules, plus the bucket's
    sequence counter. Each operation is one Bolt transaction, which rolls
    back (sequence included) when its function returns an error. */
module BoltRoutingTable {
  import opened Wrappers
  import opened Bytes
  import opened Packets
  import opened Rules
  import Mem = RoutingTable

  datatype Bucket = Bucket(entries: map<seq<byte>, RoutingRule>, sequence: uint64)

  /** The bucket `NewBoltDBRoutingTable` creates. */
  const Empty: Bucket := Bucket(map[], 0)

  /** `binaryID`: the id as four big-endian bytes. */
  function BinaryId(id: RouteId): (k: seq<byte>)
    ensures |k| == 4 && FromBigEndian32(k) == id
  {
    BigEndian32RoundTrip(id);
    BigEndian32(id)
  }

  /** `AddRule`: the rule goes under the bucket's next sequence number; a
      number beyond `MaxUint32` fails, and the rollback keeps the sequence
      where it was. */
  function AddRule(b: Bucket, rule: RoutingRule): (r: (Bucket, Result<RouteId, string>))
    ensures b.sequence >= MaxUint32 <==> r.1.Err?
    ensures r.1.Err? ==> r == (b, Err("no available routeIDs"))
    ensures r.1.Ok? ==> r.1.value == b.sequence + 1 && r.1.value != InitRouteId
    ensures r.1.Ok? ==> r.0.sequence == r.1.value && Rule(r.0, r.1.value) == Some(rule)
    ensures r.1.Ok? ==> forall id :: id != r.1.value ==> Rule(r.0, id) == Rule(b, id)
  {
    var next := b.sequence + 1;
    if next > MaxUint32 then (b, Err("no available routeIDs"))
    else
      var id: RouteId := next;
      BinaryIdDistinct(id);
      (Bucket(b.entries[BinaryId(id) := rule], id), Ok(id))
  }

  /** Distinct ids never share a key. */
  lemma BinaryIdDistinct(id: RouteId)
    ensures forall other: RouteId :: other != id ==> BinaryId(other) != BinaryId(id)
  {
  }

  /** `SetRule`: the reserved id is refused before the bucket is opened;
      any other id is written under its key. */
  function SetRule(b: Bucket, id: RouteId, rule: RoutingRule): (r: (Bucket, Result<Unit, string>))
    ensures id == InitRouteId ==> r == (b, Err("reserved routeID"))
    ensures id != InitRouteId ==> r.1.Ok? && r.0.sequence == b.sequence && Rule(r.0, id) == Some(rule)
    ensures forall k :: k != id ==> Rule(r.0, k) == Rule(b, k)
  {
    BinaryIdDistinct(id);
    if id == InitRouteId then (b, Err("reserved routeID"))
    else (b.(entries := b.entries[BinaryId(id) := rule]), Ok(Unit))
  }

  /** `Rule`: `b.Get` of the key, nil when absent; never an error. */
  function Rule(b: Bucket, id: RouteId): (r: Option<RoutingRule>)
    ensures r.Some? <==> BinaryId(id) in b.entries
  {
    if BinaryId(id) in b.entries then Some(b.entries[BinaryId(id)]) else None
  }

  /** `DeleteRule`: removes exactly that key. */
  function DeleteRule(b: Bucket, id: RouteId): (r: Bucket)
    ensures Rule(r, id) == None && r.sequence == b.sequence
    ensures forall k :: k != id ==> Rule(r, k) == Rule(b, k)
  {
    BinaryIdDistinct(id);
    b.(entries := b.entries - {BinaryId(id)})
  }

  /** `Count`: the bucket's key count. */
  function Count(b: Bucket): nat {
    |b.entries|
  }

  /** The Bolt table and the in-memory one hold the same rules under the
      same counter. */
  predicate Same(b: Bucket, t: Mem.Table) {
    && b.sequence == t.nextId
    && forall id: RouteId :: Rule(b, id) == Mem.Rule(t, id)
  }

  /** The Bolt table is the reference the in-memory table, with its guard on
      the counter, refines: every operation gives the same answer and keeps
      the two tables the same. */
  lemma BoltRefinesMemory(b: Bucket, t: Mem.Table, rule: RoutingRule, id: RouteId)
    requires Same(b, t)
    ensures AddRule(b, rule).1 == Mem.AddRule(t, rule).1
    ensures Same(AddRule(b, rule).0, Mem.AddRule(t, rule).0)
    ensures SetRule(b, id, rule).1 == Mem.SetRule(t, id, rule).1
    ensures Same(SetRule(b, id, rule).0, Mem.SetRule(t, id, rule).0)
    ensures Same(DeleteRule(b, id), Mem.DeleteRule(t, id))
  {
    var (b1, r1) := AddRule(b, rule);
    var (t1, s1) := Mem.AddRule(t, rule);
    if r1.Ok? {
      forall k: RouteId ensures Rule(b1, k) == Mem.Rule(t1, k) {
        if k != r1.value {
          assert Rule(b1, k) == Rule(b, k);
        }
      }
    }
  }

  /** The ids `AddRule` hands out strictly increase, so no id is handed out
      twice. */
  lemma AddRuleFresh(b: Bucket, r1: RoutingRule, r2: RoutingRule)
    requires AddRule(b, r1).1.Ok?
    requires AddRule(AddRule(b, r1).0, r2).1.Ok?
    ensures AddRule(AddRule(b, r1).0, r2).1.value > AddRule(b, r1).1.value
  {
  }

  /** Once the sequence has passed `MaxUint32` every addition fails. */
  lemma AddRuleExhausted(b: Bucket, rule: RoutingRule, more: RoutingRule)
    requires AddRule(b, rule).1.Err?
    ensures AddRule(AddRule(b, rule).0, more).1.Err?
  {
  }
}

=== FILE: bytes.dfy ===
/** Fixed-width unsigned integers and the `encoding/binary` byte orders used
    by the routing encoders. */
module Bytes {

  type byte = b: int | 0 <= b < 256

  const MaxUint16: int := 0xFFFF
  const MaxUint32: int := 0xFFFF_FFFF
  const MaxUint64: int := 0xFFFF_FFFF_FFFF_FFFF

  type uint16 = n: int | 0 <= n <= MaxUint16
  type uint32 = n: int | 0 <= n <= MaxUint32
  type uint64 = n: int | 0 <= n <= MaxUint64

  /** `binary.LittleEndian.PutUint16`: low byte first. */
  function LittleEndian16(n: uint16): (b: seq<byte>)
    ensures |b| == 2
    ensures b[0] == n % 256
  {
    [n % 256, n / 256]
  }

  function FromLittleEndian16(b: seq<byte>): (n: uint16)
    requires |b| == 2
  {
    b[0] as int + 256 * (b[1] as int)
  }

  lemma LittleEndian16RoundTrip(n: uint16)
    ensures FromLittleEndian16(LittleEndian16(n)) == n
  {
  }

  /** Every two bytes are the little-endian form of the number they read
      as. */
  lemma LittleEndian16Inverse(b: seq<byte>)
    requires |b| == 2
    ensures LittleEndian16(FromLittleEndian16(b)) == b
  {
  }

  /** `binary.LittleEndian.PutUint32`: least significant byte first. */
  function LittleEndian32(n: uint32): (b: seq<byte>)
    ensures |b| == 4
    ensures b[0] == n % 256
  {
    [n % 256, (n / 256) % 256, (n / 65536) % 256, n / 16777216]
  }

  function FromLittleEndian32(b: seq<byte>): (n: uint32)
    requires |b| == 4
  {
    b[0] as int + 256 * (b[1] as int) + 65536 * (b[2] as int) + 16777216 * (b[3] as int)
  }

  lemma LittleEndian32RoundTrip(n: uint32)
    ensures FromLittleEndian32(LittleEndian32(n)) == n
  {
    ByteDigits(n);
  }

  /** Every four bytes are the little-endian form of the number they read
      as. */
  lemma LittleEndian32Inverse(b: seq<byte>)
    requires |b| == 4
    ensures LittleEndian32(FromLittleEndian32(b)) == b
  {
    var n := FromLittleEndian32(b);
    var q2 := b[2] as int + 256 * (b[3] as int);
    var q1 := b[1] as int + 256 * q2;
    assert n == b[0] as int + 256 * q1;
    SplitByte(b[0], q1);
    SplitByte(b[1], q2);
    SplitByte(b[2], b[3] as int);
    Split16(q2, b[0] as int + 256 * (b[1] as int));
    Split24(b[3] as int, b[0] as int + 256 * (b[1] as int) + 65536 * (b[2] as int));
  }

  /** A byte and a quotient recombined split back into the same two. */
  lemma SplitByte(a: byte, q: int)
    requires q >= 0
    ensures (a as int + 256 * q) % 256 == a as int
    ensures (a as int + 256 * q) / 256 == q
  {
  }

  /** The same split at 2^16 and at 2^24. */
  lemma Split16(q: int, r: int)
    requires q >= 0 && 0 <= r < 65536
    ensures (r + 65536 * q) / 65536 == q
  {
  }

  lemma Split24(q: int, r: int)
    requires q >= 0 && 0 <= r < 16777216
    ensures (r + 16777216 * q) / 16777216 == q
  {
  }

  /** `binary.BigEndian.PutUint32`: most significant byte first. */
  function BigEndian32(n: uint32): (b: seq<byte>)
    ensures |b| == 4
    ensures b[3] == n % 256
  {
    [n / 16777216, (n / 65536) % 256, (n / 256) % 256, n % 256]
  }

  function FromBigEndian32(b: seq<byte>): (n: uint32)
    requires |b| == 4
  {
    16777216 * (b[0] as int) + 65536 * (b[1] as int) + 256 * (b[2] as int) + b[3] as int
  }

  lemma BigEndian32RoundTrip(n: uint32)
    ensures FromBigEndian32(BigEndian32(n)) == n
  {
    ByteDigits(n);
  }

  /** The four base-256 digits of a 32-bit number, read off by the
      divisions the encoders use, add back up to the number. */
  lemma ByteDigits(n: uint32)
    ensures n == 16777216 * (n / 16777216) + 65536 * ((n / 65536) % 256) + 256 * ((n / 256) % 256) + n % 256
  {
    var a := n / 256;
    var b := a / 256;
    var c := b / 256;
    assert n == 256 * a + n % 256;
    assert a == 256 * b + a % 256;
    assert b == 256 * c + b % 256;
    var r16 := 256 * (a % 256) + n % 256;
    assert n == 65536 * b + r16;
    Split16(b, r16);
    var r24 := 65536 * (b % 256) + r16;
    assert n == 16777216 * c + r24;
    Split24(c, r24);
  }

  /** Distinct route ids get distinct big-endian keys. */
  lemma BigEndian32Injective(m: uint32, n: uint32)
    ensures BigEndian32(m) == BigEndian32(n) ==> m == n
  {
    if BigEndian32(m) == BigEndian32(n) {
      BigEndian32RoundTrip(m);
      BigEndian32RoundTrip(n);
    }
  }

  /** A Go string is a byte string: the model's `string` holds one byte per
      char, and `[]byte(s)` reads the codes back. */
  predicate IsByteString(s: string) {
    forall i :: 0 <= i < |s| ==> s[i] as int < 256
  }

  function StringBytes(s: string): (b: seq<byte>)
    requires IsByteString(s)
    ensures |b| == |s|
    ensures forall i :: 0 <= i < |s| ==> b[i] == s[i] as int
  {
    seq(|s|, i requires 0 <= i < |s| => s[i] as int)
  }

  /** `string(b)`: each byte read as the character with that code. */
  function BytesString(b: seq<byte>): (s: string)
    ensures IsByteString(s) && StringBytes(s) == b
  {
    seq(|b|, i requires 0 <= i < |b| => b[i] as char)
  }

  lemma StringBytesInjective(s: string, t: string)
    requires IsByteString(s) && IsByteString(t)
    ensures StringBytes(s) == StringBytes(t) ==> s == t
  {
    if StringBytes(s) == StringBytes(t) {
      assert |s| == |t|;
      forall i | 0 <= i < |s|
        ensures s[i] == t[i]
      {
        assert StringBytes(s)[i] == StringBytes(t)[i];
      }
    }
  }

  lemma StringBytesAppend(s: string, t: string)
    requires IsByteString(s) && IsByteString(t)
    ensures IsByteString(s + t)
    ensures StringBytes(s + t) == StringBytes(s) + StringBytes(t)
  {
  }
}

=== FILE: cipher.dfy ===
/** The slice of the `skycoin/cipher` library the core relies on. The library
    itself is not part of this model: hashing, signing, verifying and the
    secp256k1 point check are fields of a `Suite`, and the properties the
    core relies on are stated once, as `Sound`. Hex parsing of keys and
    signatures is concrete. */
module Cipher {
  import opened Wrappers
  import opened Bytes
  import Hex

  const PubKeySize: nat := 33
  const SigSize: nat := 65

  /** A compressed secp256k1 public key. */
  type PubKey = k: seq<byte> | |k| == PubKeySize witness seq(33, i => 0)

  /** A recoverable signature. */
  type Sig = s: seq<byte> | |s| == SigSize witness seq(65, i => 0)

  type SecKey = seq<byte>

  const DigestSize: nat := 32

  /** A SHA-256 digest. */
  type Digest = d: seq<byte> | |d| == DigestSize witness seq(32, i => 0)

  /** `cipher.PubKey{}`, the all-zero key. */
  const ZeroPubKey: PubKey := [0, 0, 0, 0, 0, 0, 0, 0, 0, 0, 0, 0, 0, 0, 0, 0, 0, 0, 0, 0, 0, 0, 0, 0, 0, 0, 0, 0, 0, 0, 0, 0, 0]

  /** The external cryptographic primitives, and the text of the library's
      parse errors. */
  datatype Suite = Suite(
    onCurve: seq<byte> -> bool,
    sha256: seq<byte> -> Digest,
    signHash: (Digest, SecKey) -> Sig,
    verify: (PubKey, Sig, Digest) -> bool,
    pubKeyOf: SecKey -> PubKey,
    errorText: CipherError -> string)

  /** What the core assumes of the primitives: a signature made with a secret
      key verifies under its public key; a signature verifies one digest at
      most; generated public keys are valid curve points. SHA-256 maps
      unboundedly many messages to 32 bytes, so it cannot be collision-free;
      that two particular messages hash apart is stated where it is needed,
      as `Distinguishes`. */
  ghost predicate Sound(c: Suite) {
    && (forall h, sk :: c.verify(c.pubKeyOf(sk), c.signHash(h, sk), h))
    && (forall pk, sig, h1, h2 ::
          c.verify(pk, sig, h1) && c.verify(pk, sig, h2) ==> h1 == h2)
    && (forall sk :: c.onCurve(c.pubKeyOf(sk)))
  }

  /** SHA-256 tells these two messages apart, if they differ. */
  ghost predicate Distinguishes(c: Suite, m1: seq<byte>, m2: seq<byte>) {
    m1 != m2 ==> c.sha256(m1) != c.sha256(m2)
  }

  /** A suite whose signature is the digest padded with zero bytes and
      verifies that digest only. */
  function ToySuite(): Suite {
    Suite(b => true,
          m => seq(32, i => 0),
          (h: Digest, sk: SecKey) => h + seq(33, i => 0),
          (pk: PubKey, s: Sig, h: Digest) => s == h + seq(33, i => 0),
          sk => ZeroPubKey,
          e => "")
  }

  /** `Sound` can hold: the toy suite meets it. */
  lemma SoundSatisfiable()
    ensures Sound(ToySuite())
  {
    var c := ToySuite();
    forall pk, sig, h1, h2 | c.verify(pk, sig, h1) && c.verify(pk, sig, h2)
      ensures h1 == h2
    {
      assert h1 == sig[..32] && h2 == sig[..32];
    }
  }

  /** `PubKey.Hex`. */
  function KeyHex(pk: PubKey): (s: string)
    ensures |s| == 2 * PubKeySize
  {
    Hex.Encode(pk)
  }

  /** The library's errors: undecodable hex, a wrong length, a point off
      the curve, a signature that does not verify. */
  datatype CipherError = BadHex | BadLength | NotOnCurve | SigMismatch

  /** `cipher.PubKeyFromHex`: hex decoding, a 33-byte length and a valid
      curve point. */
  function PubKeyFromHex(c: Suite, s: string): (r: Result<PubKey, CipherError>)
    ensures r.Ok? ==> c.onCurve(r.value) && Hex.Decode(s) == Ok(r.value)
    ensures Hex.Decode(s).Err? ==> r == Err(BadHex)
    ensures Hex.Decode(s).Ok? && |Hex.Decode(s).value| != PubKeySize ==> r == Err(BadLength)
    ensures Hex.Decode(s).Ok? && |Hex.Decode(s).value| == PubKeySize && !c.onCurve(Hex.Decode(s).value)
      ==> r == Err(NotOnCurve)
  {
    match Hex.Decode(s)
    case Err(_) => Err(BadHex)
    case Ok(b) =>
      if |b| != PubKeySize then Err(BadLength)
      else if !c.onCurve(b) then Err(NotOnCurve)
      else Ok(b)
  }

  /** `cipher.SigFromHex`: hex decoding and a 65-byte length. */
  function SigFromHex(s: string): (r: Result<Sig, CipherError>)
    ensures r.Ok? ==> Hex.Decode(s) == Ok(r.value)
    ensures r.Ok? <==> Hex.Decode(s).Ok? && |Hex.Decode(s).value| == SigSize
    ensures Hex.Decode(s).Err? ==> r == Err(BadHex)
    ensures Hex.Decode(s).Ok? && |Hex.Decode(s).value| != SigSize ==> r == Err(BadLength)
  {
    match Hex.Decode(s)
    case Err(_) => Err(BadHex)
    case Ok(b) => if |b| != SigSize then Err(BadLength) else Ok(b)
  }

  /** A valid key survives `Hex` followed by `PubKeyFromHex`. */
  lemma PubKeyHexRoundTrip(c: Suite, pk: PubKey)
    requires c.onCurve(pk)
    ensures PubKeyFromHex(c, KeyHex(pk)) == Ok(pk)
  {
    Hex.DecodeEncode(pk);
  }

  lemma SigHexRoundTrip(sig: Sig)
    ensures SigFromHex(Hex.Encode(sig)) == Ok(sig)
  {
    Hex.DecodeEncode(sig);
  }
}

=== FILE: custom_updater.dfy ===
/** The custom updater (`pkg/updater/custom.go`): a registry of services,
    each with the script that updates it, and the command line that script
    is started with. `time.ParseDuration` and `filepath.Join` are parameters;
    durations are nanoseconds. */
module CustomUpdater {
  import opened Wrappers
  import UpdateConfig

  /** `defaultScriptTimeout`: ten minutes. */
  const DefaultScriptTimeout: int := 10 * 60 * 1_000_000_000

  /** The fields of the configured service the updater reads. */
  datatype ServiceConf = ServiceConf(
    localName: string, updateScript: string, updateScriptTimeout: string,
    updateScriptInterpreter: string, updateScriptExtraArguments: seq<string>, checkTag: string)

  /** `customServiceConfig`. */
  datatype CustomService = CustomService(
    officialName: string, localName: string, interpreter: string, extraArguments: seq<string>,
    updateScript: string, tag: string, timeout: int)

  /** `Custom`: the registry, by official name. */
  datatype Custom = Custom(services: map<string, CustomService>)

  /** `parseServiceConfig`: a timeout that does not parse falls back to the
      default; the script is joined under the scripts directory; the rest is
      copied. */
  function ParseServiceConfig(conf: ServiceConf, officialName: string, scriptsDir: string,
                              parseDuration: string -> Result<int, string>,
                              join: (string, string) -> string): (s: CustomService)
    ensures parseDuration(conf.updateScriptTimeout).Err? ==> s.timeout == DefaultScriptTimeout
    ensures parseDuration(conf.updateScriptTimeout).Ok? ==> s.timeout == parseDuration(conf.updateScriptTimeout).value
    ensures s.updateScript == join(scriptsDir, conf.updateScript) && s.tag == conf.checkTag
    ensures s.officialName == officialName && s.localName == conf.localName
    ensures s.interpreter == conf.updateScriptInterpreter && s.extraArguments == conf.updateScriptExtraArguments
  {
    var timeout := match parseDuration(conf.updateScriptTimeout)
      case Ok(d) => d
      case Err(_) => DefaultScriptTimeout;
    CustomService(officialName, conf.localName, conf.updateScriptInterpreter,
                  conf.updateScriptExtraArguments, join(scriptsDir, conf.updateScript), conf.checkTag, timeout)
  }

  /** `RegisterService`: the parsed service under its official name,
      replacing any earlier one. */
  function RegisterService(c: Custom, conf: ServiceConf, officialName: string, scriptsDir: string,
                           parseDuration: string -> Result<int, string>,
                           join: (string, string) -> string): (r: Custom)
    ensures r.services.Keys == c.services.Keys + {officialName}
  {
    Custom(c.services[officialName := ParseServiceConfig(conf, officialName, scriptsDir, parseDuration, join)])
  }

  /** `UnregisterService`: drops the name; an absent one is a no-op. */
  function UnregisterService(c: Custom, officialName: string): (r: Custom)
    ensures r.services.Keys == c.services.Keys - {officialName}
    ensures officialName !in c.services ==> r == c
  {
    Custom(c.services - {officialName})
  }

  /** `service`: the registered service, if any. */
  function Service(c: Custom, officialName: string): (r: Option<CustomService>)
    ensures r.Some? <==> officialName in c.services
  {
    if officialName in c.services then Some(c.services[officialName]) else None
  }

  /** A registered service is found under its name with what was parsed;
      unregistering removes only that name. */
  lemma RegisterThenLookup(c: Custom, conf: ServiceConf, name: string, other: string, scriptsDir: string,
                           parseDuration: string -> Result<int, string>, join: (string, string) -> string)
    ensures Service(RegisterService(c, conf, name, scriptsDir, parseDuration, join), name)
      == Some(ParseServiceConfig(conf, name, scriptsDir, parseDuration, join))
    ensures other != name ==>
      Service(RegisterService(c, conf, name, scriptsDir, parseDuration, join), other) == Service(c, other)
    ensures Service(UnregisterService(c, name), name) == None
    ensures other != name ==> Service(UnregisterService(c, name), other) == Service(c, other)
  {
  }

  /** `newCustomUpdater`: every configured service, registered under its
      map key. */
  function NewCustomUpdater(scriptsDir: string, services: map<string, ServiceConf>,
                            parseDuration: string -> Result<int, string>,
                            join: (string, string) -> string): (c: Custom)
    ensures c.services.Keys == services.Keys
    ensures forall n :: n in services ==>
      c.services[n] == ParseServiceConfig(services[n], n, scriptsDir, parseDuration, join)
  {
    Custom(map n | n in services :: ParseServiceConfig(services[n], n, scriptsDir, parseDuration, join))
  }

  /** The registrations of `newCustomUpdater`'s loop, in iteration order. */
  function RegisterAll(c: Custom, services: map<string, ServiceConf>, order: seq<string>, scriptsDir: string,
                       parseDuration: string -> Result<int, string>,
                       join: (string, string) -> string): Custom
    requires forall i :: 0 <= i < |order| ==> order[i] in services
    decreases |order|
  {
    if |order| == 0 then c
    else RegisterAll(RegisterService(c, services[order[0]], order[0], scriptsDir, parseDuration, join),
                     services, order[1..], scriptsDir, parseDuration, join)
  }

  /** Registering the services one by one in any iteration order builds the
      registry `newCustomUpdater` returns. */
  lemma NewCustomUpdaterRegistersAll(scriptsDir: string, services: map<string, ServiceConf>, order: seq<string>,
                                     parseDuration: string -> Result<int, string>,
                                     join: (string, string) -> string)
    requires UpdateConfig.Enumerates(order, services)
    ensures RegisterAll(Custom(map[]), services, order, scriptsDir, parseDuration, join)
      == NewCustomUpdater(scriptsDir, services, parseDuration, join)
  {
    RegisterAllOutcome(Custom(map[]), services, order, scriptsDir, parseDuration, join);
  }

  /** What the loop leaves in `r`, starting from `c`: every name in the
      order holds its parsed service, every other name what was there
      before. */
  ghost predicate Registered(c: Custom, services: map<string, ServiceConf>, order: seq<string>, r: Custom,
                             scriptsDir: string, parseDuration: string -> Result<int, string>,
                             join: (string, string) -> string)
    requires forall i :: 0 <= i < |order| ==> order[i] in services
  {
    && (forall n :: n in r.services <==> n in c.services || n in order)
    && (forall n :: n in order ==>
          r.services[n] == ParseServiceConfig(services[n], n, scriptsDir, parseDuration, join))
    && (forall n :: n in c.services && n !in order ==> r.services[n] == c.services[n])
  }

  lemma {:induction false} RegisterAllOutcome(c: Custom, services: map<string, ServiceConf>, order: seq<string>,
                                              scriptsDir: string, parseDuration: string -> Result<int, string>,
                                              join: (string, string) -> string)
    requires forall i :: 0 <= i < |order| ==> order[i] in services
    ensures Registered(c, services, order, RegisterAll(c, services, order, scriptsDir, parseDuration, join),
                       scriptsDir, parseDuration, join)
    decreases |order|
  {
    if |order| > 0 {
      var c1 := RegisterService(c, services[order[0]], order[0], scriptsDir, parseDuration, join);
      RegisterAllOutcome(c1, services, order[1..], scriptsDir, parseDuration, join);
      RegisterAllStep(c, c1, services, order, RegisterAll(c1, services, order[1..], scriptsDir, parseDuration, join),
                      scriptsDir, parseDuration, join);
    }
  }

  /** One registration in front of the rest of the loop. */
  lemma RegisterAllStep(c: Custom, c1: Custom, services: map<string, ServiceConf>, order: seq<string>, r: Custom,
                        scriptsDir: string, parseDuration: string -> Result<int, string>,
                        join: (string, string) -> string)
    requires forall i :: 0 <= i < |order| ==> order[i] in services
    requires |order| > 0
    requires c1 == RegisterService(c, services[order[0]], order[0], scriptsDir, parseDuration, join)
    requires Registered(c1, services, order[1..], r, scriptsDir, parseDuration, join)
    ensures Registered(c, services, order, r, scriptsDir, parseDuration, join)
  {
    assert forall n :: n in order <==> n == order[0] || n in order[1..] by {
      assert order == [order[0]] + order[1..];
    }
    forall n | n in order
      ensures r.services[n] == ParseServiceConfig(services[n], n, scriptsDir, parseDuration, join)
    {
      if n !in order[1..] {
        assert n == order[0] && r.services[n] == c1.services[n];
      }
    }
  }

  /** `buildCommand`: the script, the local name and the version, then the
      extra arguments. */
  function BuildCommand(s: CustomService, version: string): (argv: seq<string>)
    ensures |argv| == 3 + |s.extraArguments|
    ensures argv[0] == s.updateScript && argv[1] == s.localName && argv[2] == version
    ensures argv[3..] == s.extraArguments
  {
    [s.updateScript, s.localName, version] + s.extraArguments
  }

  /** The command a registered service is updated with reaches the script
      under the scripts directory, with its local name and the requested
      version. */
  lemma RegisteredCommand(c: Custom, conf: ServiceConf, name: string, version: string, scriptsDir: string,
                          parseDuration: string -> Result<int, string>, join: (string, string) -> string)
    ensures var s := Service(RegisterService(c, conf, name, scriptsDir, parseDuration, join), name);
      && s.Some?
      && BuildCommand(s.value, version)
           == [join(scriptsDir, conf.updateScript), conf.localName, version] + conf.updateScriptExtraArguments
  {
  }
}

=== FILE: decimal.dfy ===
/** Base-10 text for integers: the `%d` verb (and `strconv.FormatUint`) on
    one side, `strconv.ParseUint(s, 10, 64)` on the other. */
module Decimal {
  import opened Wrappers
  import opened Bytes

  predicate IsDigit(c: char) {
    '0' <= c <= '9'
  }

  function DigitValue(c: char): (d: nat)
    requires IsDigit(c)
    ensures d < 10
  {
    c as int - '0' as int
  }

  function DigitChar(d: nat): (c: char)
    requires d < 10
    ensures IsDigit(c) && DigitValue(c) == d
  {
    (d + '0' as int) as char
  }

  predicate AllDigits(s: string) {
    forall i :: 0 <= i < |s| ==> IsDigit(s[i])
  }

  /** `fmt.Sprintf("%d", n)` for a non-negative n: no sign, no leading zero. */
  function Digits(n: nat): (s: string)
    ensures |s| >= 1 && AllDigits(s) && IsByteString(s)
    ensures |s| > 1 ==> s[0] != '0'
    decreases n
  {
    if n < 10 then [DigitChar(n)]
    else Digits(n / 10) + [DigitChar(n % 10)]
  }

  /** `fmt.Sprintf("%d", n)` for any Go integer (a minus sign when negative). */
  function IntString(n: int): (s: string)
    ensures |s| >= 1
    ensures n < 0 <==> s[0] == '-'
  {
    if n < 0 then "-" + Digits(-n) else Digits(n)
  }

  function Pow10(k: nat): (p: nat)
    ensures p >= 1
  {
    if k == 0 then 1 else 10 * Pow10(k - 1)
  }

  /** The number a digit string denotes, read from the most significant end. */
  function ValueOf(s: string): nat
    requires AllDigits(s)
  {
    if |s| == 0 then 0 else DigitValue(s[0]) * Pow10(|s| - 1) + ValueOf(s[1..])
  }

  /** Appending a digit shifts the value one decimal place. */
  lemma {:induction false} ValueOfSnoc(s: string, c: char)
    requires AllDigits(s) && IsDigit(c)
    ensures AllDigits(s + [c])
    ensures ValueOf(s + [c]) == 10 * ValueOf(s) + DigitValue(c)
    decreases |s|
  {
    var t := s + [c];
    assert AllDigits(t);
    if |s| == 0 {
      assert t == [c];
      assert ValueOf(t[1..]) == 0 by { assert t[1..] == []; }
    } else {
      assert t[1..] == s[1..] + [c];
      ValueOfSnoc(s[1..], c);
      assert ValueOf(t) == DigitValue(s[0]) * Pow10(|s|) + ValueOf(t[1..]);
      ShiftPlace(DigitValue(s[0]), Pow10(|s| - 1), ValueOf(s[1..]), DigitValue(c));
    }
  }

  /** A leading digit worth ten times more, after a tail shifted one place. */
  lemma ShiftPlace(d: int, p: int, v: int, e: int)
    ensures d * (10 * p) + (10 * v + e) == 10 * (d * p + v) + e
  {
  }

  /** `Digits` denotes the number it renders. */
  lemma {:induction false} ValueOfDigits(n: nat)
    ensures ValueOf(Digits(n)) == n
    decreases n
  {
    if n < 10 {
      assert Digits(n)[1..] == [];
    } else {
      ValueOfDigits(n / 10);
      ValueOfSnoc(Digits(n / 10), DigitChar(n % 10));
    }
  }

  /** The two ways `strconv.ParseUint` can fail. */
  datatype NumError = ErrSyntax | ErrRange {
    /** The text of `NumError.Err`. */
    function Message(): string {
      match this
      case ErrSyntax => "invalid syntax"
      case ErrRange => "value out of range"
    }
  }

  /** The digit loop of `strconv.ParseUint` in base 10 with bit size 64:
      left to right, a non-digit is a syntax error, a running value past
      the 64-bit maximum is a range error at that character. */
  function ParseDigitsFrom(s: string, acc: uint64): Result<uint64, NumError>
    decreases |s|
  {
    if |s| == 0 then Ok(acc)
    else if !IsDigit(s[0]) then Err(ErrSyntax)
    else if acc * 10 + DigitValue(s[0]) > MaxUint64 then Err(ErrRange)
    else ParseDigitsFrom(s[1..], acc * 10 + DigitValue(s[0]))
  }

  /** `strconv.ParseUint(s, 10, 64)`: the empty string, a sign, a `0x`
      prefix or any other non-digit is rejected; so is a value above the
      64-bit maximum. */
  function ParseUint64(s: string): (r: Result<uint64, NumError>)
    ensures r.Ok? <==> |s| >= 1 && AllDigits(s) && ValueOf(s) <= MaxUint64
    ensures r.Ok? ==> r.value == ValueOf(s)
    ensures |s| == 0 ==> r == Err(ErrSyntax)
    ensures |s| >= 1 && AllDigits(s) && ValueOf(s) > MaxUint64 ==> r == Err(ErrRange)
  {
    if |s| == 0 then Err(ErrSyntax)
    else
      ParseDigitsFromOk(s, 0);
      if AllDigits(s) then ParseDigitsFromValue(s, 0); ParseDigitsFrom(s, 0)
      else ParseDigitsFrom(s, 0)
  }

  /** The digit loop only succeeds on digit strings. */
  lemma {:induction false} ParseDigitsFromOk(s: string, acc: uint64)
    ensures ParseDigitsFrom(s, acc).Ok? ==> AllDigits(s)
    decreases |s|
  {
    if |s| > 0 && IsDigit(s[0]) && acc * 10 + DigitValue(s[0]) <= MaxUint64 {
      ParseDigitsFromOk(s[1..], acc * 10 + DigitValue(s[0]));
      if ParseDigitsFrom(s, acc).Ok? {
        forall i | 0 <= i < |s| ensures IsDigit(s[i]) {
          if i > 0 { assert s[i] == s[1..][i - 1]; }
        }
      }
    }
  }

  lemma ShiftDigit(acc: nat, d: nat, p: nat, v: nat)
    ensures acc * (10 * p) + (d * p + v) == (acc * 10 + d) * p + v
  {
  }

  lemma AtLeastOnce(a: nat, p: nat)
    requires p >= 1
    ensures a * p >= a
  {
  }

  /** What the digit loop computes on a digit string: the value, unless a
      running value passes the 64-bit maximum. */
  lemma {:induction false} ParseDigitsFromValue(s: string, acc: uint64)
    requires AllDigits(s)
    ensures acc * Pow10(|s|) + ValueOf(s) <= MaxUint64 ==>
      ParseDigitsFrom(s, acc) == Ok(acc * Pow10(|s|) + ValueOf(s))
    ensures acc * Pow10(|s|) + ValueOf(s) > MaxUint64 ==>
      ParseDigitsFrom(s, acc) == Err(ErrRange)
    decreases |s|
  {
    if |s| > 0 {
      var d := DigitValue(s[0]);
      var p := Pow10(|s| - 1);
      var rest := s[1..];
      assert AllDigits(rest);
      assert ValueOf(s) == d * p + ValueOf(rest);
      assert Pow10(|s|) == 10 * p;
      ShiftDigit(acc, d, p, ValueOf(rest));
      assert acc * Pow10(|s|) + ValueOf(s) == (acc * 10 + d) * p + ValueOf(rest);
      if acc * 10 + d > MaxUint64 {
        AtLeastOnce(acc * 10 + d, p);
      } else {
        ParseDigitsFromValue(rest, acc * 10 + d);
      }
    }
  }

  /** The server parses exactly what the client renders: every 64-bit
      nonce survives `%d` followed by `strconv.ParseUint`. */
  lemma ParseDigitsRoundTrip(n: uint64)
    ensures ParseUint64(Digits(n)) == Ok(n)
  {
    ValueOfDigits(n);
  }

  /** Rendering is injective, so two nonces never share their text. */
  lemma DigitsInjective(m: nat, n: nat)
    ensures Digits(m) == Digits(n) ==> m == n
  {
    ValueOfDigits(m);
    ValueOfDigits(n);
  }

  /** `Digits(10k + d)` is `Digits(k)` followed by the digit d. */
  lemma DigitsShift(k: nat, d: nat)
    requires k >= 1 && d < 10
    ensures Digits(10 * k + d) == Digits(k) + [DigitChar(d)]
  {
    assert (10 * k + d) / 10 == k;
    assert (10 * k + d) % 10 == d;
  }
}

=== FILE: hex.dfy ===
/** `encoding/hex`: the text form of public keys and signatures. */
module Hex {
  import opened Wrappers
  import opened Bytes

  const HexDigits: string := "0123456789abcdef"

  predicate IsHexChar(c: char) {
    ('0' <= c <= '9') || ('a' <= c <= 'f') || ('A' <= c <= 'F')
  }

  function NibbleValue(c: char): (v: nat)
    requires IsHexChar(c)
    ensures v < 16
  {
    if '0' <= c <= '9' then c as int - '0' as int
    else if 'a' <= c <= 'f' then c as int - 'a' as int + 10
    else c as int - 'A' as int + 10
  }

  function NibbleChar(v: nat): (c: char)
    requires v < 16
    ensures IsHexChar(c) && NibbleValue(c) == v
    ensures c != '/'
  {
    HexDigits[v]
  }

  /** `hex.EncodeToString`: two lower-case digits per byte, high nibble first. */
  function Encode(b: seq<byte>): (s: string)
    ensures |s| == 2 * |b|
    ensures forall i :: 0 <= i < |s| ==> IsHexChar(s[i]) && s[i] != '/'
  {
    if |b| == 0 then ""
    else [NibbleChar(b[0] / 16), NibbleChar(b[0] % 16)] + Encode(b[1..])
  }

  datatype DecodeError = ErrLength | InvalidByte(c: char)

  /** `hex.DecodeString`: pairs of digits of either case; the first invalid
      character is reported, and only then an odd length. */
  function Decode(s: string): (r: Result<seq<byte>, DecodeError>)
    ensures r.Ok? ==> |s| == 2 * |r.value|
    ensures r.Ok? <==> |s| % 2 == 0 && forall i :: 0 <= i < |s| ==> IsHexChar(s[i])
    decreases |s|
  {
    if |s| == 0 then Ok([])
    else if !IsHexChar(s[0]) then Err(InvalidByte(s[0]))
    else if |s| == 1 then Err(ErrLength)
    else if !IsHexChar(s[1]) then Err(InvalidByte(s[1]))
    else
      match Decode(s[2..])
      case Err(e) => Err(e)
      case Ok(rest) => Ok([16 * NibbleValue(s[0]) + NibbleValue(s[1])] + rest)
  }

  /** Decoding recovers every encoded byte string. */
  lemma {:induction false} DecodeEncode(b: seq<byte>)
    ensures Decode(Encode(b)) == Ok(b)
  {
    if |b| > 0 {
      var s := Encode(b);
      assert s[2..] == Encode(b[1..]);
      DecodeEncode(b[1..]);
      assert 16 * (b[0] / 16) + b[0] % 16 == b[0];
      assert [b[0]] + b[1..] == b;
    }
  }

  /** Encoding is injective: one key has one hex form. */
  lemma EncodeInjective(a: seq<byte>, b: seq<byte>)
    ensures Encode(a) == Encode(b) ==> a == b
  {
    DecodeEncode(a);
    DecodeEncode(b);
  }
}

=== FILE: mem_store.dfy ===
/** `memStore` and the `store.New` factory: a list of transport slots, in
    which a deregistered transport leaves an empty slot behind, plus a nonce
    counter per public key. `SetError` makes every operation fail with the
    injected error before it looks at the data. */
module MemStore {
  import opened Wrappers
  import opened Cipher
  import opened TransportEntry
  import opened TdStore
  import NonceLedger
  import Bytes

  type Slot = Option<EntryWithStatus>

  datatype MemStore = MemStore(
    transports: seq<Slot>,
    nonces: NonceLedger.Ledger<PubKey>,
    err: Option<Error>)

  /** The outcome of a call that may dereference a nil pointer. */
  datatype Call<T> = Returns(value: T) | Panics

  /** `newMemoryStore`. */
  function NewMemoryStore(): (s: MemStore)
    ensures s.transports == [] && s.err == None
    ensures forall k :: NonceLedger.GetNonce(s.nonces, k) == 0
  {
    MemStore([], map[], None)
  }

  /** The stores `store.New` can build. The Redis client itself is not part
      of this model; only the address it is given is kept. */
  datatype StoreKind = Memory(mem: MemStore) | Redis(addr: string)

  /** `store.New`. */
  function New(sType: string, args: seq<string>): (r: Result<StoreKind, Error>)
    ensures sType == "memory" <==> r.Ok? && r.value.Memory?
    ensures r.Ok? && r.value.Memory? ==>
      r.value.mem.transports == [] && r.value.mem.err == None
      && forall k :: NonceLedger.GetNonce(r.value.mem.nonces, k) == 0
    ensures sType == "redis" ==>
      (|args| == 1 <==> r.Ok?) && (r.Ok? ==> r.value == Redis(args[0]))
    ensures sType == "redis" && |args| != 1 ==> r == Err(Message("invalid args"))
    ensures sType != "memory" && sType != "redis" ==> r == Err(Message("unknown store type"))
  {
    if sType == "memory" then Ok(Memory(NewMemoryStore()))
    else if sType == "redis" then
      if |args| != 1 then Err(Message("invalid args")) else Ok(Redis(args[0]))
    else Err(Message("unknown store type"))
  }

  /** `SetError`. */
  function SetError(s: MemStore, e: Option<Error>): (t: MemStore)
    ensures t.err == e && t.transports == s.transports && t.nonces == s.nonces
  {
    s.(err := e)
  }

  predicate LiveWithId(slot: Slot, id: Uuid) {
    slot.Some? && slot.value.entry.id == id
  }

  /** The first live slot holding the ID, if any. */
  function FindLive(t: seq<Slot>, id: Uuid): (r: Option<nat>)
    ensures r.Some? ==> r.value < |t| && LiveWithId(t[r.value], id)
    ensures r.Some? ==> forall j :: 0 <= j < r.value ==> !LiveWithId(t[j], id)
    ensures r.None? ==> forall j :: 0 <= j < |t| ==> !LiveWithId(t[j], id)
  {
    if |t| == 0 then None
    else if LiveWithId(t[0], id) then Some(0)
    else match FindLive(t[1..], id)
      case None => None
      case Some(k) => Some(k + 1)
  }

  /** The record a successful registration appends. */
  function Fresh(se: SignedEntry, now: int): EntryWithStatus {
    EntryWithStatus(se.entry, true, now, (true, true))
  }

  /** What `RegisterTransport`'s duplicate scan meets first. */
  datatype ScanStop = MetNil | MetDuplicate | ReachedEnd

  /** The loop of `RegisterTransport` as written: it reads `e.Entry.ID` of
      every slot, so the first empty slot it meets is a nil dereference. */
  function ScanAsWritten(t: seq<Slot>, id: Uuid): (r: ScanStop)
    ensures r == ReachedEnd <==> forall j :: 0 <= j < |t| ==> LiveWithId(t[j], id) == false && t[j].Some?
  {
    if |t| == 0 then ReachedEnd
    else if t[0].None? then MetNil
    else if t[0].value.entry.id == id then MetDuplicate
    else ScanAsWritten(t[1..], id)
  }

  /** `memStore.RegisterTransport` exactly as written, including the panic on
      an empty slot. `now` is `time.Now().Unix()`; on success the signed
      entry comes back with `Registered` set, as the source copies it into
      the caller's struct. */
  function RegisterTransportAsWritten(s: MemStore, se: SignedEntry, now: int)
    : (r: Call<(MemStore, Result<SignedEntry, Error>)>)
    ensures r.Panics? ==> s.err.None? && None in s.transports
    ensures r.Returns? ==> r.value == RegisterTransport(s, se, now)
  {
    ScanStops(s.transports, se.entry.id);
    if s.err.Some? then Returns((s, Err(s.err.value)))
    else match ScanAsWritten(s.transports, se.entry.id)
      case MetNil => Panics
      case MetDuplicate => Returns((s, Err(AlreadyRegistered)))
      case ReachedEnd =>
        Returns((s.(transports := s.transports + [Some(Fresh(se, now))]),
                 Ok(se.(registered := now))))
  }

  /** `memStore.RegisterTransport` with empty slots skipped, as every other
      method of the store does. */
  function RegisterTransport(s: MemStore, se: SignedEntry, now: int)
    : (r: (MemStore, Result<SignedEntry, Error>))
    ensures s.err.Some? ==> r == (s, Err(s.err.value))
    ensures s.err.None? && (exists j :: 0 <= j < |s.transports| && LiveWithId(s.transports[j], se.entry.id))
      ==> r == (s, Err(AlreadyRegistered))
    ensures s.err.None? && (forall j :: 0 <= j < |s.transports| ==> !LiveWithId(s.transports[j], se.entry.id))
      ==> r.1 == Ok(se.(registered := now))
          && r.0 == s.(transports := s.transports + [Some(Fresh(se, now))])
  {
    if s.err.Some? then (s, Err(s.err.value))
    else if FindLive(s.transports, se.entry.id).Some? then (s, Err(AlreadyRegistered))
    else (s.(transports := s.transports + [Some(Fresh(se, now))]), Ok(se.(registered := now)))
  }

  /** `memStore.DeregisterTransport`: empties the first live slot with the ID
      and returns its entry. */
  function DeregisterTransport(s: MemStore, id: Uuid): (r: (MemStore, Result<Entry, Error>))
    ensures s.err.Some? ==> r == (s, Err(s.err.value))
    ensures r.1.Ok? ==> exists i :: (0 <= i < |s.transports| && LiveWithId(s.transports[i], id)
      && r.1.value == s.transports[i].value.entry
      && r.0 == s.(transports := s.transports[i := None]))
    ensures s.err.None? && (forall j :: 0 <= j < |s.transports| ==> !LiveWithId(s.transports[j], id))
      ==> r == (s, Err(TransportNotFound))
    ensures s.err.None? && FindLive(s.transports, id).Some? ==>
      var i := FindLive(s.transports, id).value;
      r == (s.(transports := s.transports[i := None]), Ok(s.transports[i].value.entry))
    ensures r.0.nonces == s.nonces && r.0.err == s.err && |r.0.transports| == |s.transports|
  {
    if s.err.Some? then (s, Err(s.err.value))
    else match FindLive(s.transports, id)
      case None => (s, Err(TransportNotFound))
      case Some(i) => (s.(transports := s.transports[i := None]), Ok(s.transports[i].value.entry))
  }

  /** `memStore.GetTransportByID`: the first live entry with the ID. */
  function GetTransportById(s: MemStore, id: Uuid): (r: Result<EntryWithStatus, Error>)
    ensures s.err.Some? ==> r == Err(s.err.value)
    ensures s.err.None? ==>
      (r.Ok? <==> exists j :: 0 <= j < |s.transports| && LiveWithId(s.transports[j], id))
    ensures r.Ok? ==> r.value.entry.id == id && Some(r.value) in s.transports
    ensures r.Ok? ==> exists i :: (0 <= i < |s.transports| && s.transports[i] == Some(r.value)
      && forall j :: 0 <= j < i ==> !LiveWithId(s.transports[j], id))
    ensures s.err.None? && r.Err? ==> r.error == TransportNotFound
  {
    if s.err.Some? then Err(s.err.value)
    else match FindLive(s.transports, id)
      case None => Err(TransportNotFound)
      case Some(i) => Ok(s.transports[i].value)
  }

  /** An entry names the key as one of its edges. */
  predicate Touches(e: EntryWithStatus, pk: PubKey) {
    e.entry.edges.0 == KeyHex(pk) || e.entry.edges.1 == KeyHex(pk)
  }

  /** The live entries touching the key, in slot order. */
  function LiveOnEdge(t: seq<Slot>, pk: PubKey): (r: seq<EntryWithStatus>)
    ensures |r| <= |t|
    ensures forall e :: e in r <==> Some(e) in t && Touches(e, pk)
  {
    if |t| == 0 then []
    else
      var rest := LiveOnEdge(t[1..], pk);
      assert forall x :: x in t <==> x == t[0] || x in t[1..];
      if t[0].Some? && Touches(t[0].value, pk) then [t[0].value] + rest else rest
  }

  /** `memStore.GetTransportsByEdge`: exactly the live entries touching the
      key; not-found when there are none. */
  function GetTransportsByEdge(s: MemStore, pk: PubKey): (r: Result<seq<EntryWithStatus>, Error>)
    ensures s.err.Some? ==> r == Err(s.err.value)
    ensures r.Ok? ==> |r.value| > 0 && forall e :: e in r.value <==> Some(e) in s.transports && Touches(e, pk)
    ensures s.err.None? && r.Err? ==> (r.error == TransportNotFound
      && forall e :: Some(e) in s.transports ==> !Touches(e, pk))
  {
    if s.err.Some? then Err(s.err.value)
    else
      var res := LiveOnEdge(s.transports, pk);
      if |res| == 0 then Err(TransportNotFound) else Ok(res)
  }

  /** The status update an edge reports: only its own slot changes, and
      `IsUp` becomes the AND of both. */
  function Report(e: EntryWithStatus, idx: nat, isUp: bool): (u: EntryWithStatus)
    requires idx < 2
    ensures u.entry == e.entry && u.registered == e.registered
    ensures u.statuses.0 == (if idx == 0 then isUp else e.statuses.0)
    ensures u.statuses.1 == (if idx == 1 then isUp else e.statuses.1)
    ensures u.isUp <==> u.statuses.0 && u.statuses.1
  {
    var st := if idx == 0 then (isUp, e.statuses.1) else (e.statuses.0, isUp);
    e.(statuses := st, isUp := st.0 && st.1)
  }

  /** The body of `memStore.UpdateStatus` once the reporter's key is known.
      The first edge is matched before the second. */
  function UpdateStatusAs(s: MemStore, pk: PubKey, id: Uuid, isUp: bool)
    : (r: (MemStore, Result<EntryWithStatus, Error>))
    ensures s.err.Some? ==> r == (s, Err(s.err.value))
    ensures r.1.Err? ==> r.0 == s
    ensures s.err.None? && GetTransportById(s, id).Err? ==> r.1 == Err(TransportNotFound)
    ensures s.err.None? && GetTransportById(s, id).Ok? && !Touches(GetTransportById(s, id).value, pk)
      ==> r.1 == Err(Message("unauthorized"))
    ensures r.1.Ok? ==> (r.1.value.entry.id == id && Touches(r.1.value, pk)
      && GetTransportById(r.0, id) == r.1)
    ensures r.1.Ok? ==> (FindLive(s.transports, id).Some?
      && r.0 == s.(transports := s.transports[FindLive(s.transports, id).value := Some(r.1.value)]))
    ensures s.err.None? && GetTransportById(s, id).Ok? && Touches(GetTransportById(s, id).value, pk) ==>
      var e := GetTransportById(s, id).value;
      r.1 == Ok(Report(e, if e.entry.edges.0 == KeyHex(pk) then 0 else 1, isUp))
    ensures r.0.nonces == s.nonces && r.0.err == s.err && |r.0.transports| == |s.transports|
  {
    if s.err.Some? then (s, Err(s.err.value))
    else match FindLive(s.transports, id)
      case None => (s, Err(TransportNotFound))
      case Some(i) =>
        var e := s.transports[i].value;
        var idx := if e.entry.edges.0 == KeyHex(pk) then 0
                   else if e.entry.edges.1 == KeyHex(pk) then 1
                   else -1;
        if idx == -1 then (s, Err(Message("unauthorized")))
        else
          var u := Report(e, idx, isUp);
          var t := s.transports[i := Some(u)];
          assert FindLive(t, id) == Some(i) by { FindLiveAfterReplace(s.transports, id, i, u); }
          (s.(transports := t), Ok(u))
  }

  /** Replacing the first live slot with an entry of the same ID keeps it the
      first live slot. */
  lemma FindLiveAfterReplace(t: seq<Slot>, id: Uuid, i: nat, u: EntryWithStatus)
    requires FindLive(t, id) == Some(i) && u.entry.id == id
    ensures FindLive(t[i := Some(u)], id) == Some(i)
  {
    var t' := t[i := Some(u)];
    assert LiveWithId(t'[i], id);
    assert forall j :: 0 <= j < i ==> t'[j] == t[j];
    FindLiveFirst(t', id, i);
  }

  /** A live slot with the ID that has no live slot with the ID before it is
      the one `FindLive` finds. */
  lemma {:induction false} FindLiveFirst(t: seq<Slot>, id: Uuid, i: nat)
    requires i < |t| && LiveWithId(t[i], id)
    requires forall j :: 0 <= j < i ==> !LiveWithId(t[j], id)
    ensures FindLive(t, id) == Some(i)
  {
    if i > 0 {
      FindLiveFirst(t[1..], id, i - 1);
    }
  }

  /** `memStore.UpdateStatus` as written: the reporter is read from the
      context under the string key "auth-pub-key". */
  function UpdateStatus(s: MemStore, ctx: Context, id: Uuid, isUp: bool)
    : (r: (MemStore, Result<EntryWithStatus, Error>))
    ensures s.err.Some? ==> r == (s, Err(s.err.value))
    ensures s.err.None? && ctx.Value(NamedKey("auth-pub-key")).None?
      ==> r == (s, Err(Message("invalid auth")))
    ensures ctx.Value(NamedKey("auth-pub-key")).Some?
      ==> r == UpdateStatusAs(s, ctx.Value(NamedKey("auth-pub-key")).value, id, isUp)
  {
    if s.err.Some? then (s, Err(s.err.value))
    else match ctx.Value(NamedKey("auth-pub-key"))
      case None => (s, Err(Message("invalid auth")))
      case Some(pk) => UpdateStatusAs(s, pk, id, isUp)
  }

  /** `memStore.UpdateStatus` reading the reporter from `store.ContextAuthKey`,
      the key under which the signature gate attaches it. */
  function UpdateStatusFromAuth(s: MemStore, ctx: Context, id: Uuid, isUp: bool)
    : (r: (MemStore, Result<EntryWithStatus, Error>))
    ensures s.err.Some? ==> r == (s, Err(s.err.value))
    ensures s.err.None? && ctx.Value(AuthKeySentinel).None?
      ==> r == (s, Err(Message("invalid auth")))
    ensures ctx.Value(AuthKeySentinel).Some?
      ==> r == UpdateStatusAs(s, ctx.Value(AuthKeySentinel).value, id, isUp)
  {
    if s.err.Some? then (s, Err(s.err.value))
    else match ctx.Value(AuthKeySentinel)
      case None => (s, Err(Message("invalid auth")))
      case Some(pk) => UpdateStatusAs(s, pk, id, isUp)
  }

  /** `memStore.GetNonce`. */
  function GetNonce(s: MemStore, pk: PubKey): (r: Result<NonceLedger.Nonce, Error>)
    ensures s.err.Some? ==> r == Err(s.err.value)
    ensures s.err.None? && pk !in s.nonces ==> r == Ok(0)
    ensures s.err.None? && pk in s.nonces ==> r == Ok(s.nonces[pk])
  {
    if s.err.Some? then Err(s.err.value) else Ok(NonceLedger.GetNonce(s.nonces, pk))
  }

  /** `memStore.IncrementNonce`. */
  function IncrementNonce(s: MemStore, pk: PubKey): (r: (MemStore, Result<NonceLedger.Nonce, Error>))
    ensures s.err.Some? ==> r == (s, Err(s.err.value))
    ensures s.err.None? ==> (r.1.Ok? && GetNonce(r.0, pk) == r.1
      && r.1.value == NonceLedger.IncrementNonce(s.nonces, pk).1)
    ensures s.err.None? ==> forall k :: k != pk ==> GetNonce(r.0, k) == GetNonce(s, k)
    ensures r.0.transports == s.transports && r.0.err == s.err
  {
    if s.err.Some? then (s, Err(s.err.value))
    else
      var (db, n) := NonceLedger.IncrementNonce(s.nonces, pk);
      (s.(nonces := db), Ok(n))
  }

  // ---------------------------------------------------------------------
  // Properties relating several operations.

  /** A registration is found by ID afterwards, with both statuses up and
      the stamp it was given; a second registration of it is refused and
      changes nothing. */
  lemma RegisterThenLookup(s: MemStore, se: SignedEntry, now: int)
    requires s.err.None?
    requires forall j :: 0 <= j < |s.transports| ==> !LiveWithId(s.transports[j], se.entry.id)
    ensures var (s1, r) := RegisterTransport(s, se, now);
      && r.Ok? && r.value.registered == now
      && GetTransportById(s1, se.entry.id) == Ok(Fresh(se, now))
      && GetTransportById(s1, se.entry.id).value.isUp
      && RegisterTransport(s1, se, now) == (s1, Err(AlreadyRegistered))
  {
    var s1 := RegisterTransport(s, se, now).0;
    var n := |s.transports|;
    assert LiveWithId(s1.transports[n], se.entry.id);
    assert forall j :: 0 <= j < n ==> s1.transports[j] == s.transports[j];
  }

  /** Deregistering what was just registered succeeds with its entry and
      empties the slot it was appended to; the ID is then unknown. */
  lemma RegisterThenDeregister(s: MemStore, se: SignedEntry, now: int)
    requires s.err.None?
    requires forall j :: 0 <= j < |s.transports| ==> !LiveWithId(s.transports[j], se.entry.id)
    ensures var s1 := RegisterTransport(s, se, now).0;
      var (s2, r) := DeregisterTransport(s1, se.entry.id);
      && r == Ok(se.entry)
      && s2 == s.(transports := s.transports + [None])
      && GetTransportById(s2, se.entry.id) == Err(TransportNotFound)
  {
    var s1 := RegisterTransport(s, se, now).0;
    var n := |s.transports|;
    assert LiveWithId(s1.transports[n], se.entry.id);
    assert forall j :: 0 <= j < n ==> s1.transports[j] == s.transports[j];
    FindLiveFirst(s1.transports, se.entry.id, n);
    var s2 := DeregisterTransport(s1, se.entry.id).0;
    assert s2.transports == s.transports + [None];
  }

  /** Edge lookup keeps store order: a slot appended at the end contributes
      its entry, if live and on the edge, after everything before it. */
  lemma {:induction false} LiveOnEdgeSnoc(t: seq<Slot>, x: Slot, pk: PubKey)
    ensures LiveOnEdge(t + [x], pk)
      == LiveOnEdge(t, pk) + (if x.Some? && Touches(x.value, pk) then [x.value] else [])
    decreases |t|
  {
    if |t| > 0 {
      assert (t + [x])[1..] == t[1..] + [x];
      LiveOnEdgeSnoc(t[1..], x, pk);
    } else {
      assert (t + [x])[1..] == [];
    }
  }

  /** After a registration of a fresh ID, the edge lookup of either of its
      keys answers the earlier list followed by the new entry, and the
      lookup of any other key is unchanged. */
  lemma RegisterThenByEdge(s: MemStore, se: SignedEntry, now: int, pk: PubKey)
    requires s.err.None?
    requires forall j :: 0 <= j < |s.transports| ==> !LiveWithId(s.transports[j], se.entry.id)
    ensures var s1 := RegisterTransport(s, se, now).0;
      && (Touches(Fresh(se, now), pk) ==>
            GetTransportsByEdge(s1, pk) == Ok(LiveOnEdge(s.transports, pk) + [Fresh(se, now)]))
      && (!Touches(Fresh(se, now), pk) ==> GetTransportsByEdge(s1, pk) == GetTransportsByEdge(s, pk))
  {
    var s1 := RegisterTransport(s, se, now).0;
    assert s1.transports == s.transports + [Some(Fresh(se, now))];
    LiveOnEdgeSnoc(s.transports, Some(Fresh(se, now)), pk);
    if !Touches(Fresh(se, now), pk) {
      assert LiveOnEdge(s1.transports, pk) == LiveOnEdge(s.transports, pk);
    }
  }

  /** After a deregistration, the ID is not found any more and a second
      deregistration reports not-found, in a store whose IDs are unique. */
  lemma DeregisterThenLookup(s: MemStore, id: Uuid)
    requires s.err.None? && UniqueIds(s)
    ensures var (s1, r) := DeregisterTransport(s, id);
      && GetTransportById(s1, id) == Err(TransportNotFound)
      && DeregisterTransport(s1, id) == (s1, Err(TransportNotFound))
  {
    var s1 := DeregisterTransport(s, id).0;
    match FindLive(s.transports, id)
    case None =>
    case Some(i) =>
      forall j | 0 <= j < |s1.transports|
        ensures !LiveWithId(s1.transports[j], id)
      {
        if j != i {
          assert s1.transports[j] == s.transports[j];
        }
      }
  }

  /** Every ID occurs in at most one live slot of any store built by the
      operations of this module. */
  ghost predicate UniqueIds(s: MemStore) {
    forall i, j ::
      (0 <= i < |s.transports| && 0 <= j < |s.transports|
       && s.transports[i].Some? && s.transports[j].Some?
       && s.transports[i].value.entry.id == s.transports[j].value.entry.id) ==> i == j
  }

  /** Registration, deregistration and status reports keep IDs unique. */
  lemma OperationsKeepUniqueIds(s: MemStore, se: SignedEntry, now: int, id: Uuid, pk: PubKey, up: bool)
    requires UniqueIds(s)
    ensures UniqueIds(RegisterTransport(s, se, now).0)
    ensures UniqueIds(DeregisterTransport(s, id).0)
    ensures UniqueIds(UpdateStatusAs(s, pk, id, up).0)
  {
    RegisterKeepsUnique(s, se, now);
    DeregisterKeepsUnique(s, id);
    StatusKeepsUnique(s, pk, id, up);
  }

  lemma RegisterKeepsUnique(s: MemStore, se: SignedEntry, now: int)
    requires UniqueIds(s)
    ensures UniqueIds(RegisterTransport(s, se, now).0)
  {
  }

  lemma DeregisterKeepsUnique(s: MemStore, id: Uuid)
    requires UniqueIds(s)
    ensures UniqueIds(DeregisterTransport(s, id).0)
  {
  }

  lemma StatusKeepsUnique(s: MemStore, pk: PubKey, id: Uuid, up: bool)
    requires UniqueIds(s)
    ensures UniqueIds(UpdateStatusAs(s, pk, id, up).0)
  {
  }

  /** The as-written registration agrees with the corrected one whenever no
      slot has been emptied by a deregistration. */
  lemma RegisterAsWrittenWithoutHoles(s: MemStore, se: SignedEntry, now: int)
    requires forall j :: 0 <= j < |s.transports| ==> s.transports[j].Some?
    ensures RegisterTransportAsWritten(s, se, now) == Returns(RegisterTransport(s, se, now))
  {
    ScanAgrees(s.transports, se.entry.id);
  }

  /** Where the scan as written stops: on an empty slot that is there, or on
      the first live slot with the ID, or at the end when there is none. */
  lemma {:induction false} ScanStops(t: seq<Slot>, id: Uuid)
    ensures ScanAsWritten(t, id) == MetNil ==> None in t
    ensures ScanAsWritten(t, id) == MetDuplicate ==> FindLive(t, id).Some?
    ensures ScanAsWritten(t, id) == ReachedEnd ==> FindLive(t, id).None?
    decreases |t|
  {
    if |t| > 0 && t[0].Some? && t[0].value.entry.id != id {
      ScanStops(t[1..], id);
      assert ScanAsWritten(t, id) == MetNil ==> t[1..][0] in t || None in t[1..];
    }
  }

  lemma {:induction false} ScanAgrees(t: seq<Slot>, id: Uuid)
    requires forall j :: 0 <= j < |t| ==> t[j].Some?
    ensures ScanAsWritten(t, id) == (if FindLive(t, id).Some? then MetDuplicate else ReachedEnd)
  {
    if |t| > 0 {
      ScanAgrees(t[1..], id);
    }
  }

  /** Registering, deregistering and registering again: the as-written store
      panics on the emptied slot, while the corrected one accepts the second
      transport. */
  lemma ReRegisterAfterDeregister(a: SignedEntry, b: SignedEntry, now: int)
    requires a.entry.id != b.entry.id
    ensures var s1 := RegisterTransport(NewMemoryStore(), a, now).0;
      var s2 := DeregisterTransport(s1, a.entry.id).0;
      && s2.transports == [None]
      && RegisterTransportAsWritten(s2, b, now) == Panics
      && RegisterTransport(s2, b, now).1 == Ok(b.(registered := now))
  {
    var s1 := RegisterTransport(NewMemoryStore(), a, now).0;
    assert s1.transports == [Some(Fresh(a, now))];
    assert FindLive(s1.transports, a.entry.id) == Some(0);
  }

  /** Through the signature gate the reporter is attached under
      `store.ContextAuthKey`, which the as-written `UpdateStatus` never
      reads: every status report fails "invalid auth". The corrected read
      acts for the attached key. */
  lemma StatusThroughGate(s: MemStore, pk: PubKey, id: Uuid, isUp: bool)
    requires s.err.None?
    ensures UpdateStatus(s, Background.WithValue(AuthKeySentinel, pk), id, isUp)
      == (s, Err(Message("invalid auth")))
    ensures UpdateStatusFromAuth(s, Background.WithValue(AuthKeySentinel, pk), id, isUp)
      == UpdateStatusAs(s, pk, id, isUp)
  {
    assert Background.WithValue(AuthKeySentinel, pk).Value(NamedKey("auth-pub-key")) == None;
  }

  /** A report by the first edge sets only its slot: the second edge's
      earlier report is kept and `IsUp` is their conjunction. */
  lemma ReportByEdge(s: MemStore, id: Uuid, k0: PubKey, k1: PubKey, up: bool)
    requires s.err.None? && KeyHex(k0) != KeyHex(k1)
    requires GetTransportById(s, id).Ok?
    requires GetTransportById(s, id).value.entry.edges == (KeyHex(k0), KeyHex(k1))
    ensures var e := GetTransportById(s, id).value;
      var r := UpdateStatusAs(s, k0, id, up).1;
      && r.Ok? && r.value.statuses == (up, e.statuses.1)
      && (r.value.isUp <==> up && e.statuses.1)
    ensures var e := GetTransportById(s, id).value;
      var r := UpdateStatusAs(s, k1, id, up).1;
      && r.Ok? && r.value.statuses == (e.statuses.0, up)
      && (r.value.isUp <==> e.statuses.0 && up)
  {
  }

  /** A transport whose two edges are the same key: the key's report always
      lands in the first slot, so the second status never changes. */
  lemma ReportBySameKey(s: MemStore, id: Uuid, k: PubKey, up: bool)
    requires s.err.None? && GetTransportById(s, id).Ok?
    requires GetTransportById(s, id).value.entry.edges == (KeyHex(k), KeyHex(k))
    ensures var e := GetTransportById(s, id).value;
      var r := UpdateStatusAs(s, k, id, up).1;
      && r.Ok? && r.value.statuses == (up, e.statuses.1)
      && (r.value.isUp <==> up && e.statuses.1)
  {
  }

  /** n increments of a key never seen leave its nonce at n. */
  lemma IncrementFromFresh(s: MemStore, pk: PubKey, n: nat)
    requires s.err.None? && pk !in s.nonces && n <= Bytes.MaxUint64
    ensures GetNonce(s.(nonces := NonceLedger.IncrementTimes(s.nonces, pk, n)), pk) == Ok(n)
  {
    NonceLedger.IncrementTimesFromFresh(s.nonces, pk, n);
  }

  /** A store made by `New("memory", ...)` knows no transport and starts
      every key's nonce at 0. */
  lemma NewMemoryIsEmpty(args: seq<string>, id: Uuid, pk: PubKey)
    ensures New("memory", args).Ok?
    ensures var s := New("memory", args).value.mem;
      && GetTransportById(s, id) == Err(TransportNotFound)
      && GetNonce(s, pk) == Ok(0)
      && DeregisterTransport(s, id) == (s, Err(TransportNotFound))
  {
  }
}

=== FILE: nonce_ledger.dfy ===
/** The per-key nonce counter of `store/memory`: a map from key to a 64-bit
    counter in which an absent key reads as 0. The same map logic backs the
    nonces of the in-memory transport store. */
module NonceLedger {
  import opened Bytes

  /** `store.Nonce` is a Go `uint64`. */
  type Nonce = uint64

  type Ledger<K> = map<K, Nonce>

  /** `Store.GetNonce`: the stored counter, 0 for a key never seen. */
  function GetNonce<K(!new)>(db: Ledger<K>, key: K): (n: Nonce)
    ensures key !in db ==> n == 0
    ensures key in db ==> n == db[key]
  {
    if key in db then db[key] else 0
  }

  /** `Store.IncrementNonce`: stores and returns the previous value plus one,
      wrapping at 2^64 as `nonce++` on a `uint64` does. */
  function IncrementNonce<K(!new)>(db: Ledger<K>, key: K): (r: (Ledger<K>, Nonce))
    ensures GetNonce(r.0, key) == r.1
    ensures GetNonce(db, key) < MaxUint64 ==> r.1 == GetNonce(db, key) + 1
    ensures GetNonce(db, key) == MaxUint64 ==> r.1 == 0
    ensures forall other :: other != key ==> GetNonce(r.0, other) == GetNonce(db, other)
    ensures r.0.Keys == db.Keys + {key}
  {
    var next := (GetNonce(db, key) + 1) % (MaxUint64 + 1);
    (db[key := next], next)
  }

  /** n increments of one key, one after another. */
  function IncrementTimes<K(!new)>(db: Ledger<K>, key: K, n: nat): Ledger<K>
    decreases n
  {
    if n == 0 then db else IncrementNonce(IncrementTimes(db, key, n - 1), key).0
  }

  /** Starting from a key never seen, n increments leave the counter at
      exactly n, and no other key moves. */
  lemma {:induction false} IncrementTimesFromFresh<K(!new)>(db: Ledger<K>, key: K, n: nat)
    requires key !in db && n <= MaxUint64
    ensures GetNonce(IncrementTimes(db, key, n), key) == n
    ensures forall other :: other != key ==>
      GetNonce(IncrementTimes(db, key, n), other) == GetNonce(db, other)
    decreases n
  {
    if n > 0 {
      IncrementTimesFromFresh(db, key, n - 1);
    }
  }
}

=== FILE: packet.dfy ===
/** `transport.Packet` of the vendored skywire-node package: a 4-byte route
    id, a 2-byte payload length, then the payload. */
module Packets {
  import opened Wrappers
  import opened Bytes

  /** `RouteID`. */
  type RouteId = uint32

  /** `InitRouteID`: the id reserved for setting up routes. */
  const InitRouteId: RouteId := 0

  const HeaderSize: nat := 6

  /** `MakePacket`. A payload longer than `math.MaxUint16` panics, so the
      bound is the caller's obligation. */
  function MakePacket(id: RouteId, payload: seq<byte>): (p: seq<byte>)
    requires |payload| <= MaxUint16
    ensures |p| == HeaderSize + |payload|
    ensures FromLittleEndian32(p[..4]) == id
    ensures FromLittleEndian16(p[4..6]) == |payload|
    ensures p[HeaderSize..] == payload
  {
    LittleEndian32RoundTrip(id);
    LittleEndian16RoundTrip(|payload|);
    LittleEndian32(id) + LittleEndian16(|payload|) + payload
  }

  /** Reading a packet back: the header fields, provided the length field
      matches the bytes that follow. */
  function ReadPacket(p: seq<byte>): (r: Option<(RouteId, seq<byte>)>)
    ensures r.Some? ==> |p| >= HeaderSize && r.value.1 == p[HeaderSize..]
    ensures r.Some? <==> |p| >= HeaderSize && FromLittleEndian16(p[4..6]) == |p| - HeaderSize
  {
    if |p| < HeaderSize || FromLittleEndian16(p[4..6]) != |p| - HeaderSize then None
    else Some((FromLittleEndian32(p[..4]), p[HeaderSize..]))
  }

  /** Decoding a made packet gives back the id and payload. */
  lemma PacketRoundTrip(id: RouteId, payload: seq<byte>)
    requires |payload| <= MaxUint16
    ensures ReadPacket(MakePacket(id, payload)) == Some((id, payload))
  {
  }

  /** Every packet that reads is the packet made from what it reads as. */
  lemma ReadPacketInverse(p: seq<byte>)
    requires ReadPacket(p).Some?
    ensures |ReadPacket(p).value.1| <= MaxUint16
    ensures MakePacket(ReadPacket(p).value.0, ReadPacket(p).value.1) == p
  {
    LittleEndian32Inverse(p[..4]);
    LittleEndian16Inverse(p[4..6]);
    assert p == p[..4] + p[4..6] + p[HeaderSize..];
  }
}

=== FILE: routing_table.dfy ===
/** `inMemoryRoutingTable` of the vendored skywire-node package: a rule map
    and a 32-bit id counter. The mutex only serialises the same steps. */
module RoutingTable {
  import opened Wrappers
  import opened Bytes
  import opened Packets
  import opened Rules

  datatype Table = Table(nextId: uint32, rules: map<RouteId, RoutingRule>)

  /** `InMemoryRoutingTable`. */
  const Empty: Table := Table(0, map[])

  /** `atomic.AddUint32(&nextID, 1)`: wraps from `MaxUint32` to 0. */
  function NextId(n: uint32): (m: uint32)
    ensures n < MaxUint32 ==> m == n + 1
    ensures n == MaxUint32 ==> m == 0
  {
    (n + 1) % (MaxUint32 + 1)
  }

  /** `AddRule` as written: the guard compares the named result, still 0
      at that point, so it never fires and the counter wraps. */
  function AddRuleAsWritten(t: Table, rule: RoutingRule): (r: (Table, Result<RouteId, string>))
    ensures r.1.Ok? && r.1.value == NextId(t.nextId)
    ensures r.0 == Table(NextId(t.nextId), t.rules[NextId(t.nextId) := rule])
  {
    var routeId: RouteId := 0;
    if routeId == MaxUint32 then (t, Err("no available routeIDs"))
    else
      var id := NextId(t.nextId);
      (Table(id, t.rules[id := rule]), Ok(id))
  }

  /** `AddRule` with the guard on the counter: once every id is spent it
      fails and changes nothing; otherwise the rule goes under the next id. */
  function AddRule(t: Table, rule: RoutingRule): (r: (Table, Result<RouteId, string>))
    ensures t.nextId == MaxUint32 <==> r.1.Err?
    ensures r.1.Err? ==> r == (t, Err("no available routeIDs"))
    ensures r.1.Ok? ==> r.1.value == t.nextId + 1 && r.1.value != InitRouteId
    ensures r.1.Ok? ==> r.0 == Table(r.1.value, t.rules[r.1.value := rule])
  {
    if t.nextId == MaxUint32 then (t, Err("no available routeIDs"))
    else
      var id := t.nextId + 1;
      (Table(id, t.rules[id := rule]), Ok(id))
  }

  /** `SetRule`: the reserved id is refused; any other id is upserted. */
  function SetRule(t: Table, id: RouteId, rule: RoutingRule): (r: (Table, Result<Unit, string>))
    ensures id == InitRouteId ==> r == (t, Err("reserved routeID"))
    ensures id != InitRouteId ==> r.1.Ok? && r.0.nextId == t.nextId
    ensures id != InitRouteId ==> Rule(r.0, id) == Some(rule)
    ensures forall k :: k != id ==> Rule(r.0, k) == Rule(t, k)
  {
    if id == InitRouteId then (t, Err("reserved routeID"))
    else (t.(rules := t.rules[id := rule]), Ok(Unit))
  }

  /** `Rule`: the stored rule, or nil for an unknown id; never an error. */
  function Rule(t: Table, id: RouteId): (r: Option<RoutingRule>)
    ensures r.Some? <==> id in t.rules
    ensures r.Some? ==> r.value == t.rules[id]
  {
    if id in t.rules then Some(t.rules[id]) else None
  }

  /** `DeleteRule`: removes the id, a no-op for an absent one. */
  function DeleteRule(t: Table, id: RouteId): (r: Table)
    ensures Rule(r, id) == None && r.nextId == t.nextId
    ensures forall k :: k != id ==> Rule(r, k) == Rule(t, k)
    ensures id !in t.rules ==> r == t
  {
    t.(rules := t.rules - {id})
  }

  /** `Count`. */
  function Count(t: Table): (n: nat)
    ensures n == 0 <==> t.rules == map[]
    ensures n == |t.rules.Keys|
  {
    |t.rules|
  }

  /** Successive additions to a fresh table are numbered 1, 2, 3, ...: after
      n of them the counter is n, and each rule sits under its number. */
  function AddAll(t: Table, rs: seq<RoutingRule>): Table
    decreases |rs|
  {
    if |rs| == 0 then t else AddAll(AddRuleAsWritten(t, rs[0]).0, rs[1..])
  }

  lemma {:induction false} AddAllNumbers(t: Table, rs: seq<RoutingRule>)
    requires t.nextId + |rs| <= MaxUint32
    ensures AddAll(t, rs).nextId == t.nextId + |rs|
    ensures forall i :: 0 <= i < |rs| ==> Rule(AddAll(t, rs), t.nextId + i + 1) == Some(rs[i])
    decreases |rs|
  {
    if |rs| > 0 {
      var t1 := AddRuleAsWritten(t, rs[0]).0;
      AddAllNumbers(t1, rs[1..]);
      forall i | 0 <= i < |rs|
        ensures Rule(AddAll(t, rs), t.nextId + i + 1) == Some(rs[i])
      {
        if i > 0 {
          assert rs[1..][i - 1] == rs[i];
        } else {
          AddAllKeeps(t1, rs[1..], t.nextId + 1);
        }
      }
    }
  }

  /** Additions that stay below the wrap leave lower ids alone. */
  lemma {:induction false} AddAllKeeps(t: Table, rs: seq<RoutingRule>, id: RouteId)
    requires t.nextId + |rs| <= MaxUint32 && id <= t.nextId
    ensures Rule(AddAll(t, rs), id) == Rule(t, id)
    decreases |rs|
  {
    if |rs| > 0 {
      AddAllKeeps(AddRuleAsWritten(t, rs[0]).0, rs[1..], id);
    }
  }

  /** The as-written `AddRule`, once the counter is at `MaxUint32`, hands out
      the reserved `InitRouteID` and stores the rule under it. */
  lemma AddRuleWrapsToReserved(t: Table, rule: RoutingRule)
    requires t.nextId == MaxUint32
    ensures AddRuleAsWritten(t, rule).1 == Ok(InitRouteId)
    ensures Rule(AddRuleAsWritten(t, rule).0, InitRouteId) == Some(rule)
    ensures AddRule(t, rule).1.Err?
  {
  }

  /** Below the wrap the two agree. */
  lemma AddRuleAgreesBelowWrap(t: Table, rule: RoutingRule)
    requires t.nextId < MaxUint32
    ensures AddRule(t, rule) == AddRuleAsWritten(t, rule)
  {
  }

  /** The count moves by one exactly when a key appears or disappears. */
  lemma CountChanges(t: Table, id: RouteId, rule: RoutingRule)
    ensures id != InitRouteId ==>
      Count(SetRule(t, id, rule).0) == (if id in t.rules then Count(t) else Count(t) + 1)
    ensures Count(DeleteRule(t, id)) == (if id in t.rules then Count(t) - 1 else Count(t))
    ensures AddRule(t, rule).1.Ok? && t.nextId + 1 !in t.rules ==>
      Count(AddRule(t, rule).0) == Count(t) + 1
  {
  }
}

=== FILE: rule.dfy ===
/** `transport.RoutingRule` of the vendored skywire-node package: an opcode
    byte followed by the operation's fields. */
module Rules {
  import opened Wrappers
  import opened Bytes
  import opened Cipher
  import opened Packets

  /** `RoutingOperationLoopback` and `RoutingOperationForward`. */
  const OpLoopback: byte := 0
  const OpForward: byte := 1

  type RoutingRule = seq<byte>

  /** `LoopbackRule`: the opcode, then the port in little-endian. */
  function LoopbackRule(port: uint16): (r: RoutingRule)
    ensures |r| == 3 && r[0] == OpLoopback
    ensures FromLittleEndian16(r[1..3]) == port
  {
    LittleEndian16RoundTrip(port);
    [OpLoopback] + LittleEndian16(port)
  }

  /** `ForwardRule`: the opcode, the 33 key bytes, then the route id in
      little-endian, 38 bytes in all. */
  function ForwardRule(remote: PubKey, id: RouteId): (r: RoutingRule)
    ensures |r| == 1 + PubKeySize + 4 && r[0] == OpForward
    ensures r[1..1 + PubKeySize] == remote
    ensures FromLittleEndian32(r[1 + PubKeySize..]) == id
  {
    LittleEndian32RoundTrip(id);
    [OpForward] + remote + LittleEndian32(id)
  }

  /** What a rule says. */
  datatype Action = Loopback(port: uint16) | Forward(remote: PubKey, id: RouteId)

  /** Reading a rule back by its opcode and fixed length. */
  function ReadRule(r: RoutingRule): (a: Option<Action>)
    ensures a.Some? ==> |r| >= 1 && (r[0] == OpLoopback || r[0] == OpForward)
    ensures a.Some? && a.value.Loopback? ==> r[0] == OpLoopback && |r| == 3
    ensures a.Some? && a.value.Forward? ==> r[0] == OpForward && |r| == 38
  {
    if |r| == 3 && r[0] == OpLoopback then Some(Loopback(FromLittleEndian16(r[1..3])))
    else if |r| == 1 + PubKeySize + 4 && r[0] == OpForward then
      Some(Forward(r[1..1 + PubKeySize], FromLittleEndian32(r[1 + PubKeySize..])))
    else None
  }

  /** The encoding of an action. */
  function Encode(a: Action): (r: RoutingRule) {
    match a
    case Loopback(port) => LoopbackRule(port)
    case Forward(remote, id) => ForwardRule(remote, id)
  }

  /** Both rule kinds decode to what they were built from. */
  lemma RuleRoundTrip(a: Action)
    ensures ReadRule(Encode(a)) == Some(a)
  {
  }

  /** Every rule that reads is the encoding of what it reads as. */
  lemma ReadRuleInverse(r: RoutingRule)
    requires ReadRule(r).Some?
    ensures Encode(ReadRule(r).value) == r
  {
    if r[0] == OpLoopback {
      LittleEndian16Inverse(r[1..3]);
      assert r == [r[0]] + r[1..3];
    } else {
      LittleEndian32Inverse(r[1 + PubKeySize..]);
      assert r == [r[0]] + r[1..1 + PubKeySize] + r[1 + PubKeySize..];
    }
  }
}

=== FILE: service_times.dfy ===
/** The legacy updater's per-service record (`updater/pkg/store/services/services.go`):
    a map from service name to the time it was last updated, and the JSON
    form of that time. Times are Unix nanoseconds; the RFC 3339 formatter
    and parser are parameters. */
module ServiceTimes {
  import opened Wrappers
  import Decimal
  import Bytes

  /** `Service`. */
  datatype Service = Service(name: string, lastUpdated: int)

  /** `Services`. */
  type Services = map<string, Service>

  /** 1999-10-01T01:01:01.000000001Z, the time `get` gives a service it has
      never seen: 10865 days and 3661 seconds after the epoch, plus one
      nanosecond. */
  const OldTime: int := (10865 * 86400 + 3661) * 1_000_000_000 + 1

  /** `get`: an unknown name is inserted with `OldTime` first; the stored
      service is returned. */
  function Get(s: Services, name: string): (r: (Services, Service))
    ensures name in s ==> r == (s, s[name])
    ensures name !in s ==> r.1 == Service(name, OldTime) && r.0 == s[name := r.1]
    ensures name in r.0 && r.0[name] == r.1
  {
    if name in s then (s, s[name])
    else
      var service := Service(name, OldTime);
      (s[name := service], service)
  }

  /** `set`: stores under the service's own name. */
  function Set(s: Services, service: Service): (r: Services)
    ensures r.Keys == s.Keys + {service.name}
  {
    s[service.name := service]
  }

  /** `get` after `set` returns what was set and changes nothing; a second
      `get` sees what the first inserted. */
  lemma GetAfterSet(s: Services, service: Service, name: string)
    ensures Get(Set(s, service), service.name) == (Set(s, service), service)
    ensures Get(Get(s, name).0, name) == Get(s, name)
    ensures name != service.name ==> Get(Set(s, service), name).1 == Get(s, name).1
  {
  }

  /** The RFC 3339 formatter and parser (`time.Format` / `time.Parse` with
      `time.RFC3339`). */
  datatype Clock = Clock(format: int -> string, parse: string -> Result<int, string>)

  /** The time truncated to the second, which is all RFC 3339 text without a
      fraction keeps. */
  function Second(t: int): int {
    t - t % 1_000_000_000
  }

  /** 0000-01-01T00:00:00Z and 9999-12-31T23:59:59.999999999Z in Unix
      nanoseconds: the times whose RFC 3339 year has four digits. */
  const FirstFourDigitYear: int := -62167219200 * 1_000_000_000
  const LastFourDigitYear: int := 253402300800 * 1_000_000_000 - 1

  /** A time from year 0 through year 9999. Go writes later years with five
      or more digits and earlier ones with a sign, and cannot parse either
      back with the four-digit `2006` of the layout. */
  predicate FourDigitYear(t: int) {
    FirstFourDigitYear <= t <= LastFourDigitYear
  }

  /** What the formatter and parser promise: for a four-digit year the text
      is at least "2006-01-02T15:04:05Z" long, with '-' after the year and a
      month digit after that, and parsing it recovers the second; the
      parser, reading the year as four characters, only accepts text with
      '-' after them. */
  ghost predicate Sound(c: Clock) {
    && (forall t :: FourDigitYear(t) ==>
          |c.format(t)| >= 20 && c.format(t)[4] == '-' && c.format(t)[5] != '-')
    && (forall s :: c.parse(s).Ok? ==> |s| >= 5 && s[4] == '-')
    && (forall t :: FourDigitYear(t) ==> c.parse(c.format(t)) == Ok(Second(t)))
  }

  /** A clock meeting `Sound`: it writes the seconds since year 0 after a
      fixed date, "0000-01-01T00:00:00", and reads them back. */
  function ToyClock(): Clock {
    Clock(ToyFormat, ToyParse)
  }

  const ToyPrefix: string := "0000-01-01T00:00:00"

  function ToyFormat(t: int): string {
    var k := (Second(t) - FirstFourDigitYear) / 1_000_000_000;
    ToyPrefix + (if k >= 0 then Decimal.Digits(k) else "") + "Z"
  }

  function ToyParse(s: string): Result<int, string> {
    if |s| >= 20 && s[..19] == ToyPrefix && s[|s| - 1] == 'Z' && Decimal.ParseUint64(s[19..|s| - 1]).Ok?
    then Ok(FirstFourDigitYear + Decimal.ParseUint64(s[19..|s| - 1]).value * 1_000_000_000)
    else Err("parsing time")
  }

  /** `Sound` can hold: the toy clock meets it. */
  lemma SoundSatisfiable()
    ensures Sound(ToyClock())
  {
    var c := ToyClock();
    forall t | FourDigitYear(t)
      ensures |c.format(t)| >= 20 && c.format(t)[4] == '-' && c.format(t)[5] != '-'
    {
      ToyFormatShape(t);
    }
    forall s | c.parse(s).Ok?
      ensures |s| >= 5 && s[4] == '-'
    {
      assert s[4] == s[..19][4];
    }
    forall t | FourDigitYear(t)
      ensures c.parse(c.format(t)) == Ok(Second(t))
    {
      ToyRoundTrip(t);
    }
  }

  lemma ToyFormatShape(t: int)
    ensures |ToyFormat(t)| >= 20 && ToyFormat(t)[..19] == ToyPrefix
  {
    var k := (Second(t) - FirstFourDigitYear) / 1_000_000_000;
    var d := if k >= 0 then Decimal.Digits(k) else "";
    assert ToyFormat(t) == ToyPrefix + d + "Z";
    assert (ToyPrefix + d + "Z")[..19] == ToyPrefix;
  }

  lemma ToyRoundTrip(t: int)
    requires FourDigitYear(t)
    ensures ToyParse(ToyFormat(t)) == Ok(Second(t))
  {
    var x := Second(t) - FirstFourDigitYear;
    assert x % 1_000_000_000 == 0;
    var k := x / 1_000_000_000;
    assert 0 <= k <= Bytes.MaxUint64;
    assert k * 1_000_000_000 == x;
    var s := ToyFormat(t);
    var d := Decimal.Digits(k);
    assert s == ToyPrefix + d + "Z";
    assert s[..19] == ToyPrefix;
    assert s[19..|s| - 1] == d;
    Decimal.ParseDigitsRoundTrip(k);
  }

  /** The result of decoding: a time, an error, or a panic. */
  datatype Decoded = Parsed(t: int) | Failed(err: string) | Panicked

  /** A direct call of `(*TimeJSON).MarshalJSON` as written: the bare
      formatted text, without the quotes a JSON string needs; the corrected
      encoding is this text quoted. */
  function MarshalAsWritten(c: Clock, t: int): (b: string)
    ensures Marshal(c, t) == "\"" + b + "\""
  {
    c.format(t)
  }

  /** `TimeJSON.UnmarshalJSON` as written: the first and last bytes are cut
      off before parsing, which panics on fewer than two bytes. */
  function UnmarshalAsWritten(c: Clock, b: string): (r: Decoded)
    ensures |b| < 2 <==> r.Panicked?
    ensures |b| >= 2 ==> (r.Parsed? <==> c.parse(b[1..|b| - 1]).Ok?)
  {
    if |b| < 2 then Panicked
    else match c.parse(b[1..|b| - 1])
      case Ok(t) => Parsed(t)
      case Err(e) => Failed(e)
  }

  /** The as-written pair never round-trips: cutting the first and last
      characters off the bare text takes the first digit of the year, so the
      '-' is no longer after four digits and the parser refuses. */
  lemma TimeJsonAsWrittenFails(c: Clock, t: int)
    requires Sound(c) && FourDigitYear(t)
    ensures UnmarshalAsWritten(c, MarshalAsWritten(c, t)).Failed?
  {
    var b := c.format(t);
    var inner := b[1..|b| - 1];
    assert inner[4] == b[5] != '-';
  }

  /** `MarshalJSON` with the quotes the unmarshaller expects. */
  function Marshal(c: Clock, t: int): (b: string)
    ensures |b| >= 2 && b[0] == '"' && b[|b| - 1] == '"'
    ensures b[1..|b| - 1] == c.format(t)
  {
    "\"" + c.format(t) + "\""
  }

  /** `UnmarshalJSON` that refuses text too short to hold the quotes
      instead of panicking, and otherwise reads as written. */
  function Unmarshal(c: Clock, b: string): (r: Decoded)
    ensures !r.Panicked?
    ensures |b| >= 2 ==> r == UnmarshalAsWritten(c, b)
  {
    if |b| < 2 then Failed("unexpected end of JSON input")
    else UnmarshalAsWritten(c, b)
  }

  /** With the quotes in place, decoding what was encoded gives the time
      back, to the second. */
  lemma TimeJsonRoundTrip(c: Clock, t: int)
    requires Sound(c) && FourDigitYear(t)
    ensures Unmarshal(c, Marshal(c, t)) == Parsed(Second(t))
  {
    var b := Marshal(c, t);
    assert b[1..|b| - 1] == c.format(t);
  }

  /** The record `get` invents survives the corrected encoding only to the
      second: its final nanosecond is lost. */
  lemma OldTimeLosesNanosecond(c: Clock)
    requires Sound(c)
    ensures Unmarshal(c, Marshal(c, OldTime)) == Parsed(OldTime - 1)
  {
    TimeJsonRoundTrip(c, OldTime);
  }
}

=== FILE: simple_checker.dfy ===
/** The simple active checker (`pkg/checker/active/simple.go`): it runs a
    check script and reads the verdict from the exit status, then notifies
    when there is a new version. The script run is the first event it sees,
    and the notification is a parameter. */
module SimpleChecker {
  import opened Wrappers
  import opened Decimal

  /** `ErrNoNewVersion`. */
  const ErrNoNewVersion: string := "no new version"

  /** `simple`, without its channel and logger. */
  datatype Simple = Simple(
    service: string, localName: string, url: string, notifyUrl: string,
    updateCheckScript: string, scriptTimeout: int, extraArguments: seq<string>, interpreter: string)

  /** `newSimple`: the repository path goes under "github.com". */
  function NewSimple(service: string, localName: string, url: string, notifyUrl: string,
                     interpreter: string, updateCheckScript: string, extraArguments: seq<string>,
                     scriptTimeout: int, join: (string, string) -> string): (n: Simple)
    ensures n.url == join("github.com", url)
    ensures n == Simple(service, localName, n.url, notifyUrl, updateCheckScript, scriptTimeout, extraArguments, interpreter)
  {
    Simple(service, localName, join("github.com", url), notifyUrl, updateCheckScript, scriptTimeout,
           extraArguments, interpreter)
  }

  /** `buildCommand`: the script, local name, version, service and url, then
      the extra arguments. */
  function BuildCommand(localName: string, version: string, script: string, service: string, url: string,
                        arguments: seq<string>): (argv: seq<string>)
    ensures |argv| == 5 + |arguments| && argv[5..] == arguments
    ensures argv[..5] == [script, localName, version, service, url]
  {
    [script, localName, version, service, url] + arguments
  }

  /** The command `checkIfUpdate` starts: the check script, the local
      name, always version "master", the service and the url, then the
      extra arguments. */
  function CheckCommand(n: Simple): (argv: seq<string>)
    ensures |argv| == 5 + |n.extraArguments|
    ensures argv[0] == n.updateCheckScript && argv[1] == n.localName && argv[2] == "master"
    ensures argv[3] == n.service && argv[4] == n.url && argv[5..] == n.extraArguments
  {
    BuildCommand(n.localName, "master", n.updateCheckScript, n.service, n.url, n.extraArguments)
  }

  /** What `waitForExit` receives first: the script's final status, or an
      error such as the timeout. */
  datatype Event = Exited(code: int) | Errored(err: string)

  /** `waitForExit`: status 0 means a new version, 1 means none, anything
      else is an error naming the status; an error event is returned as is. */
  function WaitForExit(e: Event): (r: Result<bool, string>)
    ensures r == Ok(true) <==> e == Exited(0)
    ensures r == Ok(false) <==> e == Exited(1)
    ensures e.Errored? ==> r == Err(e.err)
    ensures e.Exited? && e.code != 0 && e.code != 1 ==>
      r == Err("exit with non-zero status " + IntString(e.code))
  {
    match e
    case Exited(code) =>
      if code != 0 && code != 1 then Err("exit with non-zero status " + IntString(code))
      else if code == 1 then Ok(false)
      else Ok(true)
    case Errored(err) => Err(err)
  }

  /** `%d` never gives two statuses the same text. */
  lemma IntStringInjective(m: int, n: int)
    ensures IntString(m) == IntString(n) ==> m == n
  {
    if IntString(m) == IntString(n) {
      if m < 0 {
        assert IntString(m)[1..] == Digits(-m) && IntString(n)[1..] == Digits(-n);
        DigitsInjective(-m, -n);
      } else {
        DigitsInjective(m, n);
      }
    }
  }

  /** An exit error tells the exit statuses apart, so distinct failing
      statuses are reported differently. */
  lemma ExitErrorsDistinct(m: int, n: int)
    requires m != n && m != 0 && m != 1 && n != 0 && n != 1
    ensures WaitForExit(Exited(m)) != WaitForExit(Exited(n))
  {
    IntStringInjective(m, n);
    PrefixCancel("exit with non-zero status ", IntString(m), IntString(n));
  }

  lemma PrefixCancel(p: string, a: string, b: string)
    ensures p + a == p + b ==> a == b
  {
    assert (p + a)[|p|..] == a;
    assert (p + b)[|p|..] == b;
  }

  /** `checkIfNew`: a script error comes back; no new version is
      `ErrNoNewVersion`; a new version is announced and the notification's
      error, if any, comes back. None stands for a nil error. */
  function CheckIfNew(n: Simple, first: Event, notify: (string, string) -> Option<string>): (r: Option<string>)
    ensures r.None? <==> first == Exited(0) && notify(n.notifyUrl, n.service).None?
    ensures first == Exited(1) ==> r == Some(ErrNoNewVersion)
    ensures first.Errored? ==> r == Some(first.err)
    ensures first == Exited(0) ==> r == notify(n.notifyUrl, n.service)
    ensures first.Exited? && first.code != 0 && first.code != 1 ==>
      r == Some("exit with non-zero status " + IntString(first.code))
  {
    match WaitForExit(first)
    case Err(e) => Some(e)
    case Ok(isUpdate) => if isUpdate then notify(n.notifyUrl, n.service) else Some(ErrNoNewVersion)
  }

  /** Only a reported update reaches the notification: with any other
      first event, two notifiers give the same outcome, and that outcome is
      the error `waitForExit` reports or `ErrNoNewVersion`. */
  lemma NotifyOnlyOnUpdate(n: Simple, first: Event, f: (string, string) -> Option<string>,
                           g: (string, string) -> Option<string>)
    ensures first != Exited(0) ==> CheckIfNew(n, first, f) == CheckIfNew(n, first, g)
    ensures first != Exited(0) ==>
      CheckIfNew(n, first, f) == Some(if first == Exited(1) then ErrNoNewVersion else WaitForExit(first).error)
  {
  }

  /** The check a freshly built checker runs: its script, local name,
      "master", service and the repository under "github.com", then the
      extra arguments in order. */
  lemma CheckCommandOfNew(service: string, localName: string, url: string, notifyUrl: string,
                          interpreter: string, script: string, extra: seq<string>,
                          timeout: int, join: (string, string) -> string)
    ensures var argv := CheckCommand(NewSimple(service, localName, url, notifyUrl, interpreter,
                                               script, extra, timeout, join));
      && |argv| == 5 + |extra|
      && argv[0] == script && argv[1] == localName && argv[2] == "master"
      && argv[3] == service && argv[4] == join("github.com", url)
      && forall i :: 0 <= i < |extra| ==> argv[5 + i] == extra[i]
  {
  }
}

=== FILE: sql_store.dfy ===
/** The Postgres transport store: the two-party rendezvous in which each edge
    of a transport registers it, the first registration creates the row, and
    each registration records an acknowledgement from its first edge. A
    lookup succeeds once both edges of the row have acknowledged.

    The database is a sequence of rows in the order the server returns them,
    a set of `(transport_id, node)` acknowledgements (that pair is the
    table's primary key) and the last value handed out by the `SERIAL`
    column. A driver or context failure is a `Fault` naming the statement
    that fails; the transaction it occurs in is rolled back. */
module SqlStore {
  import opened Wrappers
  import opened TdStore

  /** `store.ID`, the `SERIAL` primary key. */
  type Id = int

  datatype Row = Row(id: Id, edges: (string, string))

  datatype Db = Db(rows: seq<Row>, acks: set<(Id, string)>, serial: nat)

  /** `store.Transport` of this revision: an ID and a slice of edges, of
      which the statements use the first two. */
  datatype Transport = Transport(id: Id, edges: seq<string>)

  /** The statements the store issues. */
  datatype Stmt =
    | Begin | FindRow | InsertRow | InsertAck | Commit
    | SelectEdges | CountAcks | DeleteAcks | DeleteRow

  /** The statement that fails and the error it fails with. */
  datatype Fault = Fault(at: Stmt, err: Error)

  predicate FailsAt(f: Option<Fault>, st: Stmt) {
    f.Some? && f.value.at == st
  }

  const EmptyDb := Db([], {}, 0)

  /** The schema's constraints: row IDs are unique and no larger than the
      last serial value, and every acknowledgement references a row
      (`REFERENCES transports(id)`). */
  ghost predicate Valid(db: Db) {
    UniqueIds(db.rows) && Bounded(db.rows, db.serial) && Referenced(db.rows, db.acks)
  }

  ghost predicate UniqueIds(rows: seq<Row>) {
    forall i, j :: 0 <= i < j < |rows| ==> rows[i].id != rows[j].id
  }

  ghost predicate Bounded(rows: seq<Row>, serial: nat) {
    forall row :: row in rows ==> 1 <= row.id <= serial
  }

  ghost predicate Referenced(rows: seq<Row>, acks: set<(Id, string)>) {
    forall a :: a in acks ==> exists row :: row in rows && row.id == a.0
  }

  /** `edges @> ARRAY[$1, $2]`: the row's array holds both values. */
  predicate Contains(r: Row, e0: string, e1: string) {
    (r.edges.0 == e0 || r.edges.1 == e0) && (r.edges.0 == e1 || r.edges.1 == e1)
  }

  /** The row `QueryRow` returns for the containment query: the first one. */
  function FindByEdges(rows: seq<Row>, e0: string, e1: string): (r: Option<nat>)
    ensures r.Some? ==> r.value < |rows| && Contains(rows[r.value], e0, e1)
    ensures r.Some? ==> forall j :: 0 <= j < r.value ==> !Contains(rows[j], e0, e1)
    ensures r.None? ==> forall j :: 0 <= j < |rows| ==> !Contains(rows[j], e0, e1)
  {
    if |rows| == 0 then None
    else if Contains(rows[0], e0, e1) then Some(0)
    else match FindByEdges(rows[1..], e0, e1)
      case None => None
      case Some(k) => Some(k + 1)
  }

  /** The row with the given ID, if any. */
  function FindById(rows: seq<Row>, id: Id): (r: Option<nat>)
    ensures r.Some? ==> r.value < |rows| && rows[r.value].id == id
    ensures r.None? ==> forall j :: 0 <= j < |rows| ==> rows[j].id != id
  {
    if |rows| == 0 then None
    else if rows[0].id == id then Some(0)
    else match FindById(rows[1..], id)
      case None => None
      case Some(k) => Some(k + 1)
  }

  /** The transaction of `RegisterTransport`: find or create the row, then
      `INSERT ... ON CONFLICT DO NOTHING` the acknowledgement of the first
      edge. A failure rolls everything back except the serial counter,
      which Postgres sequences never roll back. */
  function RegisterTx(db: Db, e0: string, e1: string, f: Option<Fault>): (r: (Db, Result<Id, Error>))
    ensures r.1.Err? ==> r.0.rows == db.rows && r.0.acks == db.acks
    ensures r.1.Err? ==> f.Some? && r.1.error == f.value.err
    ensures r.1.Ok? && FindByEdges(db.rows, e0, e1).Some? ==>
      r.1.value == db.rows[FindByEdges(db.rows, e0, e1).value].id && r.0.rows == db.rows
    ensures r.1.Ok? && FindByEdges(db.rows, e0, e1).None? ==>
      r.1.value == db.serial + 1 && r.0.rows == db.rows + [Row(db.serial + 1, (e0, e1))]
    ensures r.1.Ok? ==> r.0.acks == db.acks + {(r.1.value, e0)}
    ensures r.0.serial == db.serial || r.0.serial == db.serial + 1
  {
    if FailsAt(f, Begin) then (db, Err(f.value.err))
    else if FailsAt(f, FindRow) then (db, Err(f.value.err))
    else
      var found := FindByEdges(db.rows, e0, e1);
      if found.None? && FailsAt(f, InsertRow) then (db, Err(f.value.err))
      else
        var serial := if found.Some? then db.serial else db.serial + 1;
        var id := if found.Some? then db.rows[found.value].id else serial;
        var rows := if found.Some? then db.rows else db.rows + [Row(id, (e0, e1))];
        if FailsAt(f, InsertAck) || FailsAt(f, Commit) then (db.(serial := serial), Err(f.value.err))
        else (Db(rows, db.acks + {(id, e0)}, serial), Ok(id))
  }

  /** The number `SELECT COUNT(*) ... node in ($2, $3)` yields: the
      acknowledgements of the transport from either edge, each pair at
      most once because it is the primary key. */
  function AckCount(acks: set<(Id, string)>, id: Id, e0: string, e1: string): (n: nat)
    ensures n <= 2
    ensures n == 2 <==> e0 != e1 && (id, e0) in acks && (id, e1) in acks
  {
    (if (id, e0) in acks then 1 else 0) + (if e1 != e0 && (id, e1) in acks then 1 else 0)
  }

  /** A fault in one of the statements a lookup issues. */
  predicate LookupFails(f: Option<Fault>) {
    FailsAt(f, Begin) || FailsAt(f, SelectEdges) || FailsAt(f, CountAcks) || FailsAt(f, Commit)
  }

  /** `GetTransportByID`. A missing row is not an error inside the
      transaction; it leaves the count at 0, so the caller sees
      `ErrNotEnoughACKs` rather than not-found. */
  function GetTransportById(db: Db, id: Id, f: Option<Fault>): (r: Result<Transport, Error>)
    ensures r.Ok? <==> (!LookupFails(f) && FindById(db.rows, id).Some?
      && AckCount(db.acks, id, db.rows[FindById(db.rows, id).value].edges.0,
                  db.rows[FindById(db.rows, id).value].edges.1) == 2)
    ensures r.Ok? ==> (r.value.id == id
      && r.value.edges == [db.rows[FindById(db.rows, id).value].edges.0,
                           db.rows[FindById(db.rows, id).value].edges.1])
    ensures r.Err? && f.None? ==> r.error == NotEnoughAcks
  {
    if FailsAt(f, Begin) then Err(f.value.err)
    else
      match FindById(db.rows, id)
      case None =>
        if FailsAt(f, SelectEdges) || FailsAt(f, Commit) then Err(f.value.err)
        else Err(NotEnoughAcks)
      case Some(i) =>
        var edges := db.rows[i].edges;
        if FailsAt(f, SelectEdges) || FailsAt(f, CountAcks) || FailsAt(f, Commit) then Err(f.value.err)
        else if AckCount(db.acks, id, edges.0, edges.1) < 2 then Err(NotEnoughAcks)
        else Ok(Transport(id, [edges.0, edges.1]))
  }

  /** `DeregisterTransport`: all acknowledgements of the ID, then its row.
      Nothing needs to match for it to succeed. */
  function DeregisterTransport(db: Db, id: Id, f: Option<Fault>): (r: (Db, Result<Unit, Error>))
    ensures r.1.Err? ==> r.0 == db
    ensures f.None? ==> r.1.Ok?
    ensures r.1.Ok? ==> r.0.serial == db.serial
    ensures r.1.Ok? ==> forall a :: a in r.0.acks <==> a in db.acks && a.0 != id
    ensures r.1.Ok? ==> forall row :: row in r.0.rows <==> row in db.rows && row.id != id
  {
    if FailsAt(f, Begin) || FailsAt(f, DeleteAcks) || FailsAt(f, DeleteRow) || FailsAt(f, Commit)
    then (db, Err(f.value.err))
    else (Db(RemoveRow(db.rows, id), (set a | a in db.acks && a.0 != id), db.serial), Ok(Unit))
  }

  function RemoveRow(rows: seq<Row>, id: Id): (r: seq<Row>)
    ensures forall row :: row in r <==> row in rows && row.id != id
    ensures forall i :: 0 <= i < |r| ==> r[i].id != id
    ensures |r| <= |rows|
  {
    if |rows| == 0 then []
    else
      var rest := RemoveRow(rows[1..], id);
      assert forall x :: x in rows <==> x == rows[0] || x in rows[1..];
      if rows[0].id == id then rest else [rows[0]] + rest
  }

  /** One thing `waitForTransport`'s `select` can see: the context finishing
      with its error, or the delay elapsing, after which the lookup runs
      against the database as it then is (other registrations may have
      changed it) and may itself fail. */
  datatype WaitEvent = CtxDone(err: Error) | Tick(snapshot: Db, fault: Option<Fault>)

  datatype WaitOutcome = Converged | Aborted(err: Error) | Waiting

  /** `waitForTransport` over a finite schedule of events. It returns nil
      only after a successful lookup, retries after every failed lookup
      whatever the error, and returns the context's error when the context
      ends. `Waiting` means the schedule ran out while the loop still
      polls. */
  function WaitForTransport(id: Id, events: seq<WaitEvent>): (o: WaitOutcome)
    ensures o == Converged ==> exists k :: (0 <= k < |events| && events[k].Tick?
      && GetTransportById(events[k].snapshot, id, events[k].fault).Ok?)
    ensures o.Aborted? ==> exists k :: 0 <= k < |events| && events[k] == CtxDone(o.err)
    ensures o == Waiting ==> forall k :: 0 <= k < |events| ==>
      events[k].Tick? && GetTransportById(events[k].snapshot, id, events[k].fault).Err?
  {
    if |events| == 0 then Waiting
    else match events[0]
      case CtxDone(e) => Aborted(e)
      case Tick(snap, f) =>
        if GetTransportById(snap, id, f).Ok? then Converged
        else
          var o := WaitForTransport(id, events[1..]);
          assert forall k :: 1 <= k < |events| ==> events[k] == events[1..][k - 1];
          o
  }

  /** What `RegisterTransport` comes to: a panic, or the transaction's
      result and the wait's outcome. */
  datatype Registration = Panicked | Registered(db: Db, res: Result<Id, Error>, wait: WaitOutcome)

  /** `RegisterTransport`: the transaction, then the wait. The caller's
      transport gets the ID even when the wait does not end in success.
      Once the transaction has begun, the first statement indexes the
      edges at 0 and 1 without a length check, so a transport with fewer
      than two edges panics there (`withinTx` does not recover), before
      any statement reaches the database; edges after the second are
      ignored. */
  function RegisterTransport(db: Db, t: Transport, f: Option<Fault>, events: seq<WaitEvent>)
    : (r: Registration)
    ensures r.Panicked? <==> !FailsAt(f, Begin) && |t.edges| < 2
    ensures r.Registered? && r.res.Err? ==>
      r.wait == Aborted(r.res.error) && r.db.rows == db.rows && r.db.acks == db.acks
    ensures r.Registered? && |t.edges| >= 2 ==> (r.db, r.res) == RegisterTx(db, t.edges[0], t.edges[1], f)
    ensures r.Registered? && r.res.Ok? ==> |t.edges| >= 2 && r.wait == WaitForTransport(r.res.value, events)
  {
    if FailsAt(f, Begin) then Registered(db, Err(f.value.err), Aborted(f.value.err))
    else if |t.edges| < 2 then Panicked
    else
      var (db1, res) := RegisterTx(db, t.edges[0], t.edges[1], f);
      if res.Err? then Registered(db1, res, Aborted(res.error))
      else Registered(db1, res, WaitForTransport(res.value, events))
  }

  // ---------------------------------------------------------------------
  // Properties.

  /** Registration keeps the schema's constraints. */
  lemma RegisterKeepsValid(db: Db, e0: string, e1: string, f: Option<Fault>)
    requires Valid(db)
    ensures Valid(RegisterTx(db, e0, e1, f).0)
  {
    var (db1, r) := RegisterTx(db, e0, e1, f);
    if r.Ok? {
      var id := r.value;
      assert exists row :: row in db1.rows && row.id == id by {
        match FindByEdges(db.rows, e0, e1)
        case Some(i) => assert db1.rows[i] in db1.rows;
        case None => assert db1.rows[|db.rows|] in db1.rows;
      }
      assert forall row :: row in db.rows ==> row in db1.rows;
    }
  }

  /** Deregistration keeps the schema's constraints: acknowledgements go
      before the row they reference. */
  lemma DeregisterKeepsValid(db: Db, id: Id, f: Option<Fault>)
    requires Valid(db)
    ensures Valid(DeregisterTransport(db, id, f).0)
  {
    var (db1, r) := DeregisterTransport(db, id, f);
    if r.Ok? {
      RemoveRowKeepsUnique(db.rows, id);
      forall a | a in db1.acks
        ensures exists row :: row in db1.rows && row.id == a.0
      {
        var row :| row in db.rows && row.id == a.0;
        assert row in db1.rows;
      }
    }
  }

  /** Removing rows keeps the remaining IDs distinct. */
  lemma {:induction false} RemoveRowKeepsUnique(rows: seq<Row>, id: Id)
    requires UniqueIds(rows)
    ensures UniqueIds(RemoveRow(rows, id))
  {
    if |rows| > 0 {
      var tail := rows[1..];
      assert UniqueIds(tail) by {
        forall i, j | 0 <= i < j < |tail| ensures tail[i].id != tail[j].id {
          assert tail[i] == rows[i + 1] && tail[j] == rows[j + 1];
        }
      }
      RemoveRowKeepsUnique(tail, id);
      var rest := RemoveRow(tail, id);
      if rows[0].id != id {
        var r := [rows[0]] + rest;
        forall i, j | 0 <= i < j < |r|
          ensures r[i].id != r[j].id
        {
          if i == 0 {
            assert r[j] in rest;
            assert r[j] in tail;
            var k :| 0 <= k < |tail| && tail[k] == r[j];
            assert rows[k + 1] == r[j];
          } else {
            assert r[i] == rest[i - 1] && r[j] == rest[j - 1];
          }
        }
      }
    }
  }

  /** Registering again with the same edges and no failure changes nothing:
      the row is found and the acknowledgement already exists. */
  lemma RegisterIdempotent(db: Db, e0: string, e1: string)
    ensures var (db1, r1) := RegisterTx(db, e0, e1, None);
      RegisterTx(db1, e0, e1, None) == (db1, r1)
  {
    var (db1, r1) := RegisterTx(db, e0, e1, None);
    match FindByEdges(db.rows, e0, e1)
    case Some(i) =>
    case None =>
      var n := |db.rows|;
      assert Contains(db1.rows[n], e0, e1);
      assert forall j :: 0 <= j < n ==> db1.rows[j] == db.rows[j];
      FindFirstByEdges(db1.rows, e0, e1, n);
  }

  lemma {:induction false} FindFirstByEdges(rows: seq<Row>, e0: string, e1: string, i: nat)
    requires i < |rows| && Contains(rows[i], e0, e1)
    requires forall j :: 0 <= j < i ==> !Contains(rows[j], e0, e1)
    ensures FindByEdges(rows, e0, e1) == Some(i)
  {
    if i > 0 {
      FindFirstByEdges(rows[1..], e0, e1, i - 1);
    }
  }

  /** In a table of unique IDs the row holding an ID is the one found. */
  lemma {:induction false} FindUniqueId(rows: seq<Row>, i: nat)
    requires i < |rows| && UniqueIds(rows)
    ensures FindById(rows, rows[i].id) == Some(i)
  {
    if i > 0 {
      var tail := rows[1..];
      assert UniqueIds(tail) by {
        forall p, q | 0 <= p < q < |tail| ensures tail[p].id != tail[q].id {
          assert tail[p] == rows[p + 1] && tail[q] == rows[q + 1];
        }
      }
      assert rows[0].id != rows[i].id;
      FindUniqueId(tail, i - 1);
    }
  }

  /** The containment query does not depend on the order of the edges. */
  lemma {:induction false} FindByEdgesSymmetric(rows: seq<Row>, a: string, b: string)
    ensures FindByEdges(rows, a, b) == FindByEdges(rows, b, a)
  {
    if |rows| > 0 {
      FindByEdgesSymmetric(rows[1..], a, b);
    }
  }

  /** The first registration of `{a, b}` leaves a row at some index k that
      both orders of the edges find, holding the returned ID and the first
      edge's acknowledgement. */
  lemma FirstRegistration(db: Db, a: string, b: string) returns (k: nat)
    requires Valid(db)
    ensures var (db1, r) := RegisterTx(db, a, b, None);
      && r.Ok? && Valid(db1) && k < |db1.rows| && db1.rows[k].id == r.value
      && FindByEdges(db1.rows, b, a) == Some(k) && Contains(db1.rows[k], a, b)
      && (r.value, a) in db1.acks
  {
    var (db1, r) := RegisterTx(db, a, b, None);
    RegisterKeepsValid(db, a, b, None);
    match FindByEdges(db.rows, a, b)
    case Some(i) =>
      k := i;
      FindByEdgesSymmetric(db1.rows, a, b);
    case None =>
      k := |db.rows|;
      assert forall j :: 0 <= j < k ==> db1.rows[j] == db.rows[j];
      FindFirstByEdges(db1.rows, a, b, k);
      FindByEdgesSymmetric(db1.rows, a, b);
  }

  /** The rendezvous: when one node registers `{A, B}` and the other
      `{B, A}`, both get the same ID and the lookup then succeeds with the
      row's edges, which are `A` and `B` in some order. */
  lemma Agreement(db: Db, a: string, b: string)
    requires Valid(db) && a != b
    ensures var (db1, r1) := RegisterTx(db, a, b, None);
      var (db2, r2) := RegisterTx(db1, b, a, None);
      && r1.Ok? && r2.Ok? && r1.value == r2.value
      && GetTransportById(db2, r1.value, None).Ok?
      && var t := GetTransportById(db2, r1.value, None).value;
         (t.edges == [a, b] || t.edges == [b, a])
  {
    var (db1, r1) := RegisterTx(db, a, b, None);
    var k := FirstRegistration(db, a, b);
    var (db2, r2) := RegisterTx(db1, b, a, None);
    assert r2 == r1 && db2.rows == db1.rows;
    assert (r1.value, b) in db2.acks && (r1.value, a) in db2.acks;
    FindUniqueId(db2.rows, k);
  }

  /** A transport from a node to itself never gathers two acknowledgements:
      the count can reach only 1. */
  lemma SelfTransportNeverFound(db: Db, id: Id, f: Option<Fault>)
    requires FindById(db.rows, id).Some?
    requires var e := db.rows[FindById(db.rows, id).value].edges; e.0 == e.1
    ensures GetTransportById(db, id, f).Err?
  {
  }

  /** After a deregistration the ID has no row and no acknowledgement, and a
      lookup reports not enough ACKs. */
  lemma DeregisterThenLookup(db: Db, id: Id)
    ensures var db1 := DeregisterTransport(db, id, None).0;
      && GetTransportById(db1, id, None) == Err(NotEnoughAcks)
      && forall node :: (id, node) !in db1.acks
  {
    var db1 := DeregisterTransport(db, id, None).0;
    assert forall j :: 0 <= j < |db1.rows| ==> db1.rows[j].id != id;
  }

  /** Only the first two edges reach the database: a transport with more
      registers exactly as one holding just those two. */
  lemma ExtraEdgesIgnored(db: Db, id: Id, a: string, b: string, more: seq<string>,
                          f: Option<Fault>, events: seq<WaitEvent>)
    ensures RegisterTransport(db, Transport(id, [a, b] + more), f, events)
         == RegisterTransport(db, Transport(id, [a, b]), f, events)
    ensures RegisterTransport(db, Transport(id, [a, b]), f, events).Registered?
  {
  }

  /** A transport with fewer than two edges panics unless the transaction
      fails to begin, and then the database is untouched. */
  lemma ShortEdgesPanic(db: Db, id: Id, edges: seq<string>, f: Option<Fault>, events: seq<WaitEvent>)
    requires |edges| < 2
    ensures var r := RegisterTransport(db, Transport(id, edges), f, events);
      r.Panicked? || (r.Registered? && r.res.Err? && r.db == db)
  {
  }

  /** A failure inside the registration transaction leaves neither a row
      nor an acknowledgement behind. */
  lemma RegisterRollsBack(db: Db, e0: string, e1: string, st: Stmt, e: Error)
    requires st in {Begin, FindRow, InsertAck, Commit}
      || (st == InsertRow && FindByEdges(db.rows, e0, e1).None?)
    ensures var (db1, r) := RegisterTx(db, e0, e1, Some(Fault(st, e)));
      r == Err(e) && db1.rows == db.rows && db1.acks == db.acks
  {
  }

  /** Lookup errors of any kind are retried: a run of failing ticks is
      skipped and the loop goes on with what follows. */
  lemma {:induction false} WaitSkipsFailures(id: Id, failed: seq<WaitEvent>, rest: seq<WaitEvent>)
    requires forall k :: 0 <= k < |failed| ==>
      failed[k].Tick? && GetTransportById(failed[k].snapshot, id, failed[k].fault).Err?
    ensures WaitForTransport(id, failed + rest) == WaitForTransport(id, rest)
  {
    if |failed| > 0 {
      var ev := failed + rest;
      assert ev[0] == Tick(failed[0].snapshot, failed[0].fault);
      assert GetTransportById(failed[0].snapshot, id, failed[0].fault).Err?;
      assert WaitForTransport(id, ev) == WaitForTransport(id, ev[1..]);
      assert ev[1..] == failed[1..] + rest;
      WaitSkipsFailures(id, failed[1..], rest);
    } else {
      assert failed + rest == rest;
    }
  }

  /** The first node's wait ends in success at the first tick after the
      second node's registration, however many failed lookups came before. */
  lemma WaitConvergesAfterPeer(db: Db, a: string, b: string, failed: seq<WaitEvent>, rest: seq<WaitEvent>)
    requires Valid(db) && a != b
    requires forall k :: 0 <= k < |failed| ==>
      failed[k].Tick?
      && GetTransportById(failed[k].snapshot, RegisterTx(db, a, b, None).1.value, failed[k].fault).Err?
    ensures var (db1, r1) := RegisterTx(db, a, b, None);
      var db2 := RegisterTx(db1, b, a, None).0;
      WaitForTransport(r1.value, failed + [Tick(db2, None)] + rest) == Converged
  {
    var (db1, r1) := RegisterTx(db, a, b, None);
    var db2 := RegisterTx(db1, b, a, None).0;
    Agreement(db, a, b);
    assert failed + [Tick(db2, None)] + rest == failed + ([Tick(db2, None)] + rest);
    WaitSkipsFailures(r1.value, failed, [Tick(db2, None)] + rest);
  }

  /** A context that ends before any lookup succeeds aborts the wait with
      the context's error. */
  lemma WaitAbortsOnCancel(id: Id, failed: seq<WaitEvent>, e: Error, rest: seq<WaitEvent>)
    requires forall k :: 0 <= k < |failed| ==>
      failed[k].Tick? && GetTransportById(failed[k].snapshot, id, failed[k].fault).Err?
    ensures WaitForTransport(id, failed + [CtxDone(e)] + rest) == Aborted(e)
  {
    assert failed + [CtxDone(e)] + rest == failed + ([CtxDone(e)] + rest);
    WaitSkipsFailures(id, failed, [CtxDone(e)] + rest);
  }
}

=== FILE: td_store.dfy ===
/** The shared vocabulary of the transport-discovery store package: its error
    values, the nonce type, the stored record and the request context. */
module TdStore {
  import opened Wrappers
  import opened Bytes
  import opened Decimal
  import opened Cipher
  import opened TransportEntry

  /** Every error value the store, the gate and the handlers produce. Those
      with a fixed identity in the source (package-level `errors.New` values
      and the context errors) are constructors of their own; ad-hoc
      `errors.New`/`fmt.Errorf` values carry their text. */
  datatype Error =
    | NotEnoughAcks        // store.ErrNotEnoughACKs
    | AlreadyRegistered    // store.ErrAlreadyRegistered
    | TransportNotFound    // store.ErrTransportNotFound
    | EmptyPubKey          // api.ErrEmptyPubKey
    | InvalidPubKey        // api.ErrInvalidPubKey
    | EmptyTransportId     // api.ErrEmptyTransportID
    | InvalidTransportId   // api.ErrInvalidTransportID
    | Canceled             // context.Canceled
    | DeadlineExceeded     // context.DeadlineExceeded
    | JsonSyntax(text: string)  // a *json.SyntaxError from the body decoder
    | Message(text: string)     // any other errors.New / fmt.Errorf value
    | Backend(text: string)     // an error coming from a driver or injected
  {
    /** `err.Error()`. */
    function Text(): string {
      match this
      case NotEnoughAcks => "Not enough ACKs"
      case AlreadyRegistered => "ID already registered"
      case TransportNotFound => "Transport not found"
      case EmptyPubKey => "PublicKey can't by empty"
      case InvalidPubKey => "PublicKey is invalid"
      case EmptyTransportId => "TransportID can't by empty"
      case InvalidTransportId => "TransportID is invalid"
      case Canceled => "context canceled"
      case DeadlineExceeded => "context deadline exceeded"
      case JsonSyntax(t) => t
      case Message(t) => t
      case Backend(t) => t
    }
  }

  /** `Nonce.String`: the counter in base 10. */
  function NonceString(n: uint64): (s: string)
    ensures ParseUint64(s) == Ok(n)
    ensures |s| >= 1 && AllDigits(s)
  {
    ParseDigitsRoundTrip(n);
    Digits(n)
  }

  /** `store.EntryWithStatus`: the registered entry, the AND of the two
      edges' statuses, the registration stamp and the per-edge statuses. */
  datatype EntryWithStatus = EntryWithStatus(
    entry: Entry, isUp: bool, registered: int, statuses: (bool, bool))

  /** The keys under which a `context.Context` value can be stored:
      `store.ContextAuthKey` is the value `struct{}{}`, and a string key
      compares by its text. */
  datatype CtxKey = AuthKeySentinel | NamedKey(name: string)

  /** The values of a request context. */
  datatype Context = Context(values: map<CtxKey, PubKey>)
  {
    /** `ctx.Value(k).(cipher.PubKey)`: the key stored under `k`, if any. */
    function Value(k: CtxKey): Option<PubKey> {
      if k in values then Some(values[k]) else None
    }

    /** `context.WithValue`. */
    function WithValue(k: CtxKey, v: PubKey): (c: Context)
      ensures c.Value(k) == Some(v)
      ensures forall j :: j != k ==> c.Value(j) == Value(j)
    {
      Context(values[k := v])
    }
  }

  const Background: Context := Context(map[])
}

=== FILE: transport_entry.dfy ===
/** `transport.Entry` of the vendored skywire-node package: the unsigned
    description of a transport and its binary form, which is what the two
    edges sign. */
module TransportEntry {
  import opened Wrappers
  import opened Bytes
  import opened Cipher

  const UuidSize: nat := 16

  /** `uuid.UUID`: 16 bytes. */
  type Uuid = u: seq<byte> | |u| == UuidSize witness seq(16, i => 0)

  /** `transport.Entry`. The edges are hex public keys. */
  datatype Entry = Entry(id: Uuid, edges: (string, string), kind: string, public: bool)

  /** `transport.SignedEntry`; `registered` is Unix seconds, 0 until stored. */
  datatype SignedEntry = SignedEntry(entry: Entry, signatures: (string, string), registered: int)

  /** An entry `ToBinary` accepts: `MustPubKeyFromHex` panics on an edge that
      is not a valid key, and `[]byte(Type)` reads the type's bytes. */
  predicate Encodable(c: Suite, e: Entry) {
    && PubKeyFromHex(c, e.edges.0).Ok?
    && PubKeyFromHex(c, e.edges.1).Ok?
    && IsByteString(e.kind)
  }

  /** `Entry.ToBinary`: the ID, the first edge's key, the second edge's key,
      then the type's bytes. */
  function ToBinary(c: Suite, e: Entry): (b: seq<byte>)
    requires Encodable(c, e)
    ensures |b| == UuidSize + 2 * PubKeySize + |e.kind|
    ensures b[..UuidSize] == e.id
  {
    e.id
      + PubKeyFromHex(c, e.edges.0).value
      + PubKeyFromHex(c, e.edges.1).value
      + StringBytes(e.kind)
  }

  /** The fixed-layout reading of a binary entry: ID, two keys, type bytes. */
  function FromBinary(b: seq<byte>): Option<(Uuid, PubKey, PubKey, seq<byte>)> {
    if |b| < UuidSize + 2 * PubKeySize then None
    else Some((b[..16], b[16..49], b[49..82], b[82..]))
  }

  /** Reading the binary form back yields the ID, the decoded key of each
      edge in order, and the type. */
  lemma ToBinaryLayout(c: Suite, e: Entry)
    requires Encodable(c, e)
    ensures FromBinary(ToBinary(c, e)) == Some((
      e.id,
      PubKeyFromHex(c, e.edges.0).value,
      PubKeyFromHex(c, e.edges.1).value,
      StringBytes(e.kind)))
  {
    var b := ToBinary(c, e);
    var k0 := PubKeyFromHex(c, e.edges.0).value;
    var k1 := PubKeyFromHex(c, e.edges.1).value;
    assert b == e.id + k0 + k1 + StringBytes(e.kind);
    assert b[16..49] == k0;
    assert b[49..82] == k1;
  }

  /** For edges written as the hex of valid keys, the binary form carries
      exactly those keys. */
  lemma ToBinaryOfKeys(c: Suite, id: Uuid, k0: PubKey, k1: PubKey, kind: string, public: bool)
    requires c.onCurve(k0) && c.onCurve(k1) && IsByteString(kind)
    ensures Encodable(c, Entry(id, (KeyHex(k0), KeyHex(k1)), kind, public))
    ensures ToBinary(c, Entry(id, (KeyHex(k0), KeyHex(k1)), kind, public))
      == id + k0 + k1 + StringBytes(kind)
  {
    PubKeyHexRoundTrip(c, k0);
    PubKeyHexRoundTrip(c, k1);
  }
}

=== FILE: update_checker.dfy ===
/** Update checkers (`pkg/update/checker.go`): a service's checker is either
    the GitHub-release checker, which compares the latest release's
    publication time with the recorded last update, or a script whose exit
    says whether an update is available. The HTTP fetch, the RFC 3339 parser,
    the clock and the script run are parameters. Times are Unix nanoseconds. */
module UpdateChecker {
  import opened Wrappers
  import opened UpdateConfig
  import opened UpdateEnvs
  import opened UpdateStore

  /** `CheckerType`. */
  datatype CheckerKind = GithubRelease | Script {
    function Name(): string {
      match this
      case GithubRelease => GithubReleaseType
      case Script => ScriptType
    }
  }

  /** `NewChecker`: the checker for the service's checker type. Any other
      type ends the process (`log.Fatalf`), modelled as None. */
  function NewChecker(c: ServiceConfig): (k: Option<CheckerKind>)
    ensures k.Some? <==> c.checker.kind == GithubReleaseType || c.checker.kind == ScriptType
    ensures k.Some? ==> k.value.Name() == c.checker.kind
  {
    if c.checker.kind == GithubReleaseType then Some(GithubRelease)
    else if c.checker.kind == ScriptType then Some(Script)
    else None
  }

  /** `GitReleaseBody`. */
  datatype GitReleaseBody = GitReleaseBody(url: string, tagName: string, pubAt: string, body: string)

  /** `Release`. */
  datatype Release = Release(
    hasUpdate: bool, version: string, timestamp: int, checkerType: CheckerKind,
    gitRelease: Option<GitReleaseBody>)

  /** The "has update" rule: nothing recorded yet, or the recorded update is
      strictly older than the publication. */
  predicate HasUpdate(last: Update, pubAt: int) {
    last.IsEmpty() || last.timestamp < pubAt
  }

  /** `GithubReleaseChecker.Check`, given what `fetchFromGit` returned and the
      RFC 3339 parser: fetch and parse errors come back unchanged; otherwise
      the release carries the tag, the publication time and the rule's
      verdict against the store. */
  function GithubCheck(db: Db, name: string, fetched: Result<GitReleaseBody, string>,
                       parseTime: string -> Result<int, string>): (r: Result<Release, string>)
    ensures fetched.Err? ==> r == Err(fetched.error)
    ensures fetched.Ok? && parseTime(fetched.value.pubAt).Err? ==> r == Err(parseTime(fetched.value.pubAt).error)
    ensures r.Ok? <==> fetched.Ok? && parseTime(fetched.value.pubAt).Ok?
    ensures r.Ok? ==>
      && r.value.version == fetched.value.tagName
      && r.value.timestamp == parseTime(fetched.value.pubAt).value
      && r.value.checkerType == GithubRelease
      && r.value.gitRelease == Some(fetched.value)
  {
    match fetched
    case Err(e) => Err(e)
    case Ok(body) =>
      match parseTime(body.pubAt)
      case Err(e) => Err(e)
      case Ok(pubAt) =>
        var last := ServiceLastUpdate(db, name);
        Ok(Release(HasUpdate(last, pubAt), body.tagName, pubAt, GithubRelease, Some(body)))
  }

  /** The verdict in terms of the store: a service never recorded always has
      an update; a recorded one has an update exactly when its recorded time
      is older than the publication (a recorded zero update counts as
      nothing recorded). */
  lemma GithubVerdict(db: Db, name: string, body: GitReleaseBody, parseTime: string -> Result<int, string>)
    requires parseTime(body.pubAt).Ok?
    ensures var r := GithubCheck(db, name, Ok(body), parseTime);
      var pubAt := parseTime(body.pubAt).value;
      && r.Ok?
      && (name !in db.data ==> r.value.hasUpdate)
      && (name in db.data && db.data[name].IsEmpty() ==> r.value.hasUpdate)
      && (name in db.data && !db.data[name].IsEmpty() ==>
            (r.value.hasUpdate <==> db.data[name].timestamp < pubAt))
  {
  }

  /** Once an update is recorded at or after the publication, the same
      release is no longer reported; before any record it always is. */
  lemma NoUpdateAfterRecording(db: Db, name: string, tag: string, now: int,
                               body: GitReleaseBody, parseTime: string -> Result<int, string>)
    requires parseTime(body.pubAt).Ok? && now >= parseTime(body.pubAt).value
    requires tag != "" || now != 0
    ensures !GithubCheck(SetServiceLastUpdate(db, name, Update(tag, now)), name, Ok(body), parseTime).value.hasUpdate
    ensures GithubCheck(Empty, name, Ok(body), parseTime).value.hasUpdate
  {
  }

  /** The script command: the interpreter runs the script with its
      arguments, under `CheckerEnvs`. */
  datatype Command = Command(path: string, args: seq<string>, env: seq<string>)

  function ScriptCommand(environ: seq<string>, d: DefaultsConfig, c: ServiceConfig): (cmd: Command)
    ensures cmd.path == c.checker.interpreter
    ensures cmd.args == [c.checker.script] + c.checker.args
    ensures cmd.env == CheckerEnvs(environ, d, c)
  {
    Command(c.checker.interpreter, [c.checker.script] + c.checker.args, CheckerEnvs(environ, d, c))
  }

  /** `ScriptChecker.Check`, given how the script run (`ExecuteScript`)
      answers and the clock: a script error comes back unchanged; otherwise
      the release carries the script's verdict and the current time. */
  function ScriptCheck(environ: seq<string>, d: DefaultsConfig, c: ServiceConfig,
                       run: Command -> Result<bool, string>, now: int): (r: Result<Release, string>)
    ensures run(ScriptCommand(environ, d, c)).Err? ==> r == Err(run(ScriptCommand(environ, d, c)).error)
    ensures run(ScriptCommand(environ, d, c)).Ok? ==>
      r == Ok(Release(run(ScriptCommand(environ, d, c)).value, "", now, Script, None))
  {
    match run(ScriptCommand(environ, d, c))
    case Err(e) => Err(e)
    case Ok(hasUpdate) => Ok(Release(hasUpdate, "", now, Script, None))
  }

  /** The script sees the service's main branch under its own override, else
      the service's, else the defaults'. */
  lemma ScriptSeesMainBranch(environ: seq<string>, d: DefaultsConfig, c: ServiceConfig)
    ensures Lookup(ScriptCommand(environ, d, c).env, EnvMainBranch) ==
      if Lookup(c.checker.envs, EnvMainBranch).Some? then Lookup(c.checker.envs, EnvMainBranch)
      else if c.mainBranch != "" then Some(c.mainBranch)
      else Lookup(environ + d.envs, EnvMainBranch)
  {
    CheckerMainBranch(environ, d, c);
  }
}

=== FILE: update_config.dfy ===
/** The updater's configuration (`pkg/update/config.go`): defaults, per-service
    checker and updater settings, the normalisation each service goes through,
    and the validation loop of `ParseConfig`. The file system and path joining
    are parameters. */
module UpdateConfig {
  import opened Wrappers

  /** What the configuration reads from the host: `filepath.Join`, the
      `os.Stat` check behind `scriptOK` (an error text for a script that
      cannot be accessed) and the home directory `userHomeDir` finds. */
  datatype Host = Host(join: (string, string) -> string, stat: string -> Option<string>, home: string)

  const ScriptType: string := "script"
  const GithubReleaseType: string := "github-release"

  /** `CheckerConfig` and `UpdaterConfig`, which Go declares as two
      identically shaped structs: a type and the script fields. */
  datatype ScriptConfig = ScriptConfig(
    kind: string, interpreter: string, script: string, args: seq<string>, envs: seq<string>)

  /** `ServiceConfig`. */
  datatype ServiceConfig = ServiceConfig(
    repo: string, mainBranch: string, mainProcess: string,
    checker: ScriptConfig, updater: ScriptConfig)

  /** `DefaultsConfig`. */
  datatype DefaultsConfig = DefaultsConfig(mainBranch: string, interpreter: string, envs: seq<string>)

  datatype PathsConfig = PathsConfig(dbFile: string, scriptsPath: string)

  datatype InterfacesConfig = InterfacesConfig(addr: string, enableRest: bool, enableRpc: bool)

  /** `Config`. */
  datatype Config = Config(
    paths: PathsConfig, interfaces: InterfacesConfig, defaults: DefaultsConfig,
    services: map<string, ServiceConfig>)

  /** `NewConfig`: the defaults every parsed file starts from. */
  function NewConfig(h: Host): (c: Config)
    ensures c.interfaces == InterfacesConfig(":7280", true, true)
    ensures c.defaults == DefaultsConfig("master", "/bin/bash", [])
    ensures c.services == map[]
    ensures c.paths.dbFile == h.join(h.join(h.home, ".skywire/updater"), "db.json")
    ensures c.paths.scriptsPath == h.join(h.join(h.home, ".skywire/updater"), "scripts")
  {
    var root := h.join(h.home, ".skywire/updater");
    Config(PathsConfig(h.join(root, "db.json"), h.join(root, "scripts")),
           InterfacesConfig(":7280", true, true),
           DefaultsConfig("master", "/bin/bash", []),
           map[])
  }

  /** The checker or updater half of `ServiceConfig.process`, `part` being
      "checker" or "updater": an empty type becomes "script"; a script part
      takes the default interpreter, must name a script, has the scripts
      path joined in front, and must be accessible. */
  function ProcessPart(p: ScriptConfig, part: string, scriptsPath: string, d: DefaultsConfig, h: Host)
    : (r: Result<ScriptConfig, string>)
    ensures p.kind != "" && p.kind != ScriptType ==> r == Ok(p)
    ensures (p.kind == "" || p.kind == ScriptType) && p.script == "" ==>
      r == Err(part + ".script needs to be defined")
    ensures (p.kind == "" || p.kind == ScriptType) && p.script != "" ==>
      var path := if scriptsPath == "" then p.script else h.join(scriptsPath, p.script);
      && (r.Ok? <==> h.stat(path).None?)
      && (h.stat(path).Some? ==> r == Err(part + ".script cannot be accessed: " + h.stat(path).value))
    ensures r.Ok? && (p.kind == "" || p.kind == ScriptType) ==>
      && r.value.kind == ScriptType
      && r.value.interpreter == (if p.interpreter == "" then d.interpreter else p.interpreter)
      && r.value.script == (if scriptsPath == "" then p.script else h.join(scriptsPath, p.script))
      && h.stat(r.value.script).None?
      && r.value.args == p.args && r.value.envs == p.envs
  {
    var p1 := if p.kind == "" then p.(kind := ScriptType) else p;
    if p1.kind != ScriptType then Ok(p1)
    else
      var p2 := if p1.interpreter == "" then p1.(interpreter := d.interpreter) else p1;
      if p2.script == "" then Err(part + ".script needs to be defined")
      else
        var p3 := if scriptsPath != "" then p2.(script := h.join(scriptsPath, p2.script)) else p2;
        match h.stat(p3.script)
        case Some(e) => Err(part + ".script cannot be accessed: " + e)
        case None => Ok(p3)
  }

  /** `ServiceConfig.process`: a service without a repository is accepted
      as it is; otherwise the main branch defaults, then the checker is
      normalised, then the updater. */
  function Process(sc: ServiceConfig, scriptsPath: string, d: DefaultsConfig, h: Host)
    : (r: Result<ServiceConfig, string>)
    ensures sc.repo == "" ==> r == Ok(sc)
    ensures sc.repo != "" && ProcessPart(sc.checker, "checker", scriptsPath, d, h).Err? ==>
      r == Err(ProcessPart(sc.checker, "checker", scriptsPath, d, h).error)
    ensures (sc.repo != "" && ProcessPart(sc.checker, "checker", scriptsPath, d, h).Ok?
      && ProcessPart(sc.updater, "updater", scriptsPath, d, h).Err?) ==>
      r == Err(ProcessPart(sc.updater, "updater", scriptsPath, d, h).error)
    ensures sc.repo != "" ==> (r.Ok? <==>
      ProcessPart(sc.checker, "checker", scriptsPath, d, h).Ok?
      && ProcessPart(sc.updater, "updater", scriptsPath, d, h).Ok?)
    ensures r.Ok? && sc.repo != "" ==>
      && r.value.mainBranch == (if sc.mainBranch == "" then d.mainBranch else sc.mainBranch)
      && r.value.repo == sc.repo && r.value.mainProcess == sc.mainProcess
      && Ok(r.value.checker) == ProcessPart(sc.checker, "checker", scriptsPath, d, h)
      && Ok(r.value.updater) == ProcessPart(sc.updater, "updater", scriptsPath, d, h)
  {
    if sc.repo == "" then Ok(sc)
    else
      var mb := if sc.mainBranch == "" then d.mainBranch else sc.mainBranch;
      match ProcessPart(sc.checker, "checker", scriptsPath, d, h)
      case Err(e) => Err(e)
      case Ok(ck) =>
        match ProcessPart(sc.updater, "updater", scriptsPath, d, h)
        case Err(e) => Err(e)
        case Ok(up) => Ok(sc.(mainBranch := mb, checker := ck, updater := up))
  }

  /** A valid service fed through the shipped defaults gets branch "master"
      and the "/bin/bash" interpreter for both scripts. */
  lemma DefaultsFillIn(h: Host, sc: ServiceConfig)
    requires sc.repo != "" && sc.mainBranch == ""
    requires sc.checker.kind == "" && sc.checker.interpreter == ""
    requires sc.updater.kind == "" && sc.updater.interpreter == ""
    requires Process(sc, "", NewConfig(h).defaults, h).Ok?
    ensures var r := Process(sc, "", NewConfig(h).defaults, h).value;
      && r.mainBranch == "master"
      && r.checker.kind == ScriptType && r.checker.interpreter == "/bin/bash"
      && r.updater.kind == ScriptType && r.updater.interpreter == "/bin/bash"
      && r.checker.script == sc.checker.script && r.updater.script == sc.updater.script
  {
  }

  /** The services' loop of `ParseConfig`, in the map's iteration order
      `order`: the first service that fails to normalise fails the whole
      parse, naming the service. */
  function ProcessAll(services: map<string, ServiceConfig>, order: seq<string>,
                      scriptsPath: string, d: DefaultsConfig, h: Host)
    : (r: Result<map<string, ServiceConfig>, string>)
    requires forall i :: 0 <= i < |order| ==> order[i] in services
    decreases |order|
  {
    if |order| == 0 then Ok(services)
    else
      var name := order[0];
      match Process(services[name], scriptsPath, d, h)
      case Err(e) => Err("invalid service " + name + ": " + e)
      case Ok(s) => ProcessAll(services[name := s], order[1..], scriptsPath, d, h)
  }

  /** An iteration order of a map: every key exactly once. */
  predicate Enumerates<V>(order: seq<string>, m: map<string, V>) {
    && (forall i :: 0 <= i < |order| ==> order[i] in m)
    && (forall k :: k in m ==> k in order)
    && (forall i, j :: 0 <= i < j < |order| ==> order[i] != order[j])
  }

  /** `ParseConfig` after the file has been read and unmarshalled over
      `NewConfig`: the services are normalised in place, in the map's
      iteration order. */
  function ParseConfig(conf: Config, order: seq<string>, h: Host): (r: Result<Config, string>)
    requires Enumerates(order, conf.services)
    ensures r.Ok? ==> r.value == conf.(services := r.value.services)
    ensures r.Ok? ==> r.value.services.Keys == conf.services.Keys
    ensures r.Ok? ==> forall n :: n in conf.services ==>
      Ok(r.value.services[n]) == Process(conf.services[n], conf.paths.scriptsPath, conf.defaults, h)
  {
    ProcessAllOutcome(conf.services, conf.services, order, conf.paths.scriptsPath, conf.defaults, h);
    match ProcessAll(conf.services, order, conf.paths.scriptsPath, conf.defaults, h)
    case Err(e) => Err(e)
    case Ok(s) => Ok(conf.(services := s))
  }

  /** Whatever the iteration order, parsing succeeds exactly when every
      service normalises, and then holds each service's normalised form;
      a failure names a service that does not normalise. */
  lemma ParseConfigOutcome(conf: Config, order: seq<string>, h: Host)
    requires Enumerates(order, conf.services)
    ensures var r := ParseConfig(conf, order, h);
      && (r.Ok? <==> forall n :: n in conf.services ==>
            Process(conf.services[n], conf.paths.scriptsPath, conf.defaults, h).Ok?)
      && (r.Ok? ==> (
            && r.value.services.Keys == conf.services.Keys
            && forall n :: n in conf.services ==>
                 Ok(r.value.services[n]) == Process(conf.services[n], conf.paths.scriptsPath, conf.defaults, h)))
      && (r.Err? ==> exists n :: (
            && n in conf.services
            && Process(conf.services[n], conf.paths.scriptsPath, conf.defaults, h).Err?
            && r.error == "invalid service " + n + ": "
                 + Process(conf.services[n], conf.paths.scriptsPath, conf.defaults, h).error))
  {
    ProcessAllOutcome(conf.services, conf.services, order, conf.paths.scriptsPath, conf.defaults, h);
  }

  /** The loop's invariant: names still to visit hold their original
      configuration; visited ones hold their normalised form. */
  lemma {:induction false} ProcessAllOutcome(orig: map<string, ServiceConfig>, cur: map<string, ServiceConfig>,
                                            order: seq<string>, sp: string, d: DefaultsConfig, h: Host)
    requires cur.Keys == orig.Keys
    requires forall i :: 0 <= i < |order| ==> order[i] in cur
    requires forall i, j :: 0 <= i < j < |order| ==> order[i] != order[j]
    requires forall n :: n in orig && n in order ==> cur[n] == orig[n]
    requires forall n :: n in orig && n !in order ==> Ok(cur[n]) == Process(orig[n], sp, d, h)
    ensures var r := ProcessAll(cur, order, sp, d, h);
      && (r.Ok? <==> forall n :: n in order ==> Process(orig[n], sp, d, h).Ok?)
      && (r.Ok? ==> (
            && r.value.Keys == orig.Keys
            && forall n :: n in orig ==> Ok(r.value[n]) == Process(orig[n], sp, d, h)))
      && (r.Err? ==> exists n :: (
            && n in order && Process(orig[n], sp, d, h).Err?
            && r.error == "invalid service " + n + ": " + Process(orig[n], sp, d, h).error))
    decreases |order|
  {
    if |order| > 0 {
      var name := order[0];
      match Process(cur[name], sp, d, h)
      case Err(e) =>
        assert Process(orig[name], sp, d, h).Err?;
      case Ok(s) =>
        var next := cur[name := s];
        forall n | n in orig && n in order[1..]
          ensures next[n] == orig[n]
        {
          var k :| 1 <= k < |order| && order[k] == n;
          assert order[0] != order[k];
        }
        ProcessAllOutcome(orig, next, order[1..], sp, d, h);
        forall n | n in order
          ensures n == name || n in order[1..]
        {
          var k :| 0 <= k < |order| && order[k] == n;
          if k > 0 { assert order[1..][k - 1] == n; }
        }
    }
  }
}

=== FILE: update_envs.dfy ===
/** The environment handed to checker and updater scripts
    (`pkg/update/envs.go`): the process environment, then the defaults', the
    service's and the checker's or updater's variables. The process runner
    keeps the last entry for a key, so later entries override earlier ones. */
module UpdateEnvs {
  import opened Wrappers
  import opened UpdateConfig

  const EnvRepo: string := "SKYUPD_REPO"
  const EnvMainBranch: string := "SKYUPD_MAIN_BRANCH"
  const EnvMainProcess: string := "SKYUPD_MAIN_PROCESS"
  const EnvToVersion: string := "SKYUPD_TO_VERSION"

  /** `MakeEnv`: "key=value". */
  function MakeEnv(key: string, value: string): (kv: string)
    ensures |kv| == |key| + 1 + |value|
    ensures kv[..|key|] == key && kv[|key|] == '=' && kv[|key| + 1..] == value
  {
    key + "=" + value
  }

  /** An entry's key and value, split at its first '='; None when there is
      no '='. */
  function SplitEnv(kv: string): (r: Option<(string, string)>)
    ensures r.Some? ==> '=' !in r.value.0
    decreases |kv|
  {
    if |kv| == 0 then None
    else if kv[0] == '=' then Some(("", kv[1..]))
    else match SplitEnv(kv[1..])
      case None => None
      case Some((k, v)) => Some(([kv[0]] + k, v))
  }

  /** A key without '=' and any value split back out of `MakeEnv`. */
  lemma {:induction false} SplitMakeEnv(key: string, value: string)
    requires '=' !in key
    ensures SplitEnv(MakeEnv(key, value)) == Some((key, value))
    decreases |key|
  {
    if |key| > 0 {
      SplitMakeEnv(key[1..], value);
      var kv := MakeEnv(key, value);
      assert kv[0] == key[0] && key[0] != '=';
      assert kv[1..] == MakeEnv(key[1..], value);
      assert key == [key[0]] + key[1..];
    } else {
      assert MakeEnv(key, value) == "=" + value;
    }
  }

  /** Every entry that splits is the `MakeEnv` of its parts. */
  lemma {:induction false} SplitEnvInverse(kv: string)
    requires SplitEnv(kv).Some?
    ensures MakeEnv(SplitEnv(kv).value.0, SplitEnv(kv).value.1) == kv
    decreases |kv|
  {
    if kv[0] != '=' {
      SplitEnvInverse(kv[1..]);
      assert kv == [kv[0]] + kv[1..];
    } else {
      assert kv == "=" + kv[1..];
    }
  }

  /** The value a script sees for `key`: the last entry that names it. */
  function Lookup(envs: seq<string>, key: string): (r: Option<string>)
    ensures r.Some? ==> exists i :: 0 <= i < |envs| && SplitEnv(envs[i]) == Some((key, r.value))
    ensures r.None? ==> forall i :: 0 <= i < |envs| ==> SplitEnv(envs[i]).None? || SplitEnv(envs[i]).value.0 != key
    decreases |envs|
  {
    if |envs| == 0 then None
    else
      var last := envs[|envs| - 1];
      var rest := Lookup(envs[..|envs| - 1], key);
      if SplitEnv(last).Some? && SplitEnv(last).value.0 == key then Some(SplitEnv(last).value.1)
      else (assert forall i :: 0 <= i < |envs| - 1 ==> envs[..|envs| - 1][i] == envs[i]; rest)
  }

  /** Later entries win: the lookup in a concatenation prefers the second
      part. */
  lemma {:induction false} LookupAppend(a: seq<string>, b: seq<string>, key: string)
    ensures Lookup(a + b, key) == if Lookup(b, key).Some? then Lookup(b, key) else Lookup(a, key)
    decreases |b|
  {
    if |b| == 0 {
      assert a + b == a;
    } else {
      assert (a + b)[..|a + b| - 1] == a + b[..|b| - 1];
      LookupAppend(a, b[..|b| - 1], key);
    }
  }

  /** One `MakeEnv` entry answers for its own key only. */
  lemma LookupOne(k: string, v: string, key: string)
    requires '=' !in k
    ensures Lookup([MakeEnv(k, v)], key) == if key == k then Some(v) else None
  {
    SplitMakeEnv(k, v);
    assert [MakeEnv(k, v)][..0] == [];
  }

  /** `srvEnvs`: the process environment, the defaults' variables, then the
      repository, main branch and main process when they are set. */
  function SrvEnvs(environ: seq<string>, d: DefaultsConfig, s: ServiceConfig): (r: seq<string>)
    ensures |environ| + |d.envs| <= |r| <= |environ| + |d.envs| + 3
    ensures r[..|environ| + |d.envs|] == environ + d.envs
    ensures forall i :: |environ| + |d.envs| <= i < |r| ==>
      r[i] in [MakeEnv(EnvRepo, s.repo), MakeEnv(EnvMainBranch, s.mainBranch), MakeEnv(EnvMainProcess, s.mainProcess)]
    ensures s.repo != "" ==> MakeEnv(EnvRepo, s.repo) in r
    ensures s.mainBranch != "" ==> MakeEnv(EnvMainBranch, s.mainBranch) in r
    ensures s.mainProcess != "" ==> |r| > 0 && r[|r| - 1] == MakeEnv(EnvMainProcess, s.mainProcess)
  {
    environ + d.envs
      + (if s.repo != "" then [MakeEnv(EnvRepo, s.repo)] else [])
      + (if s.mainBranch != "" then [MakeEnv(EnvMainBranch, s.mainBranch)] else [])
      + (if s.mainProcess != "" then [MakeEnv(EnvMainProcess, s.mainProcess)] else [])
  }

  /** `CheckerEnvs`. */
  function CheckerEnvs(environ: seq<string>, d: DefaultsConfig, s: ServiceConfig): (e: seq<string>)
    ensures |e| == |SrvEnvs(environ, d, s)| + |s.checker.envs|
    ensures e[..|SrvEnvs(environ, d, s)|] == SrvEnvs(environ, d, s)
    ensures e[|SrvEnvs(environ, d, s)|..] == s.checker.envs
  {
    SrvEnvs(environ, d, s) + s.checker.envs
  }

  /** `UpdaterEnvs`: the target version, when given, comes last. */
  function UpdaterEnvs(environ: seq<string>, d: DefaultsConfig, s: ServiceConfig, toVersion: string): (e: seq<string>)
    ensures |e| >= |SrvEnvs(environ, d, s)|
    ensures e[..|SrvEnvs(environ, d, s)|] == SrvEnvs(environ, d, s)
    ensures toVersion == "" ==> e[|SrvEnvs(environ, d, s)|..] == s.updater.envs
    ensures toVersion != "" ==> e[|SrvEnvs(environ, d, s)|..] == s.updater.envs + [MakeEnv(EnvToVersion, toVersion)]
  {
    SrvEnvs(environ, d, s) + s.updater.envs + (if toVersion != "" then [MakeEnv(EnvToVersion, toVersion)] else [])
  }

  /** The lookup of an optional entry: the entry's value for its own key,
      the earlier lookup otherwise. */
  lemma LookupOptional(a: seq<string>, cond: bool, k: string, v: string, key: string)
    requires '=' !in k
    ensures Lookup(a + (if cond then [MakeEnv(k, v)] else []), key)
      == if cond && key == k then Some(v) else Lookup(a, key)
  {
    if cond {
      LookupAppend(a, [MakeEnv(k, v)], key);
      LookupOne(k, v, key);
    } else {
      assert a + [] == a;
    }
  }

  /** How `SrvEnvs` answers each key: the three service keys from a set
      service field, everything else from the process and defaults. */
  lemma LookupSrvEnvs(environ: seq<string>, d: DefaultsConfig, s: ServiceConfig, key: string)
    ensures Lookup(SrvEnvs(environ, d, s), key) ==
      if key == EnvMainProcess && s.mainProcess != "" then Some(s.mainProcess)
      else if key == EnvMainBranch && s.mainBranch != "" then Some(s.mainBranch)
      else if key == EnvRepo && s.repo != "" then Some(s.repo)
      else Lookup(environ + d.envs, key)
  {
    var a0 := environ + d.envs;
    var a1 := a0 + (if s.repo != "" then [MakeEnv(EnvRepo, s.repo)] else []);
    var a2 := a1 + (if s.mainBranch != "" then [MakeEnv(EnvMainBranch, s.mainBranch)] else []);
    LookupOptional(a0, s.repo != "", EnvRepo, s.repo, key);
    LookupOptional(a1, s.mainBranch != "", EnvMainBranch, s.mainBranch, key);
    LookupOptional(a2, s.mainProcess != "", EnvMainProcess, s.mainProcess, key);
  }

  /** A checker sees the main branch from its own variables, else from the
      service, else from the process and defaults. */
  lemma CheckerMainBranch(environ: seq<string>, d: DefaultsConfig, s: ServiceConfig)
    ensures Lookup(CheckerEnvs(environ, d, s), EnvMainBranch) ==
      if Lookup(s.checker.envs, EnvMainBranch).Some? then Lookup(s.checker.envs, EnvMainBranch)
      else if s.mainBranch != "" then Some(s.mainBranch)
      else Lookup(environ + d.envs, EnvMainBranch)
  {
    LookupAppend(SrvEnvs(environ, d, s), s.checker.envs, EnvMainBranch);
    LookupSrvEnvs(environ, d, s, EnvMainBranch);
  }

  /** An updater sees a non-empty target version, else its own variables'
      value, else the process and defaults'. */
  lemma UpdaterToVersion(environ: seq<string>, d: DefaultsConfig, s: ServiceConfig, toVersion: string)
    ensures Lookup(UpdaterEnvs(environ, d, s, toVersion), EnvToVersion) ==
      if toVersion != "" then Some(toVersion)
      else if Lookup(s.updater.envs, EnvToVersion).Some? then Lookup(s.updater.envs, EnvToVersion)
      else Lookup(environ + d.envs, EnvToVersion)
  {
    var base := SrvEnvs(environ, d, s) + s.updater.envs;
    LookupOptional(base, toVersion != "", EnvToVersion, toVersion, EnvToVersion);
    LookupAppend(SrvEnvs(environ, d, s), s.updater.envs, EnvToVersion);
    LookupSrvEnvs(environ, d, s, EnvToVersion);
  }

  /** A key no later layer sets keeps the value of the process and
      defaults. */
  lemma CheckerKeepsOthers(environ: seq<string>, d: DefaultsConfig, s: ServiceConfig, key: string)
    requires key != EnvRepo && key != EnvMainBranch && key != EnvMainProcess
    requires Lookup(s.checker.envs, key).None?
    ensures Lookup(CheckerEnvs(environ, d, s), key) == Lookup(environ + d.envs, key)
  {
    LookupAppend(SrvEnvs(environ, d, s), s.checker.envs, key);
    LookupSrvEnvs(environ, d, s, key);
  }
}

=== FILE: update_manager.dfy ===
/** The updater's service manager (`pkg/update/manager.go`): the configured
    services by name, the last-update store, and the three operations the
    API exposes. Checking and updating a service are parameters standing for
    its checker and updater. */
module UpdateManager {
  import opened Wrappers
  import opened UpdateConfig
  import opened UpdateStore
  import opened UpdateChecker

  /** `ErrServiceNotFound`. */
  const ErrServiceNotFound: string := "service of given name is not found"

  datatype Manager = Manager(services: map<string, ServiceConfig>, db: Db)

  /** `NewManager`: every configured service, with the scripts directory
      joined (`path.Join`) in front of its checker and updater scripts. */
  function NewManager(db: Db, scriptsDir: string, services: map<string, ServiceConfig>,
                      join: (string, string) -> string): (m: Manager)
    ensures m.db == db && m.services.Keys == services.Keys
    ensures forall n :: n in services ==>
      m.services[n] == services[n].(
        checker := services[n].checker.(script := join(scriptsDir, services[n].checker.script)),
        updater := services[n].updater.(script := join(scriptsDir, services[n].updater.script)))
  {
    Manager(map n | n in services :: services[n].(
      checker := services[n].checker.(script := join(scriptsDir, services[n].checker.script)),
      updater := services[n].updater.(script := join(scriptsDir, services[n].updater.script))), db)
  }

  /** Go's string order (`sort.Strings`): byte-wise lexicographic, a proper
      prefix first. */
  predicate Less(a: string, b: string)
    decreases |a|
  {
    if |a| == 0 then |b| > 0
    else if |b| == 0 then false
    else if a[0] != b[0] then a[0] < b[0]
    else Less(a[1..], b[1..])
  }

  lemma {:induction false} LessIrreflexive(a: string)
    ensures !Less(a, a)
    decreases |a|
  {
    if |a| > 0 { LessIrreflexive(a[1..]); }
  }

  lemma {:induction false} LessTransitive(a: string, b: string, c: string)
    requires Less(a, b) && Less(b, c)
    ensures Less(a, c)
    decreases |a|
  {
    if |a| > 0 && a[0] == b[0] && b[0] == c[0] {
      LessTransitive(a[1..], b[1..], c[1..]);
    }
  }

  /** Distinct strings are ordered one way or the other. */
  lemma {:induction false} LessTotal(a: string, b: string)
    requires a != b
    ensures Less(a, b) || Less(b, a)
    decreases |a|
  {
    if |a| > 0 && |b| > 0 && a[0] == b[0] {
      assert a == [a[0]] + a[1..] && b == [b[0]] + b[1..];
      LessTotal(a[1..], b[1..]);
    }
  }

  /** Strictly ascending, hence without repeats. */
  predicate Ascending(s: seq<string>) {
    forall i, j :: 0 <= i < j < |s| ==> Less(s[i], s[j])
  }

  /** `k` placed into an ascending list that lacks it. */
  function Insert(s: seq<string>, k: string): (r: seq<string>)
    requires Ascending(s) && k !in s
    ensures Ascending(r) && |r| == |s| + 1
    ensures forall x :: x in r <==> x in s || x == k
    decreases |s|
  {
    if |s| == 0 then [k]
    else if Less(k, s[0]) then
      assert Ascending([k] + s) by {
        forall j | 0 <= j < |s| ensures Less(k, s[j]) {
          if j > 0 { LessTransitive(k, s[0], s[j]); }
        }
        forall i, j | 0 <= i < j < |s| + 1 ensures Less(([k] + s)[i], ([k] + s)[j]) {
          assert ([k] + s)[j] == s[j - 1];
          if i > 0 { assert ([k] + s)[i] == s[i - 1]; }
        }
      }
      [k] + s
    else
      LessTotal(k, s[0]);
      assert Ascending(s[1..]) by {
        forall i, j | 0 <= i < j < |s| - 1 ensures Less(s[1..][i], s[1..][j]) {
          assert s[1..][i] == s[i + 1] && s[1..][j] == s[j + 1];
        }
      }
      var rest := Insert(s[1..], k);
      assert forall x :: x in rest ==> Less(s[0], x) by {
        forall x | x in rest ensures Less(s[0], x) {
          if x != k {
            var j :| 0 <= j < |s| - 1 && s[1..][j] == x;
            assert s[j + 1] == x;
          }
        }
      }
      assert Ascending([s[0]] + rest) by {
        forall i, j | 0 <= i < j < |rest| + 1 ensures Less(([s[0]] + rest)[i], ([s[0]] + rest)[j]) {
          if i == 0 { assert ([s[0]] + rest)[j] == rest[j - 1] && rest[j - 1] in rest; }
          else { assert ([s[0]] + rest)[i] == rest[i - 1] && ([s[0]] + rest)[j] == rest[j - 1]; }
        }
      }
      assert forall x :: x in s <==> x == s[0] || x in s[1..] by {
        assert s == [s[0]] + s[1..];
      }
      [s[0]] + rest
  }

  /** `Services`: every configured service's name, in ascending order. */
  method Services(m: Manager) returns (names: seq<string>)
    ensures Ascending(names)
    ensures forall n :: n in names <==> n in m.services
    ensures |names| == |m.services|
  {
    names := [];
    var rest := m.services.Keys;
    while rest != {}
      invariant rest <= m.services.Keys
      invariant Ascending(names)
      invariant forall n :: n in names <==> n in m.services && n !in rest
      invariant |names| + |rest| == |m.services|
      decreases |rest|
    {
      var n :| n in rest;
      names := Insert(names, n);
      rest := rest - {n};
    }
  }

  /** The listing is determined by the names alone: two ascending lists
      with the same names are the same list, whatever order the map was
      visited in. */
  lemma {:induction false} AscendingUnique(a: seq<string>, b: seq<string>)
    requires Ascending(a) && Ascending(b)
    requires forall x :: x in a <==> x in b
    ensures a == b
    decreases |a|
  {
    SameNamesBothEmpty(a, b);
    if |a| > 0 {
      HeadTail(a);
      HeadTail(b);
      if a[0] != b[0] {
        assert b[0] in a[1..] && a[0] in b[1..];
        LessTransitive(a[0], b[0], a[0]);
        LessIrreflexive(a[0]);
      }
      AscendingUnique(a[1..], b[1..]);
      assert a == [a[0]] + a[1..] && b == [b[0]] + b[1..];
    }
  }

  /** Lists with the same names are empty together. */
  lemma SameNamesBothEmpty(a: seq<string>, b: seq<string>)
    requires forall x :: x in a <==> x in b
    ensures |a| == 0 <==> |b| == 0
  {
    if |a| > 0 { assert a[0] in a; }
    if |b| > 0 { assert b[0] in b; }
  }

  /** The head of an ascending list is below the rest, which is ascending
      and holds every other name. */
  lemma HeadTail(s: seq<string>)
    requires Ascending(s) && |s| > 0
    ensures Ascending(s[1..])
    ensures forall x :: x in s[1..] ==> Less(s[0], x)
    ensures forall x :: x in s[1..] <==> x in s && x != s[0]
  {
    forall i, j | 0 <= i < j < |s| - 1 ensures Less(s[1..][i], s[1..][j]) {
      assert s[1..][i] == s[i + 1] && s[1..][j] == s[j + 1];
    }
    forall x | x in s[1..] ensures Less(s[0], x) {
      var i :| 0 <= i < |s| - 1 && s[1..][i] == x;
      assert s[i + 1] == x;
    }
    forall x ensures x in s[1..] <==> x in s && x != s[0] {
      if x in s[1..] { LessIrreflexive(s[0]); }
      if x in s && x != s[0] {
        var i :| 0 <= i < |s| && s[i] == x;
        assert s[1..][i - 1] == x;
      }
    }
  }

  /** `Check`: an unknown service fails with `ErrServiceNotFound`; a known
      one answers with its checker's result. */
  function Check(m: Manager, name: string, check: ServiceConfig -> Result<Release, string>)
    : (r: Result<Release, string>)
    ensures name !in m.services ==> r == Err(ErrServiceNotFound)
    ensures name in m.services ==> r == check(m.services[name])
  {
    if name !in m.services then Err(ErrServiceNotFound) else check(m.services[name])
  }

  /** `Update`: an unknown service fails with `ErrServiceNotFound`; an
      updater error comes back unchanged; only a run that reports an update
      records `toVersion` at the current time for that service. */
  function Update(m: Manager, name: string, toVersion: string,
                  update: (ServiceConfig, string) -> Result<bool, string>, now: int)
    : (r: (Manager, Result<bool, string>))
    ensures r.0.services == m.services
    ensures name !in m.services ==> r == (m, Err(ErrServiceNotFound))
    ensures name in m.services && update(m.services[name], toVersion).Err? ==>
      r == (m, Err(update(m.services[name], toVersion).error))
    ensures r.1 == Ok(false) ==> r.0 == m
    ensures r.1 == Ok(true) <==> name in m.services && update(m.services[name], toVersion) == Ok(true)
  {
    if name !in m.services then (m, Err(ErrServiceNotFound))
    else
      match update(m.services[name], toVersion)
      case Err(e) => (m, Err(e))
      case Ok(updated) =>
        if updated then (m.(db := SetServiceLastUpdate(m.db, name, UpdateStore.Update(toVersion, now))), Ok(true))
        else (m, Ok(false))
  }

  /** A successful update is what the store then reports for that service,
      and no other service's record moves. */
  lemma UpdateRecords(m: Manager, name: string, toVersion: string,
                      update: (ServiceConfig, string) -> Result<bool, string>, now: int, other: string)
    requires Update(m, name, toVersion, update, now).1 == Ok(true)
    ensures ServiceLastUpdate(Update(m, name, toVersion, update, now).0.db, name) == UpdateStore.Update(toVersion, now)
    ensures other != name ==>
      ServiceLastUpdate(Update(m, name, toVersion, update, now).0.db, other) == ServiceLastUpdate(m.db, other)
  {
    SetThenGet(m.db, name, UpdateStore.Update(toVersion, now), other);
  }

  /** After a GitHub release is installed at or after its publication time,
      checking the service again reports no update for it. */
  lemma UpdateSilencesRelease(m: Manager, name: string, update: (ServiceConfig, string) -> Result<bool, string>,
                              now: int, body: GitReleaseBody, parseTime: string -> Result<int, string>)
    requires body.tagName != "" && parseTime(body.pubAt).Ok? && now >= parseTime(body.pubAt).value
    requires Update(m, name, body.tagName, update, now).1 == Ok(true)
    ensures !GithubCheck(Update(m, name, body.tagName, update, now).0.db, name, Ok(body), parseTime).value.hasUpdate
  {
    NoUpdateAfterRecording(m.db, name, body.tagName, now, body, parseTime);
  }

  /** A manager built from a configuration answers for exactly the
      configured names: `Check` hands the checker the service with both
      scripts under the scripts directory, and an unknown name fails both
      `Check` and `Update` without touching the manager. */
  lemma ManagerServesConfigured(db: Db, scriptsDir: string, services: map<string, ServiceConfig>,
                                join: (string, string) -> string, name: string,
                                check: ServiceConfig -> Result<Release, string>,
                                update: (ServiceConfig, string) -> Result<bool, string>,
                                toVersion: string, now: int)
    ensures var m := NewManager(db, scriptsDir, services, join);
      && (name !in services ==>
            Check(m, name, check) == Err(ErrServiceNotFound)
            && Update(m, name, toVersion, update, now) == (m, Err(ErrServiceNotFound)))
      && (name in services ==>
            && Check(m, name, check) == check(m.services[name])
            && m.services[name].repo == services[name].repo
            && m.services[name].checker.script == join(scriptsDir, services[name].checker.script)
            && m.services[name].updater.script == join(scriptsDir, services[name].updater.script))
  {
  }
}

=== FILE: update_store.dfy ===
/** The updater's record of each service's last update (`pkg/store/store.go`):
    a JSON file holding a map from service name to `Update`. The model keeps
    the map; rewriting the file after each set is left to the host. */
module UpdateStore {

  /** `Update`: the tag installed and when, in Unix nanoseconds. */
  datatype Update = Update(tag: string, timestamp: int) {
    /** `IsEmpty`: the zero `Update{}`. */
    predicate IsEmpty(): (e: bool)
      ensures e <==> this == Update("", 0)
    {
      tag == "" && timestamp == 0
    }
  }

  /** The zero `Update{}`. */
  const NoUpdate: Update := Update("", 0)

  /** An update is empty exactly when it is the zero value. */
  lemma IsEmptyIffZero(u: Update)
    ensures u.IsEmpty() <==> u == NoUpdate
  {
  }

  /** `JSON`'s in-memory map. */
  datatype Db = Db(data: map<string, Update>)

  /** The store `NewJSON` starts from when the file is new. */
  const Empty: Db := Db(map[])

  /** `ServiceLastUpdate`: the stored update, or the zero one for a service
      never recorded. Reading leaves the store as it was. */
  function ServiceLastUpdate(db: Db, name: string): (u: Update)
    ensures name !in db.data ==> u.IsEmpty()
    ensures name in db.data ==> u == db.data[name]
  {
    if name in db.data then db.data[name] else NoUpdate
  }

  /** `SetServiceLastUpdate`: records `last` under `name`, replacing any
      earlier entry. */
  function SetServiceLastUpdate(db: Db, name: string, last: Update): (r: Db)
    ensures r.data.Keys == db.data.Keys + {name}
    ensures r.data[name] == last
    ensures forall n :: n in db.data && n != name ==> r.data[n] == db.data[n]
  {
    Db(db.data[name := last])
  }

  /** Reading back a set gives what was set, and every other service keeps
      its entry. */
  lemma SetThenGet(db: Db, name: string, last: Update, other: string)
    ensures ServiceLastUpdate(SetServiceLastUpdate(db, name, last), name) == last
    ensures other != name ==>
      ServiceLastUpdate(SetServiceLastUpdate(db, name, last), other) == ServiceLastUpdate(db, other)
  {
  }

  /** A later set of the same service replaces the earlier one. */
  lemma SetTwice(db: Db, name: string, a: Update, b: Update)
    ensures SetServiceLastUpdate(SetServiceLastUpdate(db, name, a), name, b) == SetServiceLastUpdate(db, name, b)
  {
  }
}

=== FILE: wrappers.dfy ===
/** Failure-carrying datatypes shared by every module of the model.
    Go returns `(value, error)` pairs and nil pointers; the model returns
    `Result` and `Option` values instead. */
module Wrappers {

  /** A value that may be absent (a Go nil pointer, a missing map entry). */
  datatype Option<+T> = None | Some(value: T) {

    function GetOr(default: T): T {
      match this
      case Some(v) => v
      case None => default
    }
  }

  /** Either a value or the error the Go code would return next to it. */
  datatype Result<+T, +E> = Ok(value: T) | Err(error: E) {

    predicate IsFailure() {
      Err?
    }

    function PropagateFailure<U>(): Result<U, E>
      requires Err?
    {
      Err(error)
    }

    function Extract(): T
      requires Ok?
    {
      value
    }
  }

  /** The unit value, for operations that only report success or an error. */
  datatype Unit = Unit
}
